=== FILE: README.md ===
# Broker licence registry console — Dafny model

This project models the admin console of a real-estate broker licence registry. The console is a React single-page app. The model covers:

- the notification centre;
- the broker and user lists with their create/view/edit/delete modals;
- the licence checker, in its registry-backed version and its fixed-table version;
- the new-password, forgotten-password and sign-in pages;
- the authentication context, the HTTP client's interceptors and the protected-route gate;
- the sidebar;
- the file-upload page with its date picker.

Each component is a Dafny module of pure functions over immutable datatypes. React state becomes a record, and each event handler becomes a function from the old state to the new one.

These modules model JavaScript built-ins the components rely on, so they carry no rows of their own:

- `Seqs`: `filter`.
- `JsText`: `trim`, `startsWith`, `replace`, `split`, `join`, `pop`, `toUpperCase`, `toString`, `padStart`, string truthiness, UTF-16 `length`.
- `Gregorian`: the proleptic Gregorian calendar of `Date`, day numbers, `getDay()`, and the `YYYY-MM-DD` text of `<input type="date">`.

Modelling conventions:

- JavaScript objects are compared with `===`, so list records are `Entry(ref, value)`. The reference stands for object identity, and every saved form gets a fresh one.
- Local storage is a `map<string, string>`.
- A missing value (`null`/`undefined`) is `None`.
- A string is truthy when it is non-empty.
- The browser's constraint validation (`required`, `minLength`, `type="email"`, following section 4.10 of the WHATWG HTML Living Standard) is the module `FormValidity`. Pressing the submit button of a form that fails it never reaches the form's `onSubmit` handler, so each page has a "press submit" function that applies it before the handler.
- The network, timers, `FileReader`, `alert`, routing and the locale date formatter become parameters or are left out (see below).

## Model

| member | source | states |
|---|---|---|
| NotificationStore.InitialNotifications | src/context/NotificationContext.jsx:4-65 | six seeded notifications, ids 1 to 6, all unread, ids distinct |
| NotificationStore.MarkAllAsRead | src/context/NotificationContext.jsx:75-78 | same length; every entry is the old one with `read` set |
| NotificationStore.MarkAsRead | src/context/NotificationContext.jsx:86-91 | same length; entries with the id become read, all others are unchanged |
| NotificationStore.DeleteNotification | src/context/NotificationContext.jsx:94-96 | the result is a subsequence with no entry of that id, and every entry of another id survives |
| NotificationStore.DeleteAllNotifications | src/context/NotificationContext.jsx:81-83 | the list becomes empty |
| NotificationStore.UnreadAfterMarkAllIsZero | src/context/NotificationContext.jsx:75-99 | after marking all read, the unread count is 0 |
| NotificationStore.UnreadAfterDeleteAllIsZero | src/context/NotificationContext.jsx:81-99 | after deleting all, the unread count is 0 |
| NotificationStore.MarkAsReadIdempotent | src/context/NotificationContext.jsx:86-91 | marking one id read twice is marking it once |
| NotificationStore.MarkAllAsReadIdempotent | src/context/NotificationContext.jsx:75-78 | marking all read twice is marking all read once |
| NotificationStore.UnreadAfterMarkAsRead | src/context/NotificationContext.jsx:86-99 | the unread count drops by exactly the number of unread entries carrying the id |
| NotificationStore.UnreadAfterDelete | src/context/NotificationContext.jsx:94-99 | deleting an id lowers the unread count by exactly the unread entries with that id |
| NotificationStore.DeleteLength | src/context/NotificationContext.jsx:94-96 | deleting removes exactly the entries carrying the id |
| NotificationStore.MarkAsReadKeepsIds | src/context/NotificationContext.jsx:86-91 | marking read keeps ids distinct |
| NotificationStore.DeleteKeepsIdsDistinct | src/context/NotificationContext.jsx:94-96 | deleting keeps ids distinct |
| NotificationStore.ApplyPreserves | src/context/NotificationContext.jsx:75-96 | every context action keeps ids distinct and within their range, and never lengthens the list |
| NotificationStore.ActionsNeverAddEntries | src/context/NotificationContext.jsx:72-96 | from the seeds, any sequence of actions leaves at most six entries with distinct ids in 1..6 |
| NotificationStore.AllUnreadCount | src/context/NotificationContext.jsx:99 | when nothing is read, the unread count is the length |
| NotificationStore.InitialStateInvariant | src/context/NotificationContext.jsx:4-65 | the seeds have distinct ids in 1..6, and all six are unread |
| NotificationViews.FilteredNotifications | src/components/layout/topbar/NotificationsPage.jsx:56-61 | a subsequence: `unread` keeps exactly the unread entries, `read` keeps exactly the read ones, anything else keeps all |
| NotificationViews.FilterFacts | src/components/layout/topbar/NotificationsPage.jsx:56-61 | the filter result is a subsequence; the `read` view holds total minus unread; other values keep everything |
| NotificationViews.ReadPlusUnreadIsTotal | src/components/layout/topbar/NotificationsPage.jsx:56-61 | the read view and the unread view together count every notification once |
| NotificationViews.KeysOf | src/components/layout/topbar/NotificationsPage.jsx:64-71 | the group labels, one per group, in order |
| NotificationViews.FirstOccurrenceTimesSpec | src/components/layout/topbar/NotificationsPage.jsx:64-71 | the time labels in order of first appearance are distinct, and they cover every notification |
| NotificationViews.KeysDistinctTail | src/components/layout/topbar/NotificationsPage.jsx:64-71 | distinct group keys stay distinct in the tail |
| NotificationViews.AddToGroupExisting | src/components/layout/topbar/NotificationsPage.jsx:66-69 | a notification with an existing label is pushed onto that group only |
| NotificationViews.AddToGroupNew | src/components/layout/topbar/NotificationsPage.jsx:66-69 | a notification with a new label opens a new group at the end |
| NotificationViews.GroupedKeysDistinct | src/components/layout/topbar/NotificationsPage.jsx:64-71 | a correct grouping has one group per label |
| NotificationViews.GroupStep | src/components/layout/topbar/NotificationsPage.jsx:64-71 | one reduce step keeps each group equal to the notifications with its label |
| NotificationViews.GroupStepExisting | src/components/layout/topbar/NotificationsPage.jsx:66-69 | a notification whose label has a group joins it, and the grouping stays exact |
| NotificationViews.GroupStepNew | src/components/layout/topbar/NotificationsPage.jsx:66-69 | a notification with a new label opens a group at the end, and the grouping stays exact |
| NotificationViews.GroupByTimeCorrect | src/components/layout/topbar/NotificationsPage.jsx:64-71 | each group holds exactly the notifications with its label, in order; labels are distinct and cover every notification |
| NotificationViews.AddToGroupSize | src/components/layout/topbar/NotificationsPage.jsx:66-69 | one push adds one notification in total |
| NotificationViews.GroupByTimeSize | src/components/layout/topbar/NotificationsPage.jsx:64-71 | the groups hold as many notifications as the filtered list |
| NotificationViews.InsertByIndex | src/components/layout/topbar/NotificationsPage.jsx:145 | inserting a numeric key gives a permutation with one more group |
| NotificationViews.SortByIndex | src/components/layout/topbar/NotificationsPage.jsx:145 | the ordering of numeric keys is a permutation |
| NotificationViews.FromTail | src/components/layout/topbar/NotificationsPage.jsx:145 | an element of a permutation of the tail occurs past the head |
| NotificationViews.InsertKeepsBound | src/components/layout/topbar/NotificationsPage.jsx:145 | inserting keeps a lower bound on numeric keys |
| NotificationViews.InsertSorted | src/components/layout/topbar/NotificationsPage.jsx:145 | inserting into ascending numeric keys keeps them ascending |
| NotificationViews.SortSorted | src/components/layout/topbar/NotificationsPage.jsx:145 | numeric keys come out in ascending order |
| NotificationViews.InsertAvoidsKey | src/components/layout/topbar/NotificationsPage.jsx:145 | inserting a group with another key does not introduce a key |
| NotificationViews.InsertKeysDistinct | src/components/layout/topbar/NotificationsPage.jsx:145 | inserting a fresh key keeps keys distinct |
| NotificationViews.SortKeysDistinct | src/components/layout/topbar/NotificationsPage.jsx:145 | ordering keeps keys distinct |
| NotificationViews.InsertSize | src/components/layout/topbar/NotificationsPage.jsx:145 | inserting adds the group's size to the total |
| NotificationViews.SortSize | src/components/layout/topbar/NotificationsPage.jsx:145 | ordering keeps the total size |
| NotificationViews.TotalSizeAppend | src/components/layout/topbar/NotificationsPage.jsx:145 | the total size of a concatenation is the sum |
| NotificationViews.TotalSizeSplit | src/components/layout/topbar/NotificationsPage.jsx:145 | splitting the groups by a predicate keeps the total size |
| NotificationViews.KeysOfFilter | src/components/layout/topbar/NotificationsPage.jsx:145 | the labels of filtered groups are the filtered labels |
| NotificationViews.KeysDistinctFilter | src/components/layout/topbar/NotificationsPage.jsx:145 | filtering groups keeps keys distinct |
| NotificationViews.RenderedGroupsFromReduce | src/components/layout/topbar/NotificationsPage.jsx:64-71 | the groups iterated for rendering are those the reduce built |
| NotificationViews.RenderedGroupItems | src/components/layout/topbar/NotificationsPage.jsx:143-158 | each rendered group holds exactly the notifications with its label |
| NotificationViews.RenderedKeysDistinct | src/components/layout/topbar/NotificationsPage.jsx:145 | no label is rendered twice |
| NotificationViews.ReduceGroupsRendered | src/components/layout/topbar/NotificationsPage.jsx:145 | every group the reduce built is rendered |
| NotificationViews.RenderedKeysCover | src/components/layout/topbar/NotificationsPage.jsx:145 | every filtered notification's label is rendered |
| NotificationViews.GroupByTimeKeys | src/components/layout/topbar/NotificationsPage.jsx:64-71 | the reduce's labels are the labels in first-appearance order |
| NotificationViews.RenderedNamedKeysInOrder | src/components/layout/topbar/NotificationsPage.jsx:145 | non-numeric labels render in order of first appearance |
| NotificationViews.RenderedSize | src/components/layout/topbar/NotificationsPage.jsx:145 | the rendered groups hold every filtered notification once |
| NotificationViews.RenderedIndexKeysFirst | src/components/layout/topbar/NotificationsPage.jsx:145 | array-index labels render first, in ascending numeric order |
| NotificationViews.GroupedNotificationsSpec | src/components/layout/topbar/NotificationsPage.jsx:143-158 | the rendered groups combine all of the above |
| NotificationViews.NotificationsPage | src/components/layout/topbar/NotificationsPage.jsx:122-207 | bulk actions appear iff there are notifications; groups appear iff the filter keeps some, and they hold all of them; otherwise the empty message shows |
| NotificationViews.PageNotificationClick | src/components/layout/topbar/NotificationsPage.jsx:48-53 | the click marks that id read, leaves the others alone, and navigates to the route |
| NotificationViews.Footer | src/components/layout/topbar/NotificationsMenu.jsx:140-142 | the footer label carries the total in brackets iff entries are hidden, and those digits read back as the total |
| NotificationViews.NotificationsMenu | src/components/layout/topbar/NotificationsMenu.jsx:53-142 | nothing while closed; otherwise the first three entries, "mark all" iff something is unread, "delete all" iff the list is non-empty, and the footer count iff there are more than three |
| NotificationViews.MenuNotificationClick | src/components/layout/topbar/NotificationsMenu.jsx:42-51 | marks that id read, closes the menu, navigates |
| NotificationViews.MenuSeeAll | src/components/layout/topbar/NotificationsMenu.jsx:135-138 | closes the menu and goes to `/notificaciones` without touching the list |
| RecordList.TextCell | src/pages/configuracion/corredoresdebienesraices/CorredoresModals.jsx:64 | a view cell is never empty: the value, or `N/A` for an empty one |
| RecordList.Initial | src/pages/configuracion/corredoresdebienesraices/Corredores.jsx:7-23 | the seeded records in order with distinct fresh references, all shown, nothing open or selected |
| RecordList.ApplyFilter | src/pages/configuracion/corredoresdebienesraices/Corredores.jsx:105-118 | remembers the value and closes the dropdown; a recognised value shows exactly the matching records, in order; an unrecognised one keeps the list on screen |
| RecordList.ToggleFilter | src/pages/configuracion/corredoresdebienesraices/Corredores.jsx:156 | flips the dropdown and nothing else |
| RecordList.OpenCreate | src/pages/configuracion/corredoresdebienesraices/Corredores.jsx:56-60 | clears the selection and opens the create modal, nothing else |
| RecordList.OpenEdit | src/pages/configuracion/corredoresdebienesraices/Corredores.jsx:62-65 | selects the record and opens the edit modal, nothing else |
| RecordList.OpenView | src/pages/configuracion/corredoresdebienesraices/Corredores.jsx:67-70 | selects the record and opens the view modal, nothing else |
| RecordList.OpenDelete | src/pages/configuracion/corredoresdebienesraices/Corredores.jsx:72-75 | selects the record and opens the delete modal, nothing else |
| RecordList.CloseModals | src/pages/configuracion/corredoresdebienesraices/Corredores.jsx:237-261 | closes the named modals and keeps the selection and the lists |
| RecordList.ReplaceRef | src/pages/configuracion/corredoresdebienesraices/Corredores.jsx:80-84 | replaces exactly the entries identical to the selected one, in place |
| RecordList.Save | src/pages/configuracion/corredoresdebienesraices/Corredores.jsx:77-92 | while editing a selected record, replaces that record in place and closes the edit modal; otherwise appends and closes create; always clears the selection and keeps the display in step with the filter |
| RecordList.ConfirmDelete | src/pages/configuracion/corredoresdebienesraices/Corredores.jsx:94-102 | with a selection, removes every entry identical to it, closes the modal and clears the selection; with none, changes nothing |
| RecordList.DeleteButton | src/pages/configuracion/corredoresdebienesraices/CorredoresModals.jsx:739-740 | confirm-then-close: the modal is closed, and the selected record is removed if there was one |
| RecordList.DeleteRemovesOne | src/pages/configuracion/corredoresdebienesraices/Corredores.jsx:94-102 | with distinct references, deletion removes exactly one entry when the reference is present and none otherwise |
| RecordList.SavePreserves | src/pages/configuracion/corredoresdebienesraices/Corredores.jsx:77-92 | saving keeps references distinct and fresh |
| RecordList.DeletePreserves | src/pages/configuracion/corredoresdebienesraices/Corredores.jsx:94-102 | deleting keeps references distinct and fresh |
| RecordList.StepPreserves | src/pages/configuracion/corredoresdebienesraices/Corredores.jsx:51-118 | every user action keeps references fresh and the displayed list equal to what the filter selects |
| RecordList.DeleteKeepsRefsDistinct | src/pages/configuracion/corredoresdebienesraices/Corredores.jsx:96-98 | filtering out one identity keeps the others distinct |
| RecordList.RunPreserves | src/pages/configuracion/corredoresdebienesraices/Corredores.jsx:51-118 | any run of actions keeps both invariants |
| RecordList.InitialConsistent | src/pages/configuracion/corredoresdebienesraices/Corredores.jsx:15-16 | the first render shows what the empty filter selects |
| Brokers.BrokerSelection | src/pages/configuracion/corredoresdebienesraices/Corredores.jsx:109-117 | `''` selects all; `estatusLicencia-X` selects status X; anything else is unrecognised |
| Brokers.StatusFilterShowsStatus | src/pages/configuracion/corredoresdebienesraices/Corredores.jsx:114-117 | a status option shows exactly the records with that status, in order |
| Brokers.AllFilterShowsAll | src/pages/configuracion/corredoresdebienesraices/Corredores.jsx:109-112 | "Todos" shows every record |
| Brokers.UnknownFilterKeepsList | src/pages/configuracion/corredoresdebienesraices/Corredores.jsx:105-118 | an unrecognised value leaves the list on screen unchanged |
| Brokers.InitialPageConsistent | src/pages/configuracion/corredoresdebienesraices/Corredores.jsx:7-16 | the seeded page satisfies both invariants |
| Brokers.DeleteByIdentityNotLicence | src/pages/configuracion/corredoresdebienesraices/Corredores.jsx:94-102 | deleting the second seed keeps the third, although both carry licence `002` |
| Brokers.StatusStyle | src/pages/configuracion/corredoresdebienesraices/Corredores.jsx:37-48 | grey exactly for a status other than the three known ones |
| Brokers.StatusStylesDistinct | src/pages/configuracion/corredoresdebienesraices/Corredores.jsx:37-48 | the three statuses get three different colours |
| BrokerForms.NamesDistinct | src/pages/configuracion/corredoresdebienesraices/CorredoresModals.jsx:118-126 | the seven inputs have seven different names |
| BrokerForms.Set | src/pages/configuracion/corredoresdebienesraices/CorredoresModals.jsx:212 | only the named field takes the new value |
| BrokerForms.ValidateField | src/pages/configuracion/corredoresdebienesraices/CorredoresModals.jsx:166-207 | for each field, its own constant message exactly when that field fails: a required text left blank, a due date missing or not after the issue date, a missing suspension date while the status is `Suspendida`; empty otherwise |
| BrokerForms.DueDateMustFollowIssue | src/pages/configuracion/corredoresdebienesraices/CorredoresModals.jsx:185-190 | with two real dates, the due date passes iff it is strictly later on the calendar |
| BrokerForms.DueDateUncheckedWithoutIssue | src/pages/configuracion/corredoresdebienesraices/CorredoresModals.jsx:188 | without an issue date, any non-empty due date passes |
| BrokerForms.HandleChange | src/pages/configuracion/corredoresdebienesraices/CorredoresModals.jsx:209-217 | stores the value and that field's result; other fields and error entries are untouched |
| BrokerForms.ChangeSeesCurrentForm | src/pages/configuracion/corredoresdebienesraices/CorredoresModals.jsx:209-217 | validating against the pre-update form equals validating against the updated one |
| BrokerForms.DependentErrorsGoStale | src/pages/configuracion/corredoresdebienesraices/CorredoresModals.jsx:188-217 | changing the issue date or the status leaves the dependent errors on screen |
| BrokerForms.AllFieldsComplete | src/pages/configuracion/corredoresdebienesraices/CorredoresModals.jsx:226 | the submit loop visits every field |
| BrokerForms.CollectErrors | src/pages/configuracion/corredoresdebienesraices/CorredoresModals.jsx:223-232 | an entry for exactly the visited fields that fail, holding their messages |
| BrokerForms.Submit | src/pages/configuracion/corredoresdebienesraices/CorredoresModals.jsx:219-239 | sets the collected errors, and saves the form iff there are none |
| BrokerForms.SubmitAcceptsExactlyComplete | src/pages/configuracion/corredoresdebienesraices/CorredoresModals.jsx:219-239 | a submission saves iff the record is complete |
| BrokerForms.SavedRecordExpiresAfterIssue | src/pages/configuracion/corredoresdebienesraices/CorredoresModals.jsx:185-238 | a saved record with real dates expires strictly after issue |
| BrokerForms.OpenCreateForm | src/pages/configuracion/corredoresdebienesraices/CorredoresModals.jsx:431-444 | the create modal opens blank with status `Activa` and no errors |
| BrokerForms.BlankFormErrors | src/pages/configuracion/corredoresdebienesraices/CorredoresModals.jsx:501-521 | a blank unsuspended form is rejected, with a message on every field except status and suspension date |
| BrokerForms.FormatDateForInput | src/pages/configuracion/corredoresdebienesraices/CorredoresModals.jsx:160-164 | a `YYYY-MM-DD` date comes back unchanged |
| BrokerForms.PopulateEditForm | src/pages/configuracion/corredoresdebienesraices/CorredoresModals.jsx:142-155 | the fill itself, when it runs: fills the form iff the three dates (issue, due, suspension) are empty or `YYYY-MM-DD` texts the input accepts; the form is then the record with an empty status replaced by `Activa`, with errors cleared |
| BrokerForms.EditUntouchedRoundTrip | src/pages/configuracion/corredoresdebienesraices/CorredoresModals.jsx:142-155 | when the fill runs, a record with a status and input dates fills the form with itself |
| BrokerForms.SelectionEffect | src/pages/configuracion/corredoresdebienesraices/CorredoresModals.jsx:142-155 | the fill runs only when the selection moves to another record object; a reselected record or a cleared selection keeps the form |
| BrokerForms.ReopenKeepsAbandonedEdits | src/pages/configuracion/corredoresdebienesraices/CorredoresModals.jsx:142-155 | edit, change a field, cancel and reopen the same record: the form still holds the abandoned value and its error |
| BrokerForms.EditAfterSaveRefills | src/pages/configuracion/corredoresdebienesraices/Corredores.jsx:77-92 | a save clears the selection, so the next edit of any record fills the form afresh |
| BrokerForms.RenderField | src/pages/configuracion/corredoresdebienesraices/CorredoresModals.jsx:270-275 | the border is red iff the message shows, and the message shows iff the field has an error |
| BrokerForms.NumLicBorderNeverRed | src/pages/configuracion/corredoresdebienesraices/CorredoresModals.jsx:270-275 | as written, a blank submission shows the licence message with a grey border |
| BrokerForms.NumLicBorderAfterSubmit | src/pages/configuracion/corredoresdebienesraices/CorredoresModals.jsx:270-275 | as written the border is never red; corrected, it is red iff the licence number is empty |
| BrokerForms.ViewBroker | src/pages/configuracion/corredoresdebienesraices/CorredoresModals.jsx:37-99 | `N/A` for missing texts; the suspension date only for a suspended licence; the badge colour from the status |
| Users.Seeds | src/pages/configuracion/usuarios/Usuarios.jsx:7-10 | two seeded users, identical in every field |
| Users.UserSelection | src/pages/configuracion/usuarios/Usuarios.jsx:103-118 | `''` selects all; `status-X` selects status X; every other value selects that user kind |
| Users.AllFilterShowsAll | src/pages/configuracion/usuarios/Usuarios.jsx:107-110 | the empty value shows everyone |
| Users.StatusFilterShowsStatus | src/pages/configuracion/usuarios/Usuarios.jsx:112-114 | a status option shows exactly the users with that status |
| Users.KindFilterShowsKind | src/pages/configuracion/usuarios/Usuarios.jsx:115-117 | any other value shows exactly the users of that kind |
| Users.FilterAlwaysConsistent | src/pages/configuracion/usuarios/Usuarios.jsx:103-118 | every value is recognised, so the display always matches the filter |
| Users.InitialPageConsistent | src/pages/configuracion/usuarios/Usuarios.jsx:7-51 | the seeded page satisfies both invariants |
| Users.DuplicateSurvivesDelete | src/pages/configuracion/usuarios/Usuarios.jsx:92-100 | deleting either identical seed removes only that object; its twin stays |
| Users.StatusStyle | src/pages/configuracion/usuarios/Usuarios.jsx:37-46 | green iff `Activo`, red iff `Inactivo`, never yellow |
| FormValidity.RequiredEmail | src/pages/configuracion/usuarios/UserModals.jsx:173-178 | a `required` e-mail input lets through exactly the valid addresses |
| FormValidity.EmailParts | src/auth/Login.jsx:115-122 | `local@domain` is valid iff the local part is non-empty allowed characters and every dot-separated piece of the domain is a label |
| FormValidity.MalformedAddresses | src/auth/ForgotPassword.jsx:61-68 | a bare word, an empty local part and an empty domain are rejected |
| UserForms.HandleChange | src/pages/configuracion/usuarios/UserModals.jsx:102-105 | only the named field changes |
| UserForms.LastChangeWins | src/pages/configuracion/usuarios/UserModals.jsx:102-105 | two changes to one field are the last one |
| UserForms.ChangeToSameValue | src/pages/configuracion/usuarios/UserModals.jsx:102-105 | writing a field's own value changes nothing |
| UserForms.CreateFormOnOpen | src/pages/configuracion/usuarios/UserModals.jsx:262-273 | opening resets to blank texts, kind `Cliente` and status `Activo`; closed, it keeps the form |
| UserForms.EditFormOnUser | src/pages/configuracion/usuarios/UserModals.jsx:89-100 | the fill itself, when it runs: copies the user, with kind and status defaulted when empty; no user keeps the form |
| UserForms.EditUntouchedRoundTrip | src/pages/configuracion/usuarios/UserModals.jsx:89-110 | when the fill runs, a user with kind and status fills the form with itself |
| UserForms.EditFillIdempotent | src/pages/configuracion/usuarios/UserModals.jsx:89-100 | refilling from the filled form changes nothing |
| UserForms.SelectionEffect | src/pages/configuracion/usuarios/UserModals.jsx:89-100 | the fill runs only when the selection moves to another user object; a reselected user or a cleared selection keeps the form |
| UserForms.ReopenKeepsAbandonedEdits | src/pages/configuracion/usuarios/UserModals.jsx:89-100 | edit, change a field, cancel and reopen the same user: the form still holds the abandoned value, and a submit saves it |
| UserForms.EditAfterSaveRefills | src/pages/configuracion/usuarios/Usuarios.jsx:75-90 | a save clears the selection, so the next edit of any user fills the form afresh |
| UserForms.SubmitUser | src/pages/configuracion/usuarios/UserModals.jsx:107-110 | a form the browser rejects leaves the list unchanged; an accepted one goes to the list's save handler as it stands |
| UserForms.SubmitSavesFormAsIs | src/pages/configuracion/usuarios/UserModals.jsx:136-240 | a form goes through iff name, document and phone are non-empty and the address is valid; it then replaces the edited user or is appended, exactly as typed; otherwise the list is unchanged |
| UserForms.BlankCreateIsBlocked | src/pages/configuracion/usuarios/UserModals.jsx:310-371 | the create form as it opens is rejected, so submitting it untouched adds nothing |
| UserForms.AddressWithoutAtIsBlocked | src/pages/configuracion/usuarios/UserModals.jsx:173-178 | a non-empty address without `@` stops the submission whatever the other fields hold |
| UserForms.ViewUser | src/pages/configuracion/usuarios/UserModals.jsx:7-75 | nothing while closed; each field or `N/A`; the badge always green |
| UserForms.ViewBadgeIgnoresStatus | src/pages/configuracion/usuarios/UserModals.jsx:57 | an inactive user is red in the list but green in the view |
| LicenceLookup.MapStatus | src/pages/inicio/ValidadorPage.jsx:49-63 | case-insensitive `SUSPENDIDA`/`CANCELADA`, and validated otherwise; never "not found" |
| LicenceLookup.MapStatusIgnoresCase | src/pages/inicio/ValidadorPage.jsx:49-63 | statuses equal up to case map alike |
| LicenceLookup.KnownStatuses | src/pages/inicio/ValidadorPage.jsx:49-63 | sample spellings map as expected |
| LicenceLookup.FormatearFecha | src/pages/inicio/ValidadorPage.jsx:67-77 | missing or all-zero dates read `No disponible` |
| LicenceLookup.SentinelExactly | src/pages/inicio/ValidadorPage.jsx:67-77 | `No disponible` exactly for a missing date or a year piece of `0000` |
| LicenceLookup.FormatearIsoDate | src/pages/inicio/ValidadorPage.jsx:67-77 | a `YYYY-MM-DD` date prints as `DD/MM/YYYY` |
| LicenceLookup.FormatearFechaReverses | src/pages/inicio/ValidadorPage.jsx:67-77 | reading the printed pieces back in reverse gives the original date |
| LicenceLookup.DetailsOf | src/pages/inicio/ValidadorPage.jsx:79-84 | the names, with `No disponible` for a missing one, and the issue and due dates in their display form |
| LicenceLookup.DetailDatesAreRecordDates | src/pages/inicio/ValidadorPage.jsx:67-84 | the shown issue date, read back piece by piece in reverse, is the stored `YYYY-MM-DD` text |
| LicenceLookup.ErrorMessage | src/pages/inicio/ValidadorPage.jsx:89-105 | a 404 gives no message; another status gives the server message with its number; no answer and setup failures give their own; empty iff 404 |
| LicenceLookup.HandleChange | src/pages/inicio/ValidadorPage.jsx:21-28 | stores the text and clears the empty-field warning for non-blank text |
| LicenceLookup.RequestPath | src/pages/inicio/ValidadorPage.jsx:33-43 | no request iff the trimmed text is empty; otherwise the untrimmed text in the query |
| LicenceLookup.Resolve | src/pages/inicio/ValidadorPage.jsx:39-109 | the handler's own effect on the page: loading ends, a status is set, details exist iff found, and an answer clears the error (what the 401 interceptor does to the browser is in `LicenceLookup.Lookup`) |
| LicenceLookup.Submit | src/pages/inicio/ValidadorPage.jsx:31-109 | blank text only raises the warning; otherwise the outcome is resolved |
| LicenceLookup.BlankSubmitIgnoresOutcome | src/pages/inicio/ValidadorPage.jsx:33-37 | with blank text the outcome does not matter |
| LicenceLookup.Lookup | src/pages/inicio/ValidadorPage.jsx:30-43 | the page as the handler leaves it; the browser untouched unless a request ended in 401, which clears the session keys and loads `/login` or invokes the registered callback |
| LicenceLookup.UnauthorizedLookupSignsOut | src/services/ApiService.js:34-54 | a signed-in visitor whose lookup gets a 401 is signed out, and the protected pages redirect to sign-in even after a reload |
| LicenceLookup.OneBoxAfterLookup | src/pages/inicio/ValidadorPage.jsx:39-243 | the page is left for `/login` iff a 401 meets no logout callback; otherwise exactly one of the error box and the result box shows, the error box iff the request failed other than with 404, and detail lines iff a record was found |
| SimulatedValidator.Lookup | src/pages/validador/Validador.jsx:20-52 | "not found" exactly when there are no details |
| SimulatedValidator.LookupMatchesTable | src/pages/validador/Validador.jsx:23-50 | the chain answers from the three-record table, comparing the text as typed |
| SimulatedValidator.KnownStatusesDistinct | src/pages/validador/Validador.jsx:23-46 | the known licences have distinct statuses, none of them "not found" |
| SimulatedValidator.HandleChange | src/pages/validador/Validador.jsx:15-18 | typing hides the result and keeps the answer |
| SimulatedValidator.Submit | src/pages/validador/Validador.jsx:20-52 | shows the answer for the typed text |
| SimulatedValidator.InitialIsAnswered | src/pages/validador/Validador.jsx:5-13 | the initial state is already the answer for `222`, with details shown |
| SimulatedValidator.SubmitForgetsHistory | src/pages/validador/Validador.jsx:15-52 | the answer depends only on the text; details show iff it is known; typing hides the box |
| Session.GetItem | src/context/AuthContext.jsx:9-12 | the stored value iff the key is present |
| Session.InitialAuth | src/context/AuthContext.jsx:9-18 | authenticated with a placeholder user iff a non-empty token is stored |
| Session.Login | src/context/AuthContext.jsx:21-25 | authenticated with that user and its token stored; other keys unchanged |
| Session.Logout | src/context/AuthContext.jsx:28-32 | signed out with no user and the token removed; other keys unchanged |
| Session.LogoutIdempotent | src/context/AuthContext.jsx:28-32 | logging out twice is logging out once |
| Session.LoginThenLogout | src/context/AuthContext.jsx:21-32 | login then logout leaves no session and no token |
| Session.ReloadAgrees | src/context/AuthContext.jsx:9-32 | a reload after login is authenticated iff the token is non-empty; a reload after logout equals the logout state |
| Session.SetLogoutFunction | src/services/ApiService.js:4-9 | the registered callback is replaced |
| Session.LastRegistrationWins | src/services/ApiService.js:4-9 | the second registration overrides the first |
| Session.WithAuthorization | src/services/ApiService.js:20-31 | adds `Bearer <token>` iff a token is stored; other headers unchanged |
| Session.BearerCarriesToken | src/services/ApiService.js:20-31 | the header is the scheme followed by exactly the stored token |
| Session.OnSettled | src/services/ApiService.js:34-54 | passes every result through; on a 401, invokes the callback once, or clears the session keys and goes to `/login`; nothing else changes |
| Session.UnauthorizedEndsSession | src/services/ApiService.js:45-50 | a 401 without a callback leaves nothing a reload would restore; a second 401 changes nothing |
| Session.CallbackLeavesStorage | src/services/ApiService.js:40-44 | with a callback, n 401s add n invocations and leave storage and location alone |
| Session.ProtectedRoute | src/routes/ProtectedRoute.jsx:8-25 | a spinner iff loading; else the login redirect iff signed out; else the outlet |
| Session.SpinnerNeverShows | src/routes/ProtectedRoute.jsx:5 | the context has no loading flag, so the spinner never shows and the outlet shows iff authenticated |
| Session.ReloadGate | src/routes/ProtectedRoute.jsx:20-25 | on page load, the outlet shows iff a token is stored |
| Credentials.ChangePassword | src/auth/ResetPassword.jsx:17-23 | only the named field changes |
| Credentials.ResetSubmit | src/auth/ResetPassword.jsx:25-59 | checks in order: a mismatch reports the mismatch; matching passwords under 8 UTF-16 units report the length message; long enough ones succeed iff a token is present, and report the token message otherwise |
| Credentials.SubmitReset | src/auth/ResetPassword.jsx:98-140 | a form with an empty field or a password shorter than 8 UTF-16 units is dropped by the browser and changes nothing; otherwise the handler runs |
| Credentials.ResetChecksInOrder | src/auth/ResetPassword.jsx:98-140 | of what the browser lets through: a mismatch reports the mismatch, matching passwords succeed with a token and report the link without one; the length message never appears |
| Credentials.MismatchReportedFirst | src/auth/ResetPassword.jsx:29-33 | on a page with a token, a long enough password and a different non-empty confirmation, however short, report the mismatch and do not succeed |
| Credentials.ResetView | src/auth/ResetPassword.jsx:75-143 | the invalid-link block iff there is no token; the success note iff a token and success; the error line iff a message and no success |
| Credentials.BadTokenNeverShown | src/auth/ResetPassword.jsx:44-88 | no run of edits and submissions ever shows the token message or the length message |
| Credentials.RunResetInvariant | src/auth/ResetPassword.jsx:25-59 | runs from a state without the token message and the length message never reach either |
| Credentials.ForgotSubmit | src/auth/ForgotPassword.jsx:10-28 | success iff the address is non-empty, with the matching message |
| Credentials.ForgotView | src/auth/ForgotPassword.jsx:44-74 | the form iff not yet successful; its error line iff there is a message |
| Credentials.SubmitForgot | src/auth/ForgotPassword.jsx:52-72 | the browser drops the submission unless the address is valid; otherwise the handler runs |
| Credentials.ForgotOutcome | src/auth/ForgotPassword.jsx:10-72 | the confirmation shows iff the address is valid; any other address leaves the page as it was, so the handler's address message never appears |
| Credentials.LoginError | src/auth/Login.jsx:40-85 | the message for each failure kind; never empty |
| Credentials.LoginSubmit | src/auth/Login.jsx:22-90 | with a token, logs in with the typed address and goes to the dashboard; otherwise shows the failure's message; a 401 also clears the session keys and loads `/login`, or invokes the registered callback; any other failure leaves the browser alone; loading ends |
| Credentials.SignedInSessionPersists | src/auth/Login.jsx:45-72 | after signing in, the token is stored, a reload restores the session and the protected pages open |
| Credentials.ErrorShownIffFailed | src/auth/Login.jsx:22-90 | on a page still on screen, the error line shows iff the attempt failed and did not end in the 401 redirect |
| Credentials.UnauthorizedSignInReloads | src/services/ApiService.js:34-54 | wrong credentials answered with 401 and no callback: `/login` is reloaded, the token is gone and the protected pages redirect |
| Credentials.PressSignIn | src/auth/Login.jsx:106-145 | a form without a valid address and a password is dropped by the browser and changes nothing; otherwise the attempt runs |
| Credentials.InvalidSignInSendsNothing | src/auth/Login.jsx:106-145 | an invalid address or an empty password sends no request and shows no error |
| Credentials.LoginRedirect | src/auth/Login.jsx:16-20 | an authenticated visitor is sent to the dashboard, and only then |
| Sidebar.ActiveLink | src/components/layout/Sidebar.jsx:13-20 | the highlighted entry for each of the four paths |
| Sidebar.ActiveLinkExact | src/components/layout/Sidebar.jsx:13-20 | an entry is highlighted iff the path is exactly one of the four; distinct paths give distinct entries |
| Sidebar.LinkClick | src/components/layout/Sidebar.jsx:25-35 | always navigates; toggles the sidebar only below 768 px |
| Sidebar.LinkClickTwice | src/components/layout/Sidebar.jsx:25-35 | two clicks at one width leave the sidebar as it was; on a large screen a click never moves it |
| Sidebar.ToggleConfig | src/components/layout/Sidebar.jsx:51-53 | flips the submenu and nothing else |
| Sidebar.ToggleConfigInvolution | src/components/layout/Sidebar.jsx:51-53 | two toggles undo each other |
| Sidebar.LogoutClick | src/components/layout/Sidebar.jsx:37-39 | opens the confirmation and nothing else |
| Sidebar.CancelLogout | src/components/layout/Sidebar.jsx:47-49 | closes the confirmation and nothing else |
| Sidebar.CancelUndoesLogoutClick | src/components/layout/Sidebar.jsx:37-49 | opening then cancelling restores the state |
| Sidebar.ConfirmLogoutAsWritten | src/components/layout/Sidebar.jsx:41-45 | as written: removes only `authToken`, clears session storage, goes to `/login`, and leaves the context alone |
| Sidebar.LogoutAsWrittenKeepsSession | src/components/layout/Sidebar.jsx:41-45 | as written, the user is still signed in: the sign-in page redirects back, the protected pages open, and a reload restores the session |
| Sidebar.ConfirmLogout | src/components/layout/Sidebar.jsx:41-45 | corrected: ends the session through `logout`, removing the token |
| Sidebar.LogoutEndsSession | src/components/layout/Sidebar.jsx:41-45 | corrected: the session is over everywhere, including after a reload |
| UploadPage.HandleFile | src/pages/configuracion/cargarArchivos/Archivos.jsx:56-86 | keeps the file; an image read iff the type starts with `image/`; a PDF read iff the type is `application/pdf` and not an image; otherwise an immediate generic preview with the extension |
| UploadPage.ReadLoaded | src/pages/configuracion/cargarArchivos/Archivos.jsx:62-76 | the loaded read sets the preview of its kind with its data URL |
| UploadPage.PreviewFollowsType | src/pages/configuracion/cargarArchivos/Archivos.jsx:56-86 | once loaded, the preview kind follows the type, images first |
| UploadPage.ExtensionIsTextAfterLastDot | src/pages/configuracion/cargarArchivos/Archivos.jsx:83 | the extension is the dot-free text after the last dot, or the whole name when there is no dot |
| UploadPage.IconOf | src/pages/configuracion/cargarArchivos/Archivos.jsx:213-219 | Word icon iff `docx`/`doc`; sheet icon iff `xlsx`/`xls`, case-sensitive |
| UploadPage.IconByName | src/pages/configuracion/cargarArchivos/Archivos.jsx:213-219 | a name ending in one of the four extensions gets the matching icon, whatever precedes it |
| UploadPage.RemoveFile | src/pages/configuracion/cargarArchivos/Archivos.jsx:180-183 | no file and no preview |
| UploadPage.StaleReadOverwritesLaterChoice | src/pages/configuracion/cargarArchivos/Archivos.jsx:56-76 | an image read that loads after a later generic choice puts the image preview over that file |
| UploadPage.StaleReadAfterRemove | src/pages/configuracion/cargarArchivos/Archivos.jsx:56-76 | an image read that loads after removal sets a preview with no file, hidden behind the drop zone |
| UploadPage.HandleDrag | src/pages/configuracion/cargarArchivos/Archivos.jsx:31-39 | highlighted iff the event is not a leave; file untouched |
| UploadPage.HandleDrop | src/pages/configuracion/cargarArchivos/Archivos.jsx:41-48 | clears the highlight; handles the first file only, if there is one |
| UploadPage.HandleFileChange | src/pages/configuracion/cargarArchivos/Archivos.jsx:50-54 | handles the first chosen file, if there is one, and leaves the highlight as it was |
| UploadPage.ChooseAndDropAgree | src/pages/configuracion/cargarArchivos/Archivos.jsx:41-54 | choosing and dropping the same files end alike except for the highlight, which only a drop clears |
| UploadPage.UploadMessage | src/pages/configuracion/cargarArchivos/Archivos.jsx:89-94 | the alert names the file, or `Ninguno` |
| UploadPage.DropThenRemove | src/pages/configuracion/cargarArchivos/Archivos.jsx:41-48 | a drop hides the zone and enables upload; removal undoes both |
| UploadPage.JsYear | src/pages/configuracion/cargarArchivos/Archivos.jsx:98-99 | `new Date` reads years 0..99 as 1900..1999 |
| UploadPage.PrevMonth | src/pages/configuracion/cargarArchivos/Archivos.jsx:117-124 | January goes to December of the previous year; otherwise the previous month |
| UploadPage.NextMonth | src/pages/configuracion/cargarArchivos/Archivos.jsx:126-133 | December goes to January of the next year; otherwise the next month |
| UploadPage.ArrowsAreInverse | src/pages/configuracion/cargarArchivos/Archivos.jsx:117-133 | the arrows undo each other, and each moves exactly one month |
| UploadPage.MonthName | src/pages/configuracion/cargarArchivos/Archivos.jsx:136-142 | a name iff the month is in 1..12 |
| UploadPage.MonthNamesDistinct | src/pages/configuracion/cargarArchivos/Archivos.jsx:136-142 | distinct months have distinct names |
| UploadPage.MondayFirst | src/pages/configuracion/cargarArchivos/Archivos.jsx:102 | Sunday-first weekday to Monday-first column |
| UploadPage.GenerateDays | src/pages/configuracion/cargarArchivos/Archivos.jsx:97-109 | blank cells up to the first day's Monday-first column, then the days 1 to the month length |
| UploadPage.ShiftMod7 | src/pages/configuracion/cargarArchivos/Archivos.jsx:102 | shifting before or after reducing mod 7 agrees |
| UploadPage.WeekdayAdvances | src/pages/configuracion/cargarArchivos/Archivos.jsx:99 | within a month, the weekday advances by one a day |
| UploadPage.DaysInTheirColumns | src/pages/configuracion/cargarArchivos/Archivos.jsx:97-109 | every day of the month sits under its own weekday's header |
| UploadPage.TwoDigits | src/pages/configuracion/cargarArchivos/Archivos.jsx:113 | a number below 100, padded, is two digits that read back as itself |
| UploadPage.YearHasNoSlash | src/pages/configuracion/cargarArchivos/Archivos.jsx:113 | the year text holds no `/` |
| UploadPage.FormatDateParts | src/pages/configuracion/cargarArchivos/Archivos.jsx:112-114 | the text splits on `/` into day, month and year, and each reads back |
| UploadPage.FormatDateInjective | src/pages/configuracion/cargarArchivos/Archivos.jsx:112-114 | equal texts iff equal dates, so the highlight compares dates |
| UploadPage.MouseDownAsWritten | src/pages/configuracion/cargarArchivos/Archivos.jsx:19-28 | as written, an open picker closes on a press outside both the picker and the text box |
| UploadPage.Click | src/pages/configuracion/cargarArchivos/Archivos.jsx:234-292 | the box opens the picker; the icon flips it; a day button writes that day's text and closes; picker buttons act only while open; only a day button changes the text |
| UploadPage.IconCannotClose | src/pages/configuracion/cargarArchivos/Archivos.jsx:19-28 | as written, a press on the icon always leaves the picker open |
| UploadPage.MouseDown | src/pages/configuracion/cargarArchivos/Archivos.jsx:19-28 | corrected: the icon also counts as inside |
| UploadPage.IconToggles | src/pages/configuracion/cargarArchivos/Archivos.jsx:240-245 | corrected: the icon flips the picker, the box opens it, elsewhere closes it |
| UploadPage.ListenersAgreeOffTheIcon | src/pages/configuracion/cargarArchivos/Archivos.jsx:19-28 | the listener as written and the corrected one differ only on the icon while the picker is open, and never in the chosen text |
| UploadPage.PickHighlightsOnlyThatDay | src/pages/configuracion/cargarArchivos/Archivos.jsx:284-288 | with the listener as written, picking a day closes the picker and highlights exactly that day |
| UploadPage.InitialPickerIsPicked | src/pages/configuracion/cargarArchivos/Archivos.jsx:6-16 | the initial text is 6 February 2025's text, and that day is highlighted |
| UploadPage.PressKeepsPickedDate | src/pages/configuracion/cargarArchivos/Archivos.jsx:234-292 | with the listener as written, one press keeps the text a picked date; only a day button changes it |
| UploadPage.RunKeepsPickedDate | src/pages/configuracion/cargarArchivos/Archivos.jsx:234-292 | with the listener as written, any run of presses keeps the text a date the picker offered |
| UploadPage.OnlyDayButtonsPick | src/pages/configuracion/cargarArchivos/Archivos.jsx:238-241 | with the listener as written, the text box is read-only, so without day buttons the text never changes |

## Left out

- Rendering: JSX markup, CSS classes other than the status colours and the red border, icons other than the file-type icon, animations and the modals' 300 ms exit timers.
- Click-outside listeners of the broker and user filter dropdowns, the notification filter menu and the notification bell. These are DOM containment tests. Only the date picker's listener is modelled, because its interaction with the icon is a finding.
- The network: the registry request becomes an `Outcome` parameter, and the sign-in request a `LoginResult` parameter. `FileReader` results become a data-URL parameter. Navigation becomes a returned path.
- `toLocaleDateString`: date cells keep the raw text (`LocaleDate`), because the output depends on the host locale.
- BrokerForms.FormatDateForInput: only `YYYY-MM-DD` input is modelled. Any other text would go through the engine's fallback date parser and the host time zone, so it is `None`.
- LicenceLookup.MapStatus: `toUpperCase` is modelled only for characters whose upper case is one Basic Latin letter (`a`–`z`, `ı`, `ſ`). Other characters are kept. That is enough to decide equality with `SUSPENDIDA` and `CANCELADA`.
- The console's routes, layout, top bar, dashboard charts, metric cards and the older `pages/Login.jsx`: they render or wire components and hold none of the modelled logic.
- `setLogoutFunction` is never called by the modelled files. The response interceptor is modelled for both the registered and the unregistered case.
- The size in KB shown for a chosen file (floating point), and `console.log`.
- NotificationViews.GroupByTimeCorrect: every time label is treated as a fresh key of the grouping object. The object is a plain `{}`, so a label naming a property it inherits (`constructor`, `toString`, `__proto__`, …) would find that property truthy and the `push` would throw a `TypeError`. The seeded labels never do this.
- NotificationViews.AddToGroup: the same limit as `GroupByTimeCorrect`; inherited property names are not modelled.
- FormValidity.ValidEmail: the browser's value sanitisation for `type="email"` (stripping line breaks and surrounding whitespace) is not modelled, and neither are internationalised domain names; the address is checked as typed.
- UploadPage.GenerateDays / UploadPage.JsYear: a JavaScript `Date` holds only ±8.64e15 ms (about year ±275760); past that `new Date` is an invalid date, while month navigation here is unbounded.
- BrokerForms.ValidateField: date inputs can yield years beyond 9999 (five or more digits, as no `max` is set). The model treats such text as not a date, so the due-date order check raises nothing, while the engine's fallback parser may compare it.
- BrokerForms.DueDateUncheckedWithoutIssue: the same limit on years beyond 9999.

## Findings

| source | as written | input that shows it | evidently intended | confidence | as-written member | corrected member |
|---|---|---|---|---|---|---|
| src/pages/configuracion/corredoresdebienesraices/CorredoresModals.jsx:270 | the licence number's border reads `errors.numLiC` | submit the edit form with an empty licence number: the message appears, the border stays grey | the border reads `errors.numLic`, like every other input | high (not executed) | BrokerForms.NumLicBorderNeverRed | BrokerForms.NumLicBorderAfterSubmit |
| src/components/layout/Sidebar.jsx:41-45 | sign-out removes `authToken` and clears session storage, but the session lives under `token` in local storage and in the context | sign in, then confirm sign-out: `/login` redirects back to `/dashboard`, and a reload is still signed in | end the session through the context's `logout` | high (not executed) | Sidebar.LogoutAsWrittenKeepsSession | Sidebar.LogoutEndsSession |
| src/pages/configuracion/cargarArchivos/Archivos.jsx:19-28 | the document `mousedown` listener treats the calendar icon as outside, so the press closes the picker and the icon's `click` (lines 243-246) then flips it open again | open the picker, then press the calendar icon: the picker stays open | the icon toggles the picker closed | medium (not executed; relies on React re-rendering between `mousedown` and `click`) | UploadPage.IconCannotClose | UploadPage.IconToggles |


=== FILE: broker_forms.dfy ===
/** The broker modals: the create and edit forms with their field
    validation, change handling and submission, how the edit form is filled
    from a record, the read-only view, and the delete confirmation. */
module BrokerForms {
  import opened JsText
  import opened Gregorian
  import opened RecordList
  import opened Brokers

  /** The form inputs, named as their `name` attributes. */
  datatype Field =
    | NumLic | PersonaJuridica | FechaEmision | FechaVencimiento
    | EstatusLicencia | SuspendidaHasta | RepresentanteLegal

  function Name(f: Field): string
  {
    match f
    case NumLic => "numLic"
    case PersonaJuridica => "personaJuridica"
    case FechaEmision => "fechaEmision"
    case FechaVencimiento => "fechaVencimiento"
    case EstatusLicencia => "estatusLicencia"
    case SuspendidaHasta => "suspendidaHasta"
    case RepresentanteLegal => "representanteLegal"
  }

  predicate IsFieldName(k: string)
  {
    k in {"numLic", "personaJuridica", "fechaEmision", "fechaVencimiento",
          "estatusLicencia", "suspendidaHasta", "representanteLegal"}
  }

  lemma NamesDistinct(f: Field, g: Field)
    ensures Name(f) == Name(g) <==> f == g
    ensures IsFieldName(Name(f))
  {
  }

  function Get(b: Broker, f: Field): string
  {
    match f
    case NumLic => b.numLic
    case PersonaJuridica => b.personaJuridica
    case FechaEmision => b.fechaEmision
    case FechaVencimiento => b.fechaVencimiento
    case EstatusLicencia => b.estatusLicencia
    case SuspendidaHasta => b.suspendidaHasta
    case RepresentanteLegal => b.representanteLegal
  }

  /** `{ ...prev, [name]: value }`: only the named field changes. */
  function Set(b: Broker, f: Field, v: string): (r: Broker)
    ensures forall g :: Get(r, g) == if g == f then v else Get(b, g)
  {
    match f
    case NumLic => b.(numLic := v)
    case PersonaJuridica => b.(personaJuridica := v)
    case FechaEmision => b.(fechaEmision := v)
    case FechaVencimiento => b.(fechaVencimiento := v)
    case EstatusLicencia => b.(estatusLicencia := v)
    case SuspendidaHasta => b.(suspendidaHasta := v)
    case RepresentanteLegal => b.(representanteLegal := v)
  }

  /** `new Date(a) <= new Date(b)` for the strings a date input yields with
      a four-digit year: `false` as soon as either side is not such a date
      (a NaN comparison). */
  predicate DateNotAfter(a: string, b: string)
  {
    match (ParseIsoDate(a), ParseIsoDate(b))
    case (Some(x), Some(y)) => DayNumber(x) <= DayNumber(y)
    case _ => false
  }

  const NumLicRequired := "El número de licencia es requerido"
  const PersonaRequired := "La persona jurídica es requerida"
  const EmisionRequired := "La fecha de emisión es requerida"
  const VencimientoRequired := "La fecha de vencimiento es requerida"
  const VencimientoOrder := "La fecha de vencimiento debe ser posterior a la fecha de emisión"
  const SuspensionRequired := "La fecha de suspensión es requerida cuando el estatus es Suspendida"
  const RepresentanteRequired := "El representante legal es requerido"

  /** `validateField(name, value)` against the form as it stood when the
      handler was created; `''` means valid. */
  function ValidateField(f: Field, value: string, form: Broker): (error: string)
    ensures error == "" || error in {NumLicRequired, PersonaRequired, EmisionRequired,
      VencimientoRequired, VencimientoOrder, SuspensionRequired, RepresentanteRequired}
    ensures f == EstatusLicencia ==> error == ""
    ensures error == VencimientoOrder ==> f == FechaVencimiento && value != ""
    ensures error != "" && error != VencimientoOrder ==> value == ""
    ensures f == NumLic ==> error == (if value == "" then NumLicRequired else "")
    ensures f == PersonaJuridica ==> error == (if value == "" then PersonaRequired else "")
    ensures f == FechaEmision ==> error == (if value == "" then EmisionRequired else "")
    ensures f == RepresentanteLegal ==> error == (if value == "" then RepresentanteRequired else "")
    ensures f == FechaVencimiento ==>
      && (error == VencimientoRequired <==> value == "")
      && (error == VencimientoOrder <==> value != "" && DateNotAfter(value, form.fechaEmision))
      && (error == "" <==> value != "" && !DateNotAfter(value, form.fechaEmision))
    ensures f == SuspendidaHasta ==>
      error == (if form.estatusLicencia == "Suspendida" && value == "" then SuspensionRequired else "")
  {
    match f
    case NumLic => if value == "" then NumLicRequired else ""
    case PersonaJuridica => if value == "" then PersonaRequired else ""
    case FechaEmision => if value == "" then EmisionRequired else ""
    case FechaVencimiento =>
      if value == "" then VencimientoRequired
      else if DateNotAfter(value, form.fechaEmision) then VencimientoOrder
      else ""
    case EstatusLicencia => ""
    case SuspendidaHasta =>
      if form.estatusLicencia == "Suspendida" && value == "" then SuspensionRequired else ""
    case RepresentanteLegal => if value == "" then RepresentanteRequired else ""
  }

  /** With both dates filled in, the due date passes exactly when it falls
      strictly after the issue date on the calendar. */
  lemma DueDateMustFollowIssue(value: string, form: Broker)
    requires ParseIsoDate(value).Some? && ParseIsoDate(form.fechaEmision).Some?
    ensures ValidateField(FechaVencimiento, value, form) == ""
        <==> Before(ParseIsoDate(form.fechaEmision).value, ParseIsoDate(value).value)
  {
    var due, issue := ParseIsoDate(value).value, ParseIsoDate(form.fechaEmision).value;
    DayNumberOrder(issue, due);
  }

  /** Without a usable issue date the order check never fires: any
      non-empty due date is accepted. */
  lemma DueDateUncheckedWithoutIssue(value: string, form: Broker)
    requires value != "" && ParseIsoDate(form.fechaEmision).None?
    ensures ValidateField(FechaVencimiento, value, form) == ""
  {
  }

  /** The `errors` object, keyed by input name. */
  type Errors = map<string, string>

  /** An error paragraph is rendered under an input when its entry is truthy. */
  predicate ErrorShown(errors: Errors, key: string)
  {
    key in errors && errors[key] != ""
  }

  datatype FormState = FormState(form: Broker, errors: Errors)

  /** `handleChange`: store the new value and record that field's
      validation result (possibly `''`); other entries are untouched. */
  function HandleChange(s: FormState, f: Field, value: string): (r: FormState)
    ensures Get(r.form, f) == value
    ensures forall g :: g != f ==> Get(r.form, g) == Get(s.form, g)
    ensures Name(f) in r.errors && r.errors[Name(f)] == ValidateField(f, value, s.form)
    ensures forall k :: k != Name(f) ==> (k in r.errors <==> k in s.errors)
    ensures forall k :: k != Name(f) && k in s.errors ==> r.errors[k] == s.errors[k]
  {
    FormState(Set(s.form, f, value), s.errors[Name(f) := ValidateField(f, value, s.form)])
  }

  /** The handler validates against the form before the update, yet that is
      the same as validating against the updated form: no field's rule
      reads the field itself from the form. */
  lemma ChangeSeesCurrentForm(form: Broker, f: Field, value: string)
    ensures ValidateField(f, value, form) == ValidateField(f, value, Set(form, f, value))
  {
  }

  /** Changing the issue date or the status does not revalidate the fields
      that depend on them: an earlier due-date or suspension error stays. */
  lemma DependentErrorsGoStale(s: FormState, f: Field, value: string)
    requires f == FechaEmision || f == EstatusLicencia
    ensures var r := HandleChange(s, f, value);
      && (ErrorShown(s.errors, "fechaVencimiento") ==> ErrorShown(r.errors, "fechaVencimiento"))
      && (ErrorShown(s.errors, "suspendidaHasta") ==> ErrorShown(r.errors, "suspendidaHasta"))
  {
  }

  /** The fields in `formData`'s key order. */
  const AllFields := [NumLic, PersonaJuridica, FechaEmision, FechaVencimiento,
                      EstatusLicencia, SuspendidaHasta, RepresentanteLegal]

  lemma AllFieldsComplete(f: Field)
    ensures f in AllFields
  {
  }

  /** The `forEach` of `handleSubmit`: an entry for each listed field whose
      validation fails. */
  function CollectErrors(form: Broker, fields: seq<Field>): (errors: Errors)
    ensures forall k :: k in errors ==> IsFieldName(k) && errors[k] != ""
    ensures forall f :: f in fields ==> (Name(f) in errors <==> ValidateField(f, Get(form, f), form) != "")
    ensures forall f :: Name(f) in errors ==> f in fields
  {
    if |fields| == 0 then map[]
    else
      var rest := CollectErrors(form, fields[1..]);
      var e := ValidateField(fields[0], Get(form, fields[0]), form);
      NamesDistinct(fields[0], fields[0]);
      assert forall f :: f in fields ==> f == fields[0] || f in fields[1..];
      assert forall f :: Name(f) == Name(fields[0]) ==> f == fields[0] by {
        forall f ensures Name(f) == Name(fields[0]) ==> f == fields[0] {
          NamesDistinct(f, fields[0]);
        }
      }
      if e != "" then rest[Name(fields[0]) := e] else rest
  }

  datatype Submission = Submission(errors: Errors, saved: Option<Broker>)

  /** `handleSubmit`: collect every failing field; save the form only when
      none failed. */
  function Submit(form: Broker): (r: Submission)
    ensures forall f :: Name(f) in r.errors <==> ValidateField(f, Get(form, f), form) != ""
    ensures forall k :: k in r.errors ==> IsFieldName(k) && r.errors[k] != ""
    ensures r.saved.Some? <==> |r.errors| == 0
    ensures r.saved.Some? ==> r.saved.value == form
  {
    var errors := CollectErrors(form, AllFields);
    assert forall f :: f in AllFields by {
      forall f ensures f in AllFields { AllFieldsComplete(f); }
    }
    Submission(errors, if |errors| == 0 then Some(form) else None)
  }

  /** A complete broker record: every required text present, a due date
      not on or before the issue date, and a suspension date when the
      licence is suspended. */
  predicate Complete(b: Broker)
  {
    && b.numLic != "" && b.personaJuridica != "" && b.fechaEmision != ""
    && b.fechaVencimiento != "" && !DateNotAfter(b.fechaVencimiento, b.fechaEmision)
    && (b.estatusLicencia == "Suspendida" ==> b.suspendidaHasta != "")
    && b.representanteLegal != ""
  }

  /** Submission saves exactly the complete records. */
  lemma SubmitAcceptsExactlyComplete(form: Broker)
    ensures Submit(form).saved.Some? <==> Complete(form)
  {
    var r := Submit(form);
    if Complete(form) {
      forall f ensures Name(f) !in r.errors {
        assert ValidateField(f, Get(form, f), form) == "";
      }
      forall k ensures k !in r.errors {
        if k == "numLic" { assert Name(NumLic) == k; }
        else if k == "personaJuridica" { assert Name(PersonaJuridica) == k; }
        else if k == "fechaEmision" { assert Name(FechaEmision) == k; }
        else if k == "fechaVencimiento" { assert Name(FechaVencimiento) == k; }
        else if k == "estatusLicencia" { assert Name(EstatusLicencia) == k; }
        else if k == "suspendidaHasta" { assert Name(SuspendidaHasta) == k; }
        else if k == "representanteLegal" { assert Name(RepresentanteLegal) == k; }
      }
      assert r.errors == map[];
    } else {
      if form.numLic == "" { assert Name(NumLic) in r.errors; }
      else if form.personaJuridica == "" { assert Name(PersonaJuridica) in r.errors; }
      else if form.fechaEmision == "" { assert Name(FechaEmision) in r.errors; }
      else if form.fechaVencimiento == "" || DateNotAfter(form.fechaVencimiento, form.fechaEmision) {
        assert Name(FechaVencimiento) in r.errors;
      } else if form.representanteLegal == "" { assert Name(RepresentanteLegal) in r.errors; }
      else { assert Name(SuspendidaHasta) in r.errors; }
    }
  }

  /** A saved record whose dates are real dates expires strictly after it
      was issued. */
  lemma SavedRecordExpiresAfterIssue(form: Broker)
    requires Submit(form).saved.Some?
    requires ParseIsoDate(form.fechaEmision).Some? && ParseIsoDate(form.fechaVencimiento).Some?
    ensures Before(ParseIsoDate(form.fechaEmision).value, ParseIsoDate(form.fechaVencimiento).value)
  {
    SubmitAcceptsExactlyComplete(form);
    DueDateMustFollowIssue(form.fechaVencimiento, form);
    assert Name(FechaVencimiento) !in Submit(form).errors;
  }

  /** The blank form both modals start from. */
  const EmptyForm := Broker("", "", "", "", "Activa", "", "")

  /** Opening the create modal resets the form and clears the errors. */
  function OpenCreateForm(): (s: FormState)
    ensures s.errors == map[] && Blank(s.form) && s.form.estatusLicencia == "Activa"
  {
    FormState(EmptyForm, map[])
  }

  /** Every input empty except, possibly, the status. */
  predicate Blank(b: Broker)
  {
    forall f :: f != EstatusLicencia ==> Get(b, f) == ""
  }

  /** Submitting a blank form with an unsuspended status flags exactly the
      five required inputs and saves nothing. */
  lemma BlankFormErrors(form: Broker, f: Field)
    requires Blank(form) && form.estatusLicencia != "Suspendida"
    ensures Submit(form).saved.None?
    ensures ErrorShown(Submit(form).errors, Name(f)) <==> f != EstatusLicencia && f != SuspendidaHasta
  {
    assert Get(form, NumLic) == "";
    assert Name(NumLic) in Submit(form).errors;
  }

  /** `formatDateForInput`: `new Date(s).toISOString().split('T')[0]`. A
      `YYYY-MM-DD` string comes back as the same calendar day; any other
      string either throws (an invalid date) or depends on the engine's
      fallback parser, which is `None` here. */
  function FormatDateForInput(s: string): (r: Option<string>)
    ensures ParseIsoDate(s).Some? ==> r == Some(s)
    ensures ParseIsoDate(s).None? ==> r.None?
  {
    match ParseIsoDate(s)
    case Some(d) =>
      FormatParseRoundTrip(s);
      Some(FormatIsoDate(d))
    case None => None
  }

  /** A date field of the edit form: empty stays empty, a date is normalised. */
  function DateForInput(s: string): Option<string>
  {
    if s == "" then Some("") else FormatDateForInput(s)
  }

  /** The edit modal's fill effect: copy the record into the form (`|| ''`,
      status defaulting to `Activa`, dates through `formatDateForInput`)
      and clear the errors. `None` when a non-empty date is not a
      `YYYY-MM-DD` date. */
  function PopulateEditForm(c: Broker): (r: Option<FormState>)
    ensures r.Some? <==> DatesAreInputDates(c)
    ensures r.Some? ==> r.value.errors == map[]
    ensures r.Some? ==> r.value.form.estatusLicencia != ""
    ensures r.Some? ==> r.value.form == c.(estatusLicencia := OrElse(Some(c.estatusLicencia), "Activa"))
  {
    match (DateForInput(c.fechaEmision), DateForInput(c.fechaVencimiento), DateForInput(c.suspendidaHasta))
    case (Some(e), Some(v), Some(s)) =>
      Some(FormState(
        Broker(c.numLic, c.personaJuridica, e, v,
               if c.estatusLicencia != "" then c.estatusLicencia else "Activa", s,
               c.representanteLegal),
        map[]))
    case _ => None
  }

  /** Dates that are empty or `YYYY-MM-DD`. */
  predicate DatesAreInputDates(c: Broker)
  {
    && (c.fechaEmision == "" || ParseIsoDate(c.fechaEmision).Some?)
    && (c.fechaVencimiento == "" || ParseIsoDate(c.fechaVencimiento).Some?)
    && (c.suspendidaHasta == "" || ParseIsoDate(c.suspendidaHasta).Some?)
  }

  /** When the fill runs, a record with a status and input dates fills the
      form with itself, so saving that form untouched stores the same
      values. The fill does not run again when the same record is reopened
      (see `ReopenKeepsAbandonedEdits`). */
  lemma EditUntouchedRoundTrip(c: Broker)
    requires DatesAreInputDates(c) && c.estatusLicencia != ""
    ensures PopulateEditForm(c) == Some(FormState(c, map[]))
  {
  }

  /** The fill effect as React runs it. Its dependency is the selected
      record object, so it runs only when the selection moves to another
      object (another reference); a cleared selection runs it with
      `null`, which leaves the form. The modal stays mounted while closed,
      so the form survives closing. `None` is a fill that throws. */
  function SelectionEffect(s: FormState, before: Option<nat>, after: Option<Entry<Broker>>): (r: Option<FormState>)
    ensures after.None? || before == Some(after.value.ref) ==> r == Some(s)
    ensures after.Some? && before != Some(after.value.ref) ==> r == PopulateEditForm(after.value.value)
  {
    match after
    case None => Some(s)
    case Some(e) => if before == Some(e.ref) then Some(s) else PopulateEditForm(e.value)
  }

  /** Open a record for editing, change a field, cancel, and open the same
      record again: the selection did not change, so the form still holds
      the abandoned value and its error, not the record's. */
  lemma ReopenKeepsAbandonedEdits(p: Page<Broker>, s: FormState, e: Entry<Broker>, f: Field, v: string)
    requires p.selected != Some(e.ref) && DatesAreInputDates(e.value)
    requires v != Get(e.value, f) && f != EstatusLicencia
    ensures var p1 := OpenEdit(p, e.ref);
      var s1 := SelectionEffect(s, p.selected, Some(e));
      s1.Some? &&
      var s2 := HandleChange(s1.value, f, v);
      var p2 := CloseModals(p1, false, false, true, false);
      var p3 := OpenEdit(p2, e.ref);
      && Get(s1.value.form, f) == Get(e.value, f)
      && p3.editOpen && p3.selected == Some(e.ref)
      && SelectionEffect(s2, p2.selected, Some(e)) == Some(s2)
      && Get(s2.form, f) == v != Get(e.value, f)
      && s2.errors[Name(f)] == ValidateField(f, v, s1.value.form)
  {
  }

  /** After a save the selection is cleared, so the next edit of any
      record, the saved one included, fills the form afresh. */
  lemma EditAfterSaveRefills(p: Page<Broker>, data: Broker, s: FormState, e: Entry<Broker>)
    ensures var q := Save(p, data, BrokerSelection);
      && OpenEdit(q, e.ref).selected == Some(e.ref)
      && SelectionEffect(s, q.selected, Some(e)) == PopulateEditForm(e.value)
  {
  }

  // ---------------------------------------------------------------------
  // How the edit modal renders a field's error

  /** Red border and the message paragraph under one input. */
  datatype FieldView = FieldView(redBorder: bool, message: Option<string>)

  /** The edit modal looks up the border class of the licence number under
      the key `numLiC`, which no handler ever writes. */
  function EditBorderKeyAsWritten(f: Field): string
  {
    if f == NumLic then "numLiC" else Name(f)
  }

  function RenderEditFieldAsWritten(errors: Errors, f: Field): FieldView
  {
    FieldView(ErrorShown(errors, EditBorderKeyAsWritten(f)),
              if ErrorShown(errors, Name(f)) then Some(errors[Name(f)]) else None)
  }

  /** Every input, the licence number included, reads its border from its own key. */
  function RenderField(errors: Errors, f: Field): (v: FieldView)
    ensures v.redBorder <==> v.message.Some?
    ensures v.message.Some? <==> ErrorShown(errors, Name(f))
    ensures v.message.Some? ==> v.message.value == errors[Name(f)] && v.message.value != ""
  {
    FieldView(ErrorShown(errors, Name(f)),
              if ErrorShown(errors, Name(f)) then Some(errors[Name(f)]) else None)
  }

  /** As written, submitting a form without a licence number shows the
      message under that input but leaves its border grey. */
  lemma NumLicBorderNeverRed()
    ensures var errors := Submit(EmptyForm).errors;
      var v := RenderEditFieldAsWritten(errors, NumLic);
      v.message == Some(NumLicRequired) && !v.redBorder
  {
    var errors := Submit(EmptyForm).errors;
    assert Name(NumLic) in errors;
    assert !IsFieldName("numLiC");
  }

  /** Whatever the submission produced, the as-written border of the licence
      number is never red, while the corrected one follows the message. */
  lemma NumLicBorderAfterSubmit(form: Broker)
    ensures !RenderEditFieldAsWritten(Submit(form).errors, NumLic).redBorder
    ensures RenderField(Submit(form).errors, NumLic).redBorder <==> form.numLic == ""
  {
    assert !IsFieldName("numLiC");
  }

  // ---------------------------------------------------------------------
  // The read-only view

  /** A date cell: not available, or the stored text handed to the locale formatter. */
  datatype DateCell = NotAvailable | LocaleDate(raw: string)

  datatype BrokerView = BrokerView(
    numLic: string,
    personaJuridica: string,
    emision: DateCell,
    vencimiento: DateCell,
    status: string,
    statusStyle: Style,
    suspendidaHasta: DateCell,
    representante: string)

  function DateCellOf(v: string): DateCell
  {
    if v != "" then LocaleDate(v) else NotAvailable
  }

  /** The view modal for the selected record (or for none): `N/A` for
      missing text, the suspension date only for a suspended licence. */
  function ViewBroker(c: Option<Broker>): (v: BrokerView)
    ensures v.numLic != "" && v.personaJuridica != "" && v.status != "" && v.representante != ""
    ensures c.None? ==> (v.numLic == NA && v.status == NA && v.statusStyle == Gray
      && v.emision == NotAvailable && v.suspendidaHasta == NotAvailable)
    ensures c.Some? && c.value.numLic != "" ==> v.numLic == c.value.numLic
    ensures v.suspendidaHasta.LocaleDate? <==>
      c.Some? && c.value.estatusLicencia == "Suspendida" && c.value.suspendidaHasta != ""
    ensures c.Some? ==> v.statusStyle == StatusStyle(c.value.estatusLicencia)
  {
    match c
    case None => BrokerView(NA, NA, NotAvailable, NotAvailable, NA, StatusStyle(""), NotAvailable, NA)
    case Some(b) =>
      BrokerView(TextCell(b.numLic), TextCell(b.personaJuridica),
                 DateCellOf(b.fechaEmision), DateCellOf(b.fechaVencimiento),
                 TextCell(b.estatusLicencia), StatusStyle(b.estatusLicencia),
                 if b.estatusLicencia == "Suspendida" then DateCellOf(b.suspendidaHasta) else NotAvailable,
                 TextCell(b.representanteLegal))
  }
}

=== FILE: brokers.dfy ===
/** The licensed real-estate broker list: the record shape, the seeded
    records, the status filter and the status badge colours. The list page
    itself is the shared `RecordList` page over these records. */
module Brokers {
  import opened Seqs
  import opened JsText
  import opened RecordList

  /** A broker's licence record, as the list stores it and the forms edit it. */
  datatype Broker = Broker(
    numLic: string,
    personaJuridica: string,
    fechaEmision: string,
    fechaVencimiento: string,
    estatusLicencia: string,
    suspendidaHasta: string,
    representanteLegal: string)

  /** The three records the page starts with; two share licence number `002`. */
  function Seeds(): seq<Broker>
  {
    [ Broker("001", "Inversiones Inmobiliarias S.A.", "2023-05-12", "2025-05-12", "Activa", "", "María González"),
      Broker("002", "Bienes Raíces Capital S.R.L.", "2022-08-15", "2024-08-15", "Suspendida", "2024-06-30", "Roberto Méndez"),
      Broker("002", "Distribuciones Dalase", "2023-08-15", "2025-08-15", "Cancelada", "", "Antonio Parra") ]
  }

  const StatusPrefix := "estatusLicencia-"

  function KeepAll(): Broker -> bool { (b: Broker) => true }

  function HasStatus(status: string): Broker -> bool { (b: Broker) => b.estatusLicencia == status }

  /** What a filter value selects: every record for `''`, one licence status
      for `estatusLicencia-<status>`, and nothing recognised otherwise (the
      list on screen is then left as it was). */
  function BrokerSelection(v: string): (r: Option<Broker -> bool>)
    ensures v == "" ==> r == Some(KeepAll())
    ensures v != "" && StartsWith(v, StatusPrefix) ==> r == Some(HasStatus(v[|StatusPrefix|..]))
    ensures v != "" && !StartsWith(v, StatusPrefix) ==> r.None?
  {
    if v == "" then Some(KeepAll())
    else if StartsWith(v, StatusPrefix) then
      ReplacePrefix(v, StatusPrefix);
      Some(HasStatus(ReplaceFirst(v, StatusPrefix, "")))
    else None
  }

  /** Choosing a status option shows exactly the records with that status,
      in list order. */
  lemma StatusFilterShowsStatus(p: Page<Broker>, status: string)
    ensures var q := ApplyFilter(p, StatusPrefix + status, BrokerSelection);
      && q.displayed == Filter(p.entries, Holds(HasStatus(status)))
      && (forall i :: 0 <= i < |q.displayed| ==> q.displayed[i].value.estatusLicencia == status)
      && (forall i :: 0 <= i < |p.entries| && p.entries[i].value.estatusLicencia == status ==> p.entries[i] in q.displayed)
  {
    var v := StatusPrefix + status;
    assert StartsWith(v, StatusPrefix) && v[|StatusPrefix|..] == status;
  }

  /** "Todos" shows every record. */
  lemma AllFilterShowsAll(p: Page<Broker>)
    ensures ApplyFilter(p, "", BrokerSelection).displayed == p.entries
  {
    FilterAll(p.entries, Holds(KeepAll()));
  }

  /** A value that is neither empty nor a status option leaves the list on
      screen unchanged. */
  lemma UnknownFilterKeepsList(p: Page<Broker>, v: string)
    requires v != "" && !StartsWith(v, StatusPrefix)
    ensures ApplyFilter(p, v, BrokerSelection).displayed == p.displayed
  {
  }

  /** The page starts consistent: every seeded record shown, references distinct. */
  lemma InitialPageConsistent()
    ensures RefsFresh(Initial(Seeds())) && DisplayConsistent(Initial(Seeds()), BrokerSelection)
  {
    InitialConsistent(Seeds(), BrokerSelection);
  }

  /** Deletion goes by object identity, not licence number: deleting the
      second seeded record keeps the third although both carry `002`. */
  lemma DeleteByIdentityNotLicence()
    ensures var p := OpenDelete(Initial(Seeds()), 1);
      var q := DeleteButton(p, BrokerSelection);
      && |q.entries| == 2
      && q.entries[0].value == Seeds()[0]
      && q.entries[1].value == Seeds()[2]
      && q.entries[1].value.numLic == Seeds()[1].numLic
  {
    var p := OpenDelete(Initial(Seeds()), 1);
    var es := p.entries;
    assert es[0].ref == 0 && es[1].ref == 1 && es[2].ref == 2;
    assert es[1..][1..] == [es[2]];
    assert es[1..][1..][1..] == [];
    assert Filter(es, OtherRef(1)) == [es[0], es[2]];
  }

  /** `getStatusStyles(status)`: green for `Activa`, yellow for `Suspendida`,
      red for `Cancelada`, grey for anything else. */
  function StatusStyle(status: string): (s: Style)
    ensures s == Gray <==> status != "Activa" && status != "Suspendida" && status != "Cancelada"
  {
    if status == "Activa" then Green
    else if status == "Suspendida" then Yellow
    else if status == "Cancelada" then Red
    else Gray
  }

  /** The three statuses the form offers get three different colours. */
  lemma StatusStylesDistinct(a: string, b: string)
    requires a in ["Activa", "Suspendida", "Cancelada"] && b in ["Activa", "Suspendida", "Cancelada"]
    ensures StatusStyle(a) == StatusStyle(b) <==> a == b
  {
  }
}

=== FILE: credentials.dfy ===
/** The three credential pages: setting a new password from an e-mailed
    link, asking for that link, and signing in. */
module Credentials {
  import opened JsText
  import opened FormValidity
  import opened Session

  // ---------------------------------------------------------------------
  // New password

  datatype Passwords = Passwords(password: string, confirmPassword: string)

  datatype PasswordField = Password | ConfirmPassword

  /** `handleChange`: only the named field changes. */
  function ChangePassword(p: Passwords, f: PasswordField, value: string): (r: Passwords)
    ensures f == Password ==> r == Passwords(value, p.confirmPassword)
    ensures f == ConfirmPassword ==> r == Passwords(p.password, value)
  {
    match f
    case Password => p.(password := value)
    case ConfirmPassword => p.(confirmPassword := value)
  }

  datatype ResetState = ResetState(passwords: Passwords, message: string, isSuccess: bool)

  const Mismatch := "Las contraseñas no coinciden"
  const TooShort := "La contraseña debe tener al menos 8 caracteres"
  const Changed := "Tu contraseña ha sido cambiada exitosamente"
  const BadToken := "Token inválido o expirado. Por favor solicita un nuevo enlace de recuperación."

  /** The shortest accepted password, in UTF-16 code units. */
  const MinLength := 8

  /** `handleSubmit`: the passwords must match, then be long enough, then
      the link's token must be present; the first check that fails sets
      the message. */
  function ResetSubmit(s: ResetState, token: Option<string>): (r: ResetState)
    ensures r.passwords == s.passwords
    ensures r.isSuccess <==> (s.passwords.password == s.passwords.confirmPassword
      && Utf16Length(s.passwords.password) >= MinLength && Truthy(token))
    ensures r.isSuccess ==> r.message == Changed
    ensures s.passwords.password != s.passwords.confirmPassword ==> r.message == Mismatch
    ensures s.passwords.password == s.passwords.confirmPassword && Utf16Length(s.passwords.password) < MinLength ==>
      r.message == TooShort && !r.isSuccess
    ensures s.passwords.password == s.passwords.confirmPassword && Utf16Length(s.passwords.password) >= MinLength && !Truthy(token) ==>
      r.message == BadToken
  {
    var p := s.passwords;
    if p.password != p.confirmPassword then s.(isSuccess := false, message := Mismatch)
    else if Utf16Length(p.password) < MinLength then s.(isSuccess := false, message := TooShort)
    else if Truthy(token) then s.(isSuccess := true, message := Changed)
    else s.(isSuccess := false, message := BadToken)
  }

  /** The browser submits the form only when both inputs are filled in
      (`required`) and the new password has at least eight UTF-16 code
      units (`minLength={8}`); the confirmation has no length limit. */
  predicate ResetSubmittable(p: Passwords)
  {
    Filled(p.password) && LongEnough(p.password, MinLength) && Filled(p.confirmPassword)
  }

  /** Pressing the submit button: a form the browser rejects never reaches
      `handleSubmit`, and the page stays as it was. */
  function SubmitReset(s: ResetState, token: Option<string>): (r: ResetState)
    ensures !ResetSubmittable(s.passwords) ==> r == s
    ensures ResetSubmittable(s.passwords) ==> r == ResetSubmit(s, token)
  {
    if ResetSubmittable(s.passwords) then ResetSubmit(s, token) else s
  }

  /** What a submission the browser lets through shows: the mismatch
      message when the two differ, otherwise success with a token and the
      token message without one. The length message never appears: the
      handler's own length check only fires on passwords `minLength` has
      already stopped. */
  lemma ResetChecksInOrder(s: ResetState, token: Option<string>)
    ensures var p := s.passwords; var r := SubmitReset(s, token);
      && (ResetSubmittable(p) && p.password != p.confirmPassword ==> r.message == Mismatch && !r.isSuccess)
      && (ResetSubmittable(p) && p.password == p.confirmPassword && Truthy(token) ==> r.message == Changed && r.isSuccess)
      && (ResetSubmittable(p) && p.password == p.confirmPassword && !Truthy(token) ==> r.message == BadToken)
      && (r.message == TooShort ==> s.message == TooShort)
  {
  }

  /** A long enough password with a different confirmation, even a short
      one, is reported as a mismatch on a page opened with a token. */
  lemma MismatchReportedFirst(s: ResetState, t: string)
    requires t != ""
    requires Utf16Length(s.passwords.password) >= MinLength && s.passwords.confirmPassword != ""
    requires s.passwords.password != s.passwords.confirmPassword
    ensures SubmitReset(s, Some(t)).message == Mismatch
    ensures !SubmitReset(s, Some(t)).isSuccess
  {
  }

  /** What the page shows. */
  datatype ResetScreen =
    | InvalidLink
    | ResetDone(message: string)
    | ResetForm(error: Option<string>)

  /** Without a token only the "request a new link" block; with one, the
      success note once done, and otherwise the form with its error line. */
  function ResetView(s: ResetState, token: Option<string>): (v: ResetScreen)
    ensures v.InvalidLink? <==> !Truthy(token)
    ensures v.ResetDone? <==> Truthy(token) && s.isSuccess
    ensures v.ResetForm? ==> (v.error.Some? <==> s.message != "" && !s.isSuccess)
  {
    if !Truthy(token) then InvalidLink
    else if s.isSuccess then ResetDone(s.message)
    else ResetForm(if s.message != "" && !s.isSuccess then Some(s.message) else None)
  }

  const ResetStart := ResetState(Passwords("", ""), "", false)

  /** Two of the handler's messages are never on screen: the form can only
      be submitted while a token is present, so the token message is never
      set, and `minLength` keeps the length message away. From the first
      render, any run of edits and submissions on the page keeps both away. */
  lemma BadTokenNeverShown(token: Option<string>, steps: seq<ResetStep>)
    ensures ResetView(RunReset(ResetStart, token, steps), token) != ResetForm(Some(BadToken))
    ensures ResetView(RunReset(ResetStart, token, steps), token) != ResetForm(Some(TooShort))
  {
    RunResetInvariant(ResetStart, token, steps);
  }

  /** One user step on the page. */
  datatype ResetStep = Edit(field: PasswordField, value: string) | SubmitForm

  /** A step takes effect only while the form is on screen. */
  function StepReset(s: ResetState, token: Option<string>, step: ResetStep): ResetState
  {
    if !ResetView(s, token).ResetForm? then s
    else match step
      case Edit(f, v) => s.(passwords := ChangePassword(s.passwords, f, v))
      case SubmitForm => SubmitReset(s, token)
  }

  function RunReset(s: ResetState, token: Option<string>, steps: seq<ResetStep>): ResetState
    decreases |steps|
  {
    if |steps| == 0 then s else RunReset(StepReset(s, token, steps[0]), token, steps[1..])
  }

  lemma {:induction false} RunResetInvariant(s: ResetState, token: Option<string>, steps: seq<ResetStep>)
    requires s.message != BadToken && s.message != TooShort
    ensures RunReset(s, token, steps).message != BadToken
    ensures RunReset(s, token, steps).message != TooShort
    decreases |steps|
  {
    if |steps| > 0 {
      RunResetInvariant(StepReset(s, token, steps[0]), token, steps[1..]);
    }
  }

  // ---------------------------------------------------------------------
  // Forgotten password

  datatype ForgotState = ForgotState(email: string, message: string, isSuccess: bool)

  const Sent := "Se ha enviado un correo con instrucciones para restablecer tu contraseña"
  const NeedEmail := "Por favor, ingresa un correo electrónico válido"

  /** `handleSubmit`: any non-empty address counts as sent. */
  function ForgotSubmit(s: ForgotState): (r: ForgotState)
    ensures r.email == s.email
    ensures r.isSuccess <==> s.email != ""
    ensures r.message == if s.email != "" then Sent else NeedEmail
  {
    if s.email != "" then s.(isSuccess := true, message := Sent)
    else s.(isSuccess := false, message := NeedEmail)
  }

  datatype ForgotScreen = ForgotDone(message: string) | ForgotForm(error: Option<string>)

  function ForgotView(s: ForgotState): (v: ForgotScreen)
    ensures v.ForgotForm? <==> !s.isSuccess
    ensures v.ForgotForm? ==> (v.error.Some? <==> s.message != "")
  {
    if s.isSuccess then ForgotDone(s.message)
    else ForgotForm(if s.message != "" then Some(s.message) else None)
  }

  /** Pressing the submit button: the browser drops the submission unless
      the address is filled in (`required`) and well formed
      (`type="email"`). */
  function SubmitForgot(s: ForgotState): (r: ForgotState)
    ensures !ValidEmail(s.email) ==> r == s
    ensures ValidEmail(s.email) ==> r == ForgotSubmit(s)
  {
    RequiredEmail(s.email);
    if Filled(s.email) && EmailOk(s.email) then ForgotSubmit(s) else s
  }

  /** A submission shows the confirmation exactly for a well-formed
      address; anything else leaves the page as it was, so the handler's
      "enter an address" message never appears. */
  lemma ForgotOutcome(s: ForgotState)
    requires !s.isSuccess
    ensures ValidEmail(s.email) <==> ForgotView(SubmitForgot(s)) == ForgotDone(Sent)
    ensures !ValidEmail(s.email) ==> ForgotView(SubmitForgot(s)) == ForgotView(s)
    ensures SubmitForgot(s).message == NeedEmail ==> s.message == NeedEmail
  {
    if ValidEmail(s.email) {
      assert s.email != "" by { RequiredEmail(s.email); }
    }
  }

  // ---------------------------------------------------------------------
  // Sign-in

  /** How the sign-in request ended: an answer (with or without a token),
      an error answer with its status (with or without a message), no
      answer, or a failure before sending with its message. */
  datatype LoginResult =
    | Answered(token: Option<string>)
    | ServerError(status: int, message: Option<string>)
    | NoAnswer
    | Failed(reason: string)

  datatype LoginPage = LoginPage(email: string, password: string, error: string, loading: bool)

  const NoToken := "Error al iniciar sesión: Token no recibido"
  const WrongCredentials := "Correo o contraseña incorrectos"
  const CannotConnect := "No se pudo conectar con el servidor. Intente más tarde."

  /** The message a failed attempt shows; a missing token is thrown as an
      ordinary error, so it reads like a failure before sending. */
  function LoginError(r: LoginResult): (m: string)
    requires !(r.Answered? && Truthy(r.token))
    ensures r.Answered? ==> m == NoToken
    ensures r.ServerError? ==> m == OrElse(r.message, WrongCredentials)
    ensures r.NoAnswer? ==> m == CannotConnect
    ensures r.Failed? ==> StartsWith(m, "Error al iniciar sesión: ") && m[|"Error al iniciar sesión: "|..] == r.reason
    ensures m != ""
  {
    match r
    case Answered(_) => NoToken
    case ServerError(_, msg) => OrElse(msg, WrongCredentials)
    case NoAnswer => CannotConnect
    case Failed(msg) =>
      var m := "Error al iniciar sesión: " + msg;
      assert m[..|"Error al iniciar sesión: "|] == "Error al iniciar sesión: ";
      m
  }

  /** How the request settles as the HTTP client's response interceptor
      sees it; a missing token is only noticed afterwards, by the page. */
  function Settle(r: LoginResult): Settled
  {
    match r
    case Answered(_) => Resolved(Response(200, ""))
    case ServerError(status, _) => Rejected(HttpError(Some(status)))
    case _ => Rejected(HttpError(None))
  }

  /** A 401 with no logout callback registered: the interceptor clears the
      session keys and loads `/login` afresh, so the page is left. */
  predicate LeavesPage(c: Client, r: LoginResult)
  {
    r.ServerError? && r.status == 401 && c.callback.None?
  }

  /** Everything one attempt changes. */
  datatype Attempt = Attempt(page: LoginPage, auth: AuthState, env: Env, navigate: Option<string>)

  /** `handleSubmit`, after the interceptor has seen the answer: with a
      token, store it, log in with the token and the typed address, and go
      to the dashboard; otherwise show the error. A 401 has already cleared
      the session keys and sent the browser to `/login`, unless a logout
      callback was registered, which is then invoked instead. Either way
      loading ends. */
  function LoginSubmit(page: LoginPage, auth: AuthState, env: Env, c: Client, r: LoginResult): (a: Attempt)
    ensures !a.page.loading && a.page.email == page.email && a.page.password == page.password
    ensures r.Answered? && Truthy(r.token) ==>
      && a.page.error == ""
      && (a.auth, a.env.storage) == Login(env.storage, AuthUser(page.email, r.token.value))
      && a.env.location == env.location && a.env.invoked == env.invoked
      && a.navigate == Some("/dashboard")
    ensures !(r.Answered? && Truthy(r.token)) ==>
      a.page.error == LoginError(r) && a.auth == auth && a.navigate.None?
    ensures !(r.ServerError? && r.status == 401) && !(r.Answered? && Truthy(r.token)) ==> a.env == env
    ensures LeavesPage(c, r) ==>
      && a.env.location == Some("/login") && a.env.invoked == env.invoked
      && (forall k :: k in SessionKeys ==> k !in a.env.storage)
      && (forall k :: k !in SessionKeys && k in env.storage ==> k in a.env.storage && a.env.storage[k] == env.storage[k])
    ensures r.ServerError? && r.status == 401 && c.callback.Some? ==>
      a.env == env.(invoked := env.invoked + [c.callback.value])
  {
    var page' := page.(loading := false);
    var env' := OnSettled(c, env, Settle(r)).0;
    if r.Answered? && Truthy(r.token) then
      var st' := env.storage[TokenKey := r.token.value];
      assert st'[TokenKey := r.token.value] == env.storage[TokenKey := r.token.value];
      var (auth', st'') := Login(st', AuthUser(page.email, r.token.value));
      Attempt(page'.(error := ""), auth', env.(storage := st''), Some("/dashboard"))
    else
      Attempt(page'.(error := LoginError(r)), auth, env', None)
  }

  /** The browser sends the form only with a well-formed address
      (`required`, `type="email"`) and a password (`required`). */
  predicate LoginSubmittable(page: LoginPage)
  {
    Filled(page.email) && EmailOk(page.email) && Filled(page.password)
  }

  /** Pressing "sign in": a form the browser rejects sends nothing and
      changes nothing; otherwise the attempt runs. */
  function PressSignIn(page: LoginPage, auth: AuthState, env: Env, c: Client, r: LoginResult): (a: Attempt)
    ensures !LoginSubmittable(page) ==> a == Attempt(page, auth, env, None)
    ensures LoginSubmittable(page) ==> a == LoginSubmit(page, auth, env, c, r)
  {
    if LoginSubmittable(page) then LoginSubmit(page, auth, env, c, r) else Attempt(page, auth, env, None)
  }

  /** A successful sign-in leaves a session that a reload restores, and the
      protected pages open. */
  lemma SignedInSessionPersists(page: LoginPage, auth: AuthState, env: Env, c: Client, token: string)
    requires token != ""
    ensures var a := LoginSubmit(page, auth, env, c, Answered(Some(token)));
      && a.auth.isAuthenticated && HasToken(a.env.storage) && a.env.storage[TokenKey] == token
      && Guard(a.auth) == Outlet && Guard(InitialAuth(a.env.storage)) == Outlet
  {
  }

  /** The error line of the page on screen: set, and the page not left. */
  predicate ErrorLineShown(a: Attempt)
  {
    a.env.location.None? && a.page.error != ""
  }

  /** On a page still on screen, the error line is shown exactly after a
      failed attempt that did not end in the interceptor's 401 redirect. */
  lemma ErrorShownIffFailed(page: LoginPage, auth: AuthState, env: Env, c: Client, r: LoginResult)
    requires env.location.None?
    ensures ErrorLineShown(LoginSubmit(page, auth, env, c, r))
      <==> !(r.Answered? && Truthy(r.token)) && !LeavesPage(c, r)
  {
  }

  /** Wrong credentials answered with 401 and no callback registered: the
      message is lost to the reload of `/login`, and a signed-in session
      in the same browser is ended. */
  lemma UnauthorizedSignInReloads(page: LoginPage, auth: AuthState, env: Env, m: Option<string>)
    ensures var a := LoginSubmit(page, auth, env, Client(None), ServerError(401, m));
      && a.env.location == Some("/login")
      && !HasToken(a.env.storage)
      && Guard(InitialAuth(a.env.storage)) == RedirectToLogin
  {
  }

  /** The page's effect: an authenticated visitor is sent to the dashboard. */
  function LoginRedirect(auth: AuthState): (r: Option<string>)
    ensures r.Some? <==> auth.isAuthenticated
    ensures r.Some? ==> r.value == "/dashboard"
  {
    if auth.isAuthenticated then Some("/dashboard") else None
  }

  /** A form the browser rejects sends no request: nothing changes and no
      error appears. */
  lemma InvalidSignInSendsNothing(page: LoginPage, auth: AuthState, env: Env, c: Client, r: LoginResult)
    requires !ValidEmail(page.email) || page.password == ""
    ensures PressSignIn(page, auth, env, c, r) == Attempt(page, auth, env, None)
  {
    RequiredEmail(page.email);
  }
}

=== FILE: form_validity.dfy ===
/** The browser's constraint validation for forms without `noValidate`:
    a submission is dropped before the form's `submit` handler runs while
    any input is `required` and empty, shorter than its `minLength`, or,
    for `type="email"`, not a valid e-mail address. The rules follow
    section 4.10 of the WHATWG HTML Living Standard. */
module FormValidity {
  import opened JsText

  /** `required`: a value must be present. */
  predicate Filled(v: string)
  {
    v != ""
  }

  /** `minLength={n}`: a non-empty value typed by the user may not be
      shorter than `n` UTF-16 code units; an empty one is left to
      `required`. */
  predicate LongEnough(v: string, n: nat)
  {
    v == "" || Utf16Length(v) >= n
  }

  /** The characters allowed before the `@` of a valid e-mail address. */
  predicate LocalChar(c: char)
  {
    || 'a' <= c <= 'z' || 'A' <= c <= 'Z' || '0' <= c <= '9'
    || c in ".!#$%&'*+/=?^_`{|}~-"
  }

  predicate LetDig(c: char)
  {
    'a' <= c <= 'z' || 'A' <= c <= 'Z' || '0' <= c <= '9'
  }

  /** One label of the domain: 1 to 63 letters, digits and hyphens, neither
      starting nor ending with a hyphen. */
  predicate Label(l: string)
  {
    && 1 <= |l| <= 63
    && LetDig(l[0]) && LetDig(l[|l| - 1])
    && forall i :: 0 <= i < |l| ==> LetDig(l[i]) || l[i] == '-'
  }

  /** A valid e-mail address: a non-empty local part of allowed characters,
      one `@`, and dot-separated labels. */
  predicate ValidEmail(v: string)
  {
    var parts := Split(v, '@');
    && |parts| == 2
    && |parts[0]| > 0
    && (forall i :: 0 <= i < |parts[0]| ==> LocalChar(parts[0][i]))
    && var labels := Split(parts[1], '.');
       forall i :: 0 <= i < |labels| ==> Label(labels[i])
  }

  /** `type="email"`: an empty value is left to `required`; any other value
      must be a valid address. */
  predicate EmailOk(v: string)
  {
    v == "" || ValidEmail(v)
  }

  /** A `required` e-mail input accepts exactly a valid address. */
  lemma RequiredEmail(v: string)
    ensures Filled(v) && EmailOk(v) <==> ValidEmail(v)
  {
    if v == "" {
      assert Split(v, '@') == [""];
    }
  }

  /** An address is judged by its two sides: `local@domain` is valid
      exactly when the local part is non-empty and made of allowed
      characters and every dot-separated piece of the domain is a label. */
  lemma EmailParts(local: string, domain: string)
    requires '@' !in local && '@' !in domain
    ensures ValidEmail(local + "@" + domain) <==>
      && |local| > 0
      && (forall i :: 0 <= i < |local| ==> LocalChar(local[i]))
      && (forall i :: 0 <= i < |Split(domain, '.')| ==> Label(Split(domain, '.')[i]))
  {
    SplitAfterPiece(local, domain, '@');
    assert local + "@" + domain == local + ['@'] + domain;
  }

  /** A bare word, an empty local part and an empty domain are not addresses. */
  lemma MalformedAddresses()
    ensures !ValidEmail("abc")
    ensures !ValidEmail("@mail.com")
    ensures !ValidEmail("correo@")
  {
    assert '@' !in "abc";
    EmailParts("", "mail.com");
    assert "" + "@" + "mail.com" == "@mail.com";
    EmailParts("correo", "");
    assert "correo" + "@" + "" == "correo@";
    assert Split("", '.') == [""];
  }
}

=== FILE: gregorian.dfy ===
/** The proleptic Gregorian calendar that JavaScript's `Date` uses: month
    lengths, day numbers counted from 1970-01-01, weekdays, and the
    `YYYY-MM-DD` text that `<input type="date">` produces. */
module Gregorian {
  import opened JsText

  predicate IsLeap(y: int)
  {
    y % 4 == 0 && (y % 100 != 0 || y % 400 == 0)
  }

  function DaysInMonth(y: int, m: int): (n: int)
    requires 1 <= m <= 12
    ensures 28 <= n <= 31
    ensures n == 29 <==> m == 2 && IsLeap(y)
  {
    if m == 2 then (if IsLeap(y) then 29 else 28)
    else if m == 4 || m == 6 || m == 9 || m == 11 then 30
    else 31
  }

  /** Days of year `y` that lie in the months before `m`. */
  function DaysBeforeMonth(y: int, m: int): int
    requires 1 <= m <= 12
  {
    [0, 31, 59, 90, 120, 151, 181, 212, 243, 273, 304, 334][m - 1]
      + (if m > 2 && IsLeap(y) then 1 else 0)
  }

  function DaysInYear(y: int): int
  {
    if IsLeap(y) then 366 else 365
  }

  /** Leap years among 1..y (counted with floor division, so the difference
      between consecutive years is right for every integer year). */
  function LeapsThrough(y: int): int
  {
    y / 4 - y / 100 + y / 400
  }

  /** Days from 1970-01-01 to the first day of year `y` (negative before 1970). */
  function DaysBeforeYear(y: int): int
  {
    365 * (y - 1970) + LeapsThrough(y - 1) - LeapsThrough(1969)
  }

  datatype Date = Date(year: int, month: int, day: int)

  predicate Valid(d: Date)
  {
    1 <= d.month <= 12 && 1 <= d.day <= DaysInMonth(d.year, d.month)
  }

  /** Days from 1970-01-01 to `d`: a JavaScript time value divided by a day. */
  function DayNumber(d: Date): int
    requires 1 <= d.month <= 12
  {
    DaysBeforeYear(d.year) + DaysBeforeMonth(d.year, d.month) + d.day - 1
  }

  /** `getDay()`: 0 is Sunday; 1970-01-01 was a Thursday. */
  function Weekday(d: Date): (w: int)
    requires 1 <= d.month <= 12
    ensures 0 <= w < 7
  {
    (DayNumber(d) + 4) % 7
  }

  /** Moving from `y - 1` to `y` raises the quotient by `k` exactly when
      `y` is a multiple of `k`. */
  lemma DivStep(y: int, k: int)
    requires k > 0
    ensures y / k == if (y - 1) % k == k - 1 then (y - 1) / k + 1 else (y - 1) / k
    ensures y % k == 0 <==> (y - 1) % k == k - 1
  {
    var q, r := (y - 1) / k, (y - 1) % k;
    if r == k - 1 {
      DivUnique(y, k, q + 1, 0);
    } else {
      DivUnique(y, k, q, r + 1);
    }
  }

  lemma DivUnique(y: int, k: int, q: int, r: int)
    requires k > 0 && 0 <= r < k && y == k * q + r
    ensures y / k == q && y % k == r
  {
    var q', r' := y / k, y % k;
    assert y == k * q' + r';
    var d := q - q';
    assert k * d == r' - r by {
      assert k * q == k * q' + k * d;
    }
    if d >= 1 {
      MulAtLeast(k, d);
    } else if d <= -1 {
      assert k * (-d) == -(k * d);
      MulAtLeast(k, -d);
    }
  }

  lemma MulAtLeast(k: int, d: int)
    requires k > 0 && d >= 1
    ensures k * d >= k
  {
    assert k * d == k + k * (d - 1);
    assert k * (d - 1) >= 0;
  }

  /** Exactly one leap day is counted when passing a leap year. */
  lemma LeapsStep(y: int)
    ensures LeapsThrough(y) - LeapsThrough(y - 1) == if IsLeap(y) then 1 else 0
  {
    DivStep(y, 4);
    DivStep(y, 100);
    DivStep(y, 400);
  }

  lemma YearLength(y: int)
    ensures DaysBeforeYear(y + 1) - DaysBeforeYear(y) == DaysInYear(y)
  {
    LeapsStep(y);
  }

  /** Each month starts where the previous one ends, and the months fill the year. */
  lemma MonthsTileYear(y: int, m: int)
    requires 1 <= m <= 12
    ensures m < 12 ==> DaysBeforeMonth(y, m + 1) == DaysBeforeMonth(y, m) + DaysInMonth(y, m)
    ensures m == 12 ==> DaysBeforeMonth(y, m) + DaysInMonth(y, m) == DaysInYear(y)
  {
  }

  /** The first day of the next month follows the last day of this one, across
      the turn of the year too. */
  lemma NextMonthStart(y: int, m: int)
    requires 1 <= m <= 12
    ensures var next := if m == 12 then Date(y + 1, 1, 1) else Date(y, m + 1, 1);
      DayNumber(next) == DayNumber(Date(y, m, 1)) + DaysInMonth(y, m)
  {
    MonthsTileYear(y, m);
    if m == 12 {
      YearLength(y);
    }
  }

  lemma {:induction false} DaysBeforeMonthMonotone(y: int, m: int, m': int)
    requires 1 <= m < m' <= 12
    ensures DaysBeforeMonth(y, m) + DaysInMonth(y, m) <= DaysBeforeMonth(y, m')
    decreases m' - m
  {
    MonthsTileYear(y, m);
    if m + 1 < m' {
      DaysBeforeMonthMonotone(y, m + 1, m');
    }
  }

  lemma {:induction false} DaysBeforeYearMonotone(y: int, y': int)
    requires y < y'
    ensures DaysBeforeYear(y) + DaysInYear(y) <= DaysBeforeYear(y')
    decreases y' - y
  {
    YearLength(y);
    if y + 1 < y' {
      DaysBeforeYearMonotone(y + 1, y');
      YearLength(y + 1);
    }
  }

  /** A valid date's day number lies inside its year. */
  lemma DayNumberInYear(d: Date)
    requires Valid(d)
    ensures DaysBeforeYear(d.year) <= DayNumber(d) < DaysBeforeYear(d.year) + DaysInYear(d.year)
  {
    MonthsTileYear(d.year, 12);
    if d.month < 12 {
      DaysBeforeMonthMonotone(d.year, d.month, 12);
    }
  }

  lemma EarlierYear(a: Date, b: Date)
    requires Valid(a) && Valid(b) && a.year < b.year
    ensures DayNumber(a) < DayNumber(b)
  {
    DayNumberInYear(a);
    DayNumberInYear(b);
    DaysBeforeYearMonotone(a.year, b.year);
  }

  lemma EarlierMonth(a: Date, b: Date)
    requires Valid(a) && Valid(b) && a.year == b.year && a.month < b.month
    ensures DayNumber(a) < DayNumber(b)
  {
    DaysBeforeMonthMonotone(a.year, a.month, b.month);
  }

  /** Lexicographic order on (year, month, day). */
  predicate Before(a: Date, b: Date)
  {
    a.year < b.year
    || (a.year == b.year && a.month < b.month)
    || (a.year == b.year && a.month == b.month && a.day < b.day)
  }

  /** On valid dates the day number orders dates exactly as the calendar
      does, so comparing `Date` objects compares (year, month, day). */
  lemma DayNumberOrder(a: Date, b: Date)
    requires Valid(a) && Valid(b)
    ensures Before(a, b) <==> DayNumber(a) < DayNumber(b)
    ensures a == b <==> DayNumber(a) == DayNumber(b)
  {
    if a.year < b.year {
      EarlierYear(a, b);
    } else if b.year < a.year {
      EarlierYear(b, a);
    } else if a.month < b.month {
      EarlierMonth(a, b);
    } else if b.month < a.month {
      EarlierMonth(b, a);
    }
  }

  /** Value of the digits `s[lo..hi]`. */
  function Digits(s: string, lo: nat, hi: nat): nat
    requires lo <= hi <= |s|
    requires forall i :: lo <= i < hi ==> IsDigit(s[i])
  {
    DigitsValue(s[lo..hi])
  }

  /** `YYYY-MM-DD` with a four-digit year and a real calendar day: the
      date-only form `Date` parses as UTC midnight, and what a date input
      yields for years up to 9999. Anything else counts as an invalid
      date here. */
  function ParseIsoDate(s: string): (r: Option<Date>)
    ensures r.Some? ==> Valid(r.value) && 0 <= r.value.year <= 9999
    ensures r.Some? ==> |s| == 10 && s[4] == '-' && s[7] == '-'
  {
    if |s| == 10 && s[4] == '-' && s[7] == '-'
       && (forall i :: 0 <= i < 10 && i != 4 && i != 7 ==> IsDigit(s[i]))
    then
      var y, m, d := Digits(s, 0, 4), Digits(s, 5, 7), Digits(s, 8, 10);
      assert y <= 9999 by { DigitsBound(s[0..4]); }
      if 1 <= m <= 12 && 1 <= d <= DaysInMonth(y, m) then Some(Date(y, m, d)) else None
    else None
  }

  lemma {:induction false} DigitsBound(s: string)
    requires forall i :: 0 <= i < |s| ==> IsDigit(s[i])
    ensures DigitsValue(s) < Pow10(|s|)
  {
    if |s| > 0 {
      DigitsBound(s[..|s| - 1]);
    }
  }

  function Pow10(n: nat): (p: nat)
    ensures p >= 1
  {
    if n == 0 then 1 else 10 * Pow10(n - 1)
  }

  /** Two digits of `n`, zero-padded. */
  function TwoDigits(n: nat): (r: string)
    requires n < 100
    ensures |r| == 2 && IsDigit(r[0]) && IsDigit(r[1])
    ensures DigitsValue(r) == n
  {
    var r := [DigitChar(n / 10), DigitChar(n % 10)];
    assert r[..1] == [DigitChar(n / 10)];
    assert r[..1][..0] == [];
    assert DigitsValue(r[..1]) == n / 10;
    r
  }

  /** The `YYYY-MM-DD` text of a date with a four-digit year. */
  function FormatIsoDate(d: Date): (r: string)
    requires Valid(d) && 0 <= d.year <= 9999
    ensures |r| == 10
  {
    TwoDigits(d.year / 100) + TwoDigits(d.year % 100) + "-" + TwoDigits(d.month) + "-" + TwoDigits(d.day)
  }

  lemma FourDigits(n: nat)
    requires n <= 9999
    ensures DigitsValue(TwoDigits(n / 100) + TwoDigits(n % 100)) == n
  {
    var a, b := TwoDigits(n / 100), TwoDigits(n % 100);
    var s := a + b;
    assert s[..3] == a + [b[0]];
    assert s[..3][..2] == a;
    assert (a + [b[0]])[..2] == a;
    assert b[..1] == [b[0]];
  }

  /** Parsing the text of a date gives the date back. */
  lemma IsoRoundTrip(d: Date)
    requires Valid(d) && 0 <= d.year <= 9999
    ensures ParseIsoDate(FormatIsoDate(d)) == Some(d)
  {
    var s := FormatIsoDate(d);
    var yy := TwoDigits(d.year / 100) + TwoDigits(d.year % 100);
    assert s[0..4] == yy;
    assert s[5..7] == TwoDigits(d.month);
    assert s[8..10] == TwoDigits(d.day);
    FourDigits(d.year);
  }

  /** A four-digit text is its first two digits times a hundred plus its last two. */
  lemma FourDigitText(t: string)
    requires |t| == 4 && forall i :: 0 <= i < 4 ==> IsDigit(t[i])
    ensures DigitsValue(t) == DigitsValue(t[..2]) * 100 + DigitsValue(t[2..])
  {
    var c2, c3 := (t[2] as int) - ('0' as int), (t[3] as int) - ('0' as int);
    assert t[..3][..2] == t[..2];
    assert DigitsValue(t[..3]) == DigitsValue(t[..2]) * 10 + c2;
    assert DigitsValue(t) == DigitsValue(t[..3]) * 10 + c3;
    assert t[2..][..1] == [t[2]];
    assert [t[2]][..0] == [];
    assert DigitsValue(t[2..][..1]) == c2;
    assert DigitsValue(t[2..]) == c2 * 10 + c3;
  }

  /** Two digits are their own zero-padded text. */
  lemma TwoDigitsOfText(t: string)
    requires |t| == 2 && IsDigit(t[0]) && IsDigit(t[1])
    ensures DigitsValue(t) < 100 && TwoDigits(DigitsValue(t)) == t
  {
    assert t[..1][..0] == [];
    assert t[..1] == [t[0]];
    var d0, d1 := (t[0] as int) - ('0' as int), (t[1] as int) - ('0' as int);
    assert DigitsValue(t[..1]) == d0;
    assert DigitsValue(t) == d0 * 10 + d1;
    assert DigitChar(d0) == t[0] && DigitChar(d1) == t[1];
  }

  /** Formatting a parsed date gives the text back: the `YYYY-MM-DD` form is
      canonical. */
  lemma FormatParseRoundTrip(s: string)
    requires ParseIsoDate(s).Some?
    ensures FormatIsoDate(ParseIsoDate(s).value) == s
  {
    var d := ParseIsoDate(s).value;
    var hi, lo := s[0..2], s[2..4];
    assert s[0..4][..2] == hi && s[0..4][2..] == lo;
    FourDigitText(s[0..4]);
    TwoDigitsOfText(hi);
    TwoDigitsOfText(lo);
    assert d.year == DigitsValue(hi) * 100 + DigitsValue(lo);
    assert d.year / 100 == DigitsValue(hi) && d.year % 100 == DigitsValue(lo);
    TwoDigitsOfText(s[5..7]);
    TwoDigitsOfText(s[8..10]);
    assert s == hi + lo + "-" + s[5..7] + "-" + s[8..10];
  }
}

=== FILE: js_text.dfy ===
/** The few JavaScript string operations the console's logic relies on,
    written out with their ECMAScript meaning. Strings are `seq<char>`;
    a JavaScript string is "truthy" exactly when it is non-empty. */
module JsText {

  /** ECMAScript WhiteSpace and LineTerminator code points: what
      `String.prototype.trim` strips from both ends. */
  predicate IsWhitespace(c: char)
  {
    || c == '\t' || c == '\n' || c == '\U{000B}' || c == '\U{000C}' || c == '\r'
    || c == ' ' || c == '\U{00A0}' || c == '\U{1680}'
    || ('\U{2000}' <= c <= '\U{200A}')
    || c == '\U{2028}' || c == '\U{2029}' || c == '\U{202F}' || c == '\U{205F}'
    || c == '\U{3000}' || c == '\U{FEFF}'
  }

  function TrimStart(s: string): (r: string)
    ensures |r| <= |s| && r == s[|s| - |r|..]
    ensures |r| > 0 ==> !IsWhitespace(r[0])
    ensures forall i :: 0 <= i < |s| - |r| ==> IsWhitespace(s[i])
  {
    if |s| > 0 && IsWhitespace(s[0]) then TrimStart(s[1..]) else s
  }

  function TrimEnd(s: string): (r: string)
    ensures |r| <= |s| && r == s[..|r|]
    ensures |r| > 0 ==> !IsWhitespace(r[|r| - 1])
    ensures forall i :: |r| <= i < |s| ==> IsWhitespace(s[i])
  {
    if |s| > 0 && IsWhitespace(s[|s| - 1]) then TrimEnd(s[..|s| - 1]) else s
  }

  /** `s.trim()`. */
  function Trim(s: string): string
  {
    TrimEnd(TrimStart(s))
  }

  /** `s.trim() === ''` holds exactly when every character is white space. */
  lemma TrimEmptyIffBlank(s: string)
    ensures Trim(s) == "" <==> forall i :: 0 <= i < |s| ==> IsWhitespace(s[i])
  {
    var t := TrimStart(s);
    if Trim(s) == "" {
      assert |t| == 0;
    } else {
      var r := Trim(s);
      assert r[0] == t[0] == s[|s| - |t|];
    }
  }

  function StartsWith(s: string, prefix: string): bool
  {
    |prefix| <= |s| && s[..|prefix|] == prefix
  }

  /** `pat` occurs in `s` starting at position `k`. */
  predicate OccursAt(s: string, pat: string, k: nat)
  {
    k + |pat| <= |s| && s[k..k + |pat|] == pat
  }

  /** Position of the first occurrence of `pat` in `s`, as `indexOf` finds it. */
  function IndexOf(s: string, pat: string): (r: Option<nat>)
    ensures r.Some? ==> OccursAt(s, pat, r.value)
    ensures r.Some? ==> forall k: nat :: k < r.value ==> !OccursAt(s, pat, k)
    ensures r.None? ==> forall k: nat :: !OccursAt(s, pat, k)
    decreases |s|
  {
    if |pat| > |s| then None
    else if s[..|pat|] == pat then Some(0)
    else match IndexOf(s[1..], pat)
      case None =>
        assert forall k: nat :: !OccursAt(s, pat, k) by {
          forall k: nat ensures !OccursAt(s, pat, k) {
            if k > 0 && OccursAt(s, pat, k) {
              assert s[1..][k - 1..k - 1 + |pat|] == s[k..k + |pat|];
              assert OccursAt(s[1..], pat, k - 1);
            }
          }
        }
        None
      case Some(k) =>
        assert s[1..][k..k + |pat|] == s[k + 1..k + 1 + |pat|];
        assert forall j: nat :: 0 < j < k + 1 ==> !OccursAt(s, pat, j) by {
          forall j: nat | 0 < j < k + 1 ensures !OccursAt(s, pat, j) {
            if OccursAt(s, pat, j) {
              assert s[1..][j - 1..j - 1 + |pat|] == s[j..j + |pat|];
              assert OccursAt(s[1..], pat, j - 1);
            }
          }
        }
        Some(k + 1)
  }

  /** `s.replace(pat, rep)` with a string pattern: only the first occurrence
      is replaced, and `s` is returned unchanged when there is none. */
  function ReplaceFirst(s: string, pat: string, rep: string): string
  {
    match IndexOf(s, pat)
    case None => s
    case Some(k) => s[..k] + rep + s[k + |pat|..]
  }

  /** After a successful `startsWith(prefix)`, `replace(prefix, '')` strips
      exactly that prefix. */
  lemma ReplacePrefix(s: string, prefix: string)
    requires StartsWith(s, prefix)
    ensures ReplaceFirst(s, prefix, "") == s[|prefix|..]
  {
    assert s[0..|prefix|] == s[..|prefix|];
  }

  /** A value that may be `null`/`undefined`. */
  datatype Option<+T> = None | Some(value: T)

  /** Truthiness of an optional string: present and non-empty. */
  predicate Truthy(v: Option<string>)
  {
    v.Some? && v.value != ""
  }

  /** `v || fallback` for an optional string. */
  function OrElse(v: Option<string>, fallback: string): string
  {
    if Truthy(v) then v.value else fallback
  }

  /** `s.split(sep)` for a one-character separator. */
  function Split(s: string, sep: char): (r: seq<string>)
    ensures |r| >= 1
    ensures forall i :: 0 <= i < |r| ==> sep !in r[i]
    ensures sep !in s ==> r == [s]
    ensures sep in s ==> |r| >= 2
  {
    if |s| == 0 then [""]
    else
      var rest := Split(s[1..], sep);
      if s[0] == sep then [""] + rest
      else
        assert sep !in s ==> sep !in s[1..] && [s[0]] + s[1..] == s;
        [[s[0]] + rest[0]] + rest[1..]
  }

  /** `parts.join(sep)`. */
  function Join(parts: seq<string>, sep: char): string
  {
    if |parts| == 0 then ""
    else if |parts| == 1 then parts[0]
    else parts[0] + [sep] + Join(parts[1..], sep)
  }

  /** Splitting and joining again on the same separator gives back the string. */
  lemma {:induction false} SplitJoin(s: string, sep: char)
    ensures Join(Split(s, sep), sep) == s
  {
    if |s| > 0 {
      var rest := Split(s[1..], sep);
      SplitJoin(s[1..], sep);
      if s[0] == sep {
        assert Split(s, sep) == [""] + rest;
        assert ([""] + rest)[1..] == rest;
      } else {
        var r := Split(s, sep);
        assert r == [[s[0]] + rest[0]] + rest[1..];
        if |rest| == 1 {
          assert r == [[s[0]] + rest[0]];
        } else {
          assert r[1..] == rest[1..];
        }
      }
    }
  }

  /** Splitting `a + sep + b` where `a` holds no `sep`: `a` is the first
      piece and the pieces of `b` follow. */
  lemma {:induction false} SplitAfterPiece(a: string, b: string, sep: char)
    requires sep !in a
    ensures Split(a + [sep] + b, sep) == [a] + Split(b, sep)
  {
    if |a| > 0 {
      var s := a + [sep] + b;
      assert s[1..] == a[1..] + [sep] + b;
      SplitAfterPiece(a[1..], b, sep);
      assert [a[0]] + a[1..] == a;
    } else {
      assert a + [sep] + b == [sep] + b;
      assert ([sep] + b)[1..] == b;
    }
  }

  /** Three pieces free of `sep`, joined by `sep`, split back into themselves. */
  lemma SplitThree(a: string, b: string, c: string, sep: char)
    requires sep !in a && sep !in b && sep !in c
    ensures Split(a + [sep] + b + [sep] + c, sep) == [a, b, c]
  {
    SplitAfterPiece(b, c, sep);
    assert a + [sep] + b + [sep] + c == a + [sep] + (b + [sep] + c);
    SplitAfterPiece(a, b + [sep] + c, sep);
  }

  /** A character absent from `s` is absent from each of its pieces. */
  lemma PiecesWithin(s: string, sep: char, c: char, i: nat)
    requires c !in s && i < |Split(s, sep)|
    ensures c !in Split(s, sep)[i]
  {
    SplitJoin(s, sep);
    JoinHolds(Split(s, sep), sep, i);
  }

  /** Every piece of a join lies inside the joined text. */
  lemma {:induction false} JoinHolds(parts: seq<string>, sep: char, i: nat)
    requires i < |parts|
    ensures forall k :: 0 <= k < |parts[i]| ==> parts[i][k] in Join(parts, sep)
  {
    if |parts| > 1 {
      var j := Join(parts, sep);
      assert j == parts[0] + [sep] + Join(parts[1..], sep);
      if i > 0 {
        JoinHolds(parts[1..], sep, i - 1);
        assert parts[1..][i - 1] == parts[i];
        forall k | 0 <= k < |parts[i]| ensures parts[i][k] in j {
          var x := parts[i][k];
          assert x in Join(parts[1..], sep);
          var n :| 0 <= n < |Join(parts[1..], sep)| && Join(parts[1..], sep)[n] == x;
          assert j[|parts[0]| + 1 + n] == x;
        }
      } else {
        forall k | 0 <= k < |parts[0]| ensures parts[0][k] in j {
          assert j[k] == parts[0][k];
        }
      }
    }
  }

  /** The last piece of `s.split(sep)`, what `.pop()` returns. */
  function LastPiece(s: string, sep: char): string
  {
    var parts := Split(s, sep);
    parts[|parts| - 1]
  }

  /** The last piece is the text after the last `sep`: a suffix of `s` free of
      `sep`, preceded by `sep` unless it is all of `s`. */
  lemma {:induction false} LastPieceIsTextAfterLastSep(s: string, sep: char)
    ensures var r := LastPiece(s, sep);
      && sep !in r
      && |r| <= |s| && r == s[|s| - |r|..]
      && (|r| < |s| ==> s[|s| - |r| - 1] == sep)
  {
    if |s| > 0 {
      LastPieceIsTextAfterLastSep(s[1..], sep);
      var rest := Split(s[1..], sep);
      var r' := rest[|rest| - 1];
      if s[0] != sep && |rest| == 1 {
        assert Split(s, sep) == [[s[0]] + rest[0]];
        assert r' == s[1..];
        assert LastPiece(s, sep) == s;
      } else if s[0] != sep {
        assert Split(s, sep)[|Split(s, sep)| - 1] == r';
        assert s[1..][|s[1..]| - |r'|..] == s[|s| - |r'|..];
      } else {
        assert Split(s, sep) == [""] + rest;
        assert s[1..][|s[1..]| - |r'|..] == s[|s| - |r'|..];
      }
    }
  }

  /** When the text after some `sep` holds no further `sep`, that text is
      the last piece: `"informe.final.docx".split('.').pop()` is `"docx"`. */
  lemma {:induction false} LastPieceAfterSep(a: string, b: string, sep: char)
    requires sep !in b
    ensures LastPiece(a + [sep] + b, sep) == b
  {
    var s := a + [sep] + b;
    if |a| == 0 {
      assert s == [sep] + b && s[1..] == b;
      assert Split(s, sep) == [""] + [b];
    } else {
      assert s[1..] == a[1..] + [sep] + b;
      LastPieceAfterSep(a[1..], b, sep);
      var rest := Split(s[1..], sep);
      assert sep in s[1..] by { assert s[1..][|a| - 1] == sep; }
      assert |rest| >= 2;
      var r := Split(s, sep);
      assert r[|r| - 1] == rest[|rest| - 1];
    }
  }

  /** One character of `toUpperCase`, for the characters whose upper case
      is a single Basic Latin letter: `a`-`z`, dotless `ı` (to `I`) and long
      `ſ` (to `S`). Every other character is kept. The characters this
      leaves out (ligatures such as `ﬁ`, sharp `ß`, and letters that take a
      combining mark) upper-case to two or more characters. */
  function UpperChar(c: char): (u: char)
    ensures 'a' <= c <= 'z' ==> u as int == c as int - 32
    ensures !('a' <= c <= 'z') && c != '\U{0131}' && c != '\U{017F}' ==> u == c
  {
    if 'a' <= c <= 'z' then (c as int - 32) as char
    else if c == '\U{0131}' then 'I'
    else if c == '\U{017F}' then 'S'
    else c
  }

  /** `s.toUpperCase()`, character by character (see `UpperChar`). */
  function ToUpper(s: string): (r: string)
    ensures |r| == |s|
    ensures forall i :: 0 <= i < |s| ==> r[i] == UpperChar(s[i])
  {
    seq(|s|, i requires 0 <= i < |s| => UpperChar(s[i]))
  }

  /** Upper-casing twice is upper-casing once. */
  lemma ToUpperIdempotent(s: string)
    ensures ToUpper(ToUpper(s)) == ToUpper(s)
  {
  }

  /** JavaScript `length`: UTF-16 code units, so a code point above U+FFFF
      counts twice. */
  function Utf16Length(s: string): (n: nat)
    ensures |s| <= n <= 2 * |s|
  {
    if |s| == 0 then 0
    else (if s[0] as int > 0xFFFF then 2 else 1) + Utf16Length(s[1..])
  }

  /** Decimal text of a natural number, as `n.toString()` gives it. */
  function NatToString(n: nat): (r: string)
    ensures |r| >= 1
    ensures forall i :: 0 <= i < |r| ==> IsDigit(r[i])
    ensures n > 0 ==> r[0] != '0'
  {
    if n < 10 then [DigitChar(n)] else NatToString(n / 10) + [DigitChar(n % 10)]
  }

  function DigitChar(d: nat): (c: char)
    requires d < 10
    ensures '0' <= c <= '9' && (c as int) - ('0' as int) == d
  {
    (('0' as int) + d) as char
  }

  predicate IsDigit(c: char)
  {
    '0' <= c <= '9'
  }

  /** Value of a string of decimal digits. */
  function DigitsValue(s: string): nat
    requires forall i :: 0 <= i < |s| ==> IsDigit(s[i])
  {
    if |s| == 0 then 0
    else
      assert IsDigit(s[|s| - 1]);
      DigitsValue(s[..|s| - 1]) * 10 + ((s[|s| - 1] as int) - ('0' as int))
  }

  lemma {:induction false} NatToStringRoundTrip(n: nat)
    ensures DigitsValue(NatToString(n)) == n
  {
    if n >= 10 {
      NatToStringRoundTrip(n / 10);
      var r := NatToString(n);
      assert r[..|r| - 1] == NatToString(n / 10);
    }
  }

  /** `n.toString()` for an integer: a minus sign before negatives. */
  function IntToString(n: int): string
  {
    if n < 0 then "-" + NatToString(-n) else NatToString(n)
  }

  /** A decimal text starts with a minus sign exactly for a negative number. */
  lemma IntToStringSign(a: int)
    ensures |IntToString(a)| >= 1
    ensures IntToString(a)[0] == '-' <==> a < 0
  {
    var digits := NatToString(if a < 0 then -a else a);
    assert IsDigit(digits[0]);
  }

  lemma NatToStringInjective(x: nat, y: nat)
    ensures NatToString(x) == NatToString(y) ==> x == y
  {
    NatToStringRoundTrip(x);
    NatToStringRoundTrip(y);
  }

  /** Different integers have different decimal texts. */
  lemma IntToStringInjective(a: int, b: int)
    ensures IntToString(a) == IntToString(b) <==> a == b
  {
    IntToStringSign(a);
    IntToStringSign(b);
    var ta, tb := IntToString(a), IntToString(b);
    if ta == tb && a < 0 {
      var x, y := NatToString(-a), NatToString(-b);
      assert ta == "-" + x && tb == "-" + y;
      assert x == ta[1..] && y == tb[1..];
      NatToStringInjective(-a, -b);
    } else if ta == tb {
      NatToStringInjective(a, b);
    }
  }

  /** `s.padStart(2, '0')`. */
  function PadStart2(s: string): (r: string)
    ensures |r| == if |s| < 2 then 2 else |s|
    ensures r[|r| - |s|..] == s
    ensures forall i :: 0 <= i < |r| - |s| ==> r[i] == '0'
  {
    if |s| == 0 then "00" else if |s| == 1 then "0" + s else s
  }
}

=== FILE: licence_lookup.dfy ===
/** The public licence checker: the input's blank check, the request it
    sends, and how the registry's answer (or the failure to get one) becomes
    a status, four detail lines and an optional error message. */
module LicenceLookup {
  import opened JsText
  import opened Session

  /** The four outcomes the result box knows. */
  datatype Estado = Validada | Suspendida | Cancelada | NoEncontrada

  /** The registry record as the endpoint returns it; every field may be
      missing. */
  datatype LicenceData = LicenceData(
    id: Option<string>,
    estatusLicencia: Option<string>,
    personaJuridica: Option<string>,
    representanteLegal: Option<string>,
    emision: Option<string>,
    vencimiento: Option<string>)

  /** How the request ended: an answer with a body (possibly `null`), an
      answer with an error status, no answer at all, or a failure before
      sending. */
  datatype Outcome =
    | Answered(data: Option<LicenceData>)
    | ErrorStatus(status: int)
    | NoResponse
    | SetupFailed

  /** The detail lines, or none at all (`{}`). */
  datatype Details =
    | NoDetails
    | Details(personaJuridica: string, representanteLegal: string, fechaEmision: string, fechaVencimiento: string)

  const Unavailable := "No disponible"

  /** The status mapping: the upper-cased status names a suspended or a
      cancelled licence; anything else, or no status, is a valid licence. */
  function MapStatus(raw: Option<string>): (e: Estado)
    ensures e != NoEncontrada
    ensures e == Suspendida <==> Truthy(raw) && ToUpper(raw.value) == "SUSPENDIDA"
    ensures e == Cancelada <==> Truthy(raw) && ToUpper(raw.value) == "CANCELADA"
  {
    var upper := if Truthy(raw) then ToUpper(raw.value) else "ACTIVA";
    if upper == "SUSPENDIDA" then Suspendida
    else if upper == "CANCELADA" then Cancelada
    else Validada
  }

  /** The mapping ignores letter case: statuses equal up to case map alike. */
  lemma MapStatusIgnoresCase(a: string, b: string)
    requires ToUpper(a) == ToUpper(b)
    ensures MapStatus(Some(a)) == MapStatus(Some(b))
  {
    assert |a| == |b|;
  }

  /** The spellings the registry uses map as expected. */
  lemma KnownStatuses()
    ensures MapStatus(Some("Suspendida")) == Suspendida
    ensures MapStatus(Some("suspendida")) == Suspendida
    ensures MapStatus(Some("CANCELADA")) == Cancelada
    ensures MapStatus(Some("Cancelada")) == Cancelada
    ensures MapStatus(Some("Activa")) == Validada
    ensures MapStatus(None) == Validada
  {
    assert ToUpper("Suspendida") == "SUSPENDIDA";
    assert ToUpper("suspendida") == "SUSPENDIDA";
    assert ToUpper("Cancelada") == "CANCELADA";
    assert ToUpper("CANCELADA") == "CANCELADA";
    assert ToUpper("Activa") == "ACTIVA";
  }

  /** A destructured piece of the split date: `undefined` past the end. */
  function Piece(parts: seq<string>, i: nat): string
  {
    if i < |parts| then parts[i] else "undefined"
  }

  /** `formatearFecha`: the sentinel for a missing date, `0000-00-00` or
      year `0000`; otherwise the `-`-separated pieces in reverse order,
      joined by `/`. */
  function FormatearFecha(f: Option<string>): (r: string)
    ensures !Truthy(f) || f.value == "0000-00-00" ==> r == Unavailable
  {
    if !Truthy(f) || f.value == "0000-00-00" then Unavailable
    else
      var parts := Split(f.value, '-');
      if parts[0] == "0000" then Unavailable
      else Piece(parts, 2) + "/" + Piece(parts, 1) + "/" + Piece(parts, 0)
  }

  /** The sentinel appears exactly for a missing date or year `0000`: a
      formatted date always holds a `/`, the sentinel none. */
  lemma SentinelExactly(f: Option<string>)
    ensures FormatearFecha(f) == Unavailable
        <==> !Truthy(f) || Split(f.value, '-')[0] == "0000"
  {
    if Truthy(f) && f.value == "0000-00-00" {
      SplitThree("0000", "00", "00", '-');
      assert "0000" + ['-'] + "00" + ['-'] + "00" == f.value;
    }
    if Truthy(f) && Split(f.value, '-')[0] != "0000" {
      var parts := Split(f.value, '-');
      var r := FormatearFecha(f);
      assert r[|Piece(parts, 2)|] == '/';
      assert '/' !in Unavailable;
    }
  }

  /** A `YYYY-MM-DD` date with a non-zero year reads `DD/MM/YYYY`. */
  lemma FormatearIsoDate(s: string)
    requires |s| == 10 && s[4] == '-' && s[7] == '-'
    requires forall i :: 0 <= i < |s| && i != 4 && i != 7 ==> IsDigit(s[i])
    requires s[..4] != "0000"
    ensures FormatearFecha(Some(s)) == s[8..] + "/" + s[5..7] + "/" + s[..4]
  {
    var y, m, d := s[..4], s[5..7], s[8..];
    assert '-' !in y && '-' !in m && '-' !in d by {
      forall i | 0 <= i < 4 ensures y[i] != '-' { assert y[i] == s[i]; }
      forall i | 0 <= i < 2 ensures m[i] != '-' && d[i] != '-' {
        assert m[i] == s[5 + i] && d[i] == s[8 + i];
      }
    }
    assert s == y + ['-'] + m + ['-'] + d;
    SplitThree(y, m, d, '-');
    assert s != "0000-00-00";
  }

  /** The reformatting can be undone: a three-piece date free of `/` is the
      formatted text's pieces, reversed and joined by `-`. */
  lemma FormatearFechaReverses(f: string)
    requires f != "" && f != "0000-00-00"
    requires |Split(f, '-')| == 3 && Split(f, '-')[0] != "0000"
    requires '/' !in f
    ensures var p := Split(FormatearFecha(Some(f)), '/');
      |p| == 3 && Join([p[2], p[1], p[0]], '-') == f
  {
    var parts := Split(f, '-');
    var a, b, c := parts[0], parts[1], parts[2];
    assert parts == [a, b, c];
    PiecesWithin(f, '-', '/', 0);
    PiecesWithin(f, '-', '/', 1);
    PiecesWithin(f, '-', '/', 2);
    assert FormatearFecha(Some(f)) == c + ['/'] + b + ['/'] + a;
    SplitThree(c, b, a, '/');
    SplitJoin(f, '-');
  }

  /** The detail lines for a found record. */
  function DetailsOf(d: LicenceData): (r: Details)
    ensures r.Details?
    ensures r.personaJuridica == OrElse(d.personaJuridica, Unavailable)
    ensures r.representanteLegal == OrElse(d.representanteLegal, Unavailable)
    ensures r.personaJuridica != "" && r.representanteLegal != ""
    ensures r.fechaEmision == FormatearFecha(d.emision) && r.fechaVencimiento == FormatearFecha(d.vencimiento)
  {
    Details(OrElse(d.personaJuridica, Unavailable), OrElse(d.representanteLegal, Unavailable),
            FormatearFecha(d.emision), FormatearFecha(d.vencimiento))
  }

  /** The issue date shown for a record is the record's own date: read
      back piece by piece in reverse, the detail line gives the stored text. */
  lemma DetailDatesAreRecordDates(d: LicenceData, e: string)
    requires d.emision == Some(e) && e != "0000-00-00"
    requires |Split(e, '-')| == 3 && Split(e, '-')[0] != "0000" && '/' !in e
    ensures var p := Split(DetailsOf(d).fechaEmision, '/');
      |p| == 3 && Join([p[2], p[1], p[0]], '-') == e
  {
    FormatearFechaReverses(e);
  }

  const ConnectionMessage := "No se pudo conectar con el servidor. Verifique su conexión a internet."
  const GenericMessage := "Ocurrió un error al validar la licencia. Por favor, intente nuevamente."

  /** The message of a failed request: empty for a 404, the status code in
      the text for any other error status. */
  function ErrorMessage(o: Outcome): (m: string)
    requires !o.Answered?
    ensures o.ErrorStatus? && o.status == 404 ==> m == ""
    ensures o.ErrorStatus? && o.status != 404 ==>
      m == "Error del servidor: " + IntToString(o.status) + ". Por favor, intente nuevamente."
    ensures o.NoResponse? ==> m == ConnectionMessage
    ensures o.SetupFailed? ==> m == GenericMessage
    ensures m == "" <==> o.ErrorStatus? && o.status == 404
  {
    match o
    case ErrorStatus(status) =>
      if status == 404 then "" else "Error del servidor: " + IntToString(status) + ". Por favor, intente nuevamente."
    case NoResponse => ConnectionMessage
    case SetupFailed => GenericMessage
  }

  /** The page's state. */
  datatype PageState = PageState(
    licencia: string,
    estado: Option<Estado>,
    mostrarResultado: bool,
    details: Details,
    loading: bool,
    error: Option<string>,
    campoVacio: bool)

  const InitialState := PageState("", None, false, Details("", "", "", ""), false, None, false)

  /** Typing: keep the text; a non-blank text clears the blank warning, a
      blank one leaves it as it was. */
  function HandleChange(s: PageState, v: string): (r: PageState)
    ensures r.licencia == v
    ensures Trim(v) != "" ==> !r.campoVacio
    ensures Trim(v) == "" ==> r.campoVacio == s.campoVacio
    ensures r.(licencia := s.licencia, campoVacio := s.campoVacio) == s
  {
    if Trim(v) != "" then s.(licencia := v, campoVacio := false) else s.(licencia := v)
  }

  /** The path requested for the typed text: nothing for blank text, and
      the text as typed (neither trimmed nor encoded) otherwise. */
  function RequestPath(s: PageState): (r: Option<string>)
    ensures r.None? <==> Trim(s.licencia) == ""
    ensures r.Some? ==> r.value == "/corredores_traer.php?no_lic=" + s.licencia
  {
    if Trim(s.licencia) == "" then None else Some("/corredores_traer.php?no_lic=" + s.licencia)
  }

  /** What the page shows once the request has ended one way or the other. */
  function Resolve(s: PageState, o: Outcome): (r: PageState)
    ensures !r.loading && r.mostrarResultado && r.estado.Some?
    ensures r.licencia == s.licencia && r.campoVacio == s.campoVacio
    ensures r.estado.value == NoEncontrada <==> r.details.NoDetails?
    ensures o.Answered? ==> r.error.None?
    ensures !o.Answered? ==> r.estado == Some(NoEncontrada) && r.error == Some(ErrorMessage(o))
    ensures o.Answered? && o.data.Some? && Truthy(o.data.value.id) ==>
      r.estado == Some(MapStatus(o.data.value.estatusLicencia)) && r.details == DetailsOf(o.data.value)
  {
    var s' := s.(loading := false, mostrarResultado := true);
    match o
    case Answered(data) =>
      if data.Some? && Truthy(data.value.id) then
        s'.(estado := Some(MapStatus(data.value.estatusLicencia)), details := DetailsOf(data.value), error := None)
      else
        s'.(estado := Some(NoEncontrada), details := NoDetails, error := None)
    case _ =>
      s'.(estado := Some(NoEncontrada), details := NoDetails, error := Some(ErrorMessage(o)))
  }

  /** `handleSubmit`: blank text only raises the warning and sends nothing,
      so the outcome plays no part; otherwise the lookup's outcome is
      resolved. */
  function Submit(s: PageState, o: Outcome): (r: PageState)
    ensures RequestPath(s).None? ==> r == s.(campoVacio := true)
    ensures RequestPath(s).Some? ==> r == Resolve(s, o)
  {
    if Trim(s.licencia) == "" then s.(campoVacio := true) else Resolve(s, o)
  }

  /** Blank text gives the same page whatever the lookup would have answered. */
  lemma BlankSubmitIgnoresOutcome(s: PageState, o1: Outcome, o2: Outcome)
    requires Trim(s.licencia) == ""
    ensures Submit(s, o1) == Submit(s, o2) && Submit(s, o1).campoVacio
  {
  }

  /** Which boxes are rendered. */
  predicate ErrorBoxShown(s: PageState) { Truthy(s.error) }

  predicate ResultBoxShown(s: PageState)
  {
    s.mostrarResultado && s.estado.Some? && !Truthy(s.error)
  }

  predicate DetailLinesShown(s: PageState)
  {
    ResultBoxShown(s) && s.estado.value != NoEncontrada
  }

  /** How the request settles as the HTTP client's response interceptor
      sees it. */
  function Settle(o: Outcome): Settled
  {
    match o
    case Answered(_) => Resolved(Response(200, ""))
    case ErrorStatus(status) => Rejected(HttpError(Some(status)))
    case _ => Rejected(HttpError(None))
  }

  /** A 401 with no logout callback registered: the interceptor clears the
      session keys and loads `/login`, so the visitor leaves the page. */
  predicate LeavesPage(c: Client, o: Outcome)
  {
    o.ErrorStatus? && o.status == 401 && c.callback.None?
  }

  /** Pressing "validate" as the browser runs it: the page's own handling,
      and what the HTTP client's response interceptor does to the browser
      on the way. A 401 without a registered callback clears the session
      keys and sends the browser to `/login`; with one, it invokes the
      callback; nothing else touches the browser. */
  function Lookup(s: PageState, o: Outcome, c: Client, env: Env): (r: (PageState, Env))
    ensures r.0 == Submit(s, o)
    ensures RequestPath(s).None? || !(o.ErrorStatus? && o.status == 401) ==> r.1 == env
    ensures RequestPath(s).Some? && LeavesPage(c, o) ==>
      && r.1.location == Some("/login") && r.1.invoked == env.invoked
      && (forall k :: k in SessionKeys ==> k !in r.1.storage)
      && (forall k :: k !in SessionKeys && k in env.storage ==> k in r.1.storage && r.1.storage[k] == env.storage[k])
    ensures RequestPath(s).Some? && o.ErrorStatus? && o.status == 401 && c.callback.Some? ==>
      r.1 == env.(invoked := env.invoked + [c.callback.value])
  {
    if RequestPath(s).None? then (Submit(s, o), env)
    else (Resolve(s, o), OnSettled(c, env, Settle(o)).0)
  }

  /** After a lookup either the visitor has left for `/login` (a 401 with
      no callback) or exactly one box is shown: a 404 and an empty answer
      show "not found" in the result box, the other failures only the error
      box, and a found record the result box with its details. */
  lemma OneBoxAfterLookup(s: PageState, o: Outcome, c: Client, env: Env)
    requires RequestPath(s).Some? && env.location.None?
    ensures var (r, env') := Lookup(s, o, c, env);
      && (LeavesPage(c, o) <==> env'.location == Some("/login"))
      && (!LeavesPage(c, o) ==>
            && (ErrorBoxShown(r) <==> !ResultBoxShown(r))
            && (ErrorBoxShown(r) <==> !o.Answered? && !(o.ErrorStatus? && o.status == 404))
            && (DetailLinesShown(r) <==> o.Answered? && o.data.Some? && Truthy(o.data.value.id)))
  {
    var r := Submit(s, o);
    if !o.Answered? {
      assert r.error == Some(ErrorMessage(o));
    }
    if o.Answered? && o.data.Some? && Truthy(o.data.value.id) {
      assert r.estado.value == MapStatus(o.data.value.estatusLicencia);
    }
  }

  /** The public checker can end a session: a signed-in visitor whose
      lookup is answered with 401 is signed out, and the protected pages
      send them to the sign-in page even after a reload. */
  lemma UnauthorizedLookupSignsOut(s: PageState, env: Env)
    requires RequestPath(s).Some? && HasToken(env.storage)
    ensures var env' := Lookup(s, ErrorStatus(401), Client(None), env).1;
      && env'.location == Some("/login")
      && !HasToken(env'.storage)
      && Guard(InitialAuth(env'.storage)) == RedirectToLogin
  {
  }
}

=== FILE: notification_store.dfy ===
/** The in-memory notification list shared by the top bar menu and the
    notifications page: mark one or all as read, delete one or all, and the
    unread counter. No operation ever adds a notification. */
module NotificationStore {
  import opened Seqs

  datatype Notification = Notification(
    id: int,
    text: string,
    read: bool,
    time: string,
    route: string,
    kind: string,
    action: string,
    icon: string)

  predicate IsUnread(n: Notification) { !n.read }

  /** The filter predicates used with an id, named so that every use denotes
      the same function. */
  function OtherId(id: int): Notification -> bool { (n: Notification) => n.id != id }
  function SameId(id: int): Notification -> bool { (n: Notification) => n.id == id }
  function UnreadWithId(id: int): Notification -> bool { (n: Notification) => n.id == id && !n.read }

  predicate IdsDistinct(ns: seq<Notification>)
  {
    forall i, j :: 0 <= i < j < |ns| ==> ns[i].id != ns[j].id
  }

  /** The six seeded notifications, three kinds each appearing twice. */
  function InitialNotifications(): (r: seq<Notification>)
    ensures |r| == 6
    ensures forall i :: 0 <= i < |r| ==> r[i].id == i + 1 && !r[i].read
    ensures IdsDistinct(r)
  {
    [ Notification(1, "Nuevo usuario registrado en el sistema", false, "11/03/2025",
        "/configuracion/usuarios", "usuario", "Haz clic para revisar el nuevo usuario", "User"),
      Notification(2, "Nuevos archivos cargados en el sistema", false, "01/03/2025",
        "/configuracion/archivos", "archivo", "Haz clic para ver los archivos cargados", "FileText"),
      Notification(3, "Resumen del día disponible", false, "Hoy",
        "/dashboard", "dashboard", "Haz clic para ver el resumen", "Clock"),
      Notification(4, "Nuevo usuario registrado en el sistema", false, "11/03/2025",
        "/configuracion/usuarios", "usuario", "Haz clic para revisar el nuevo usuario", "User"),
      Notification(5, "Nuevos archivos cargados en el sistema", false, "01/03/2025",
        "/configuracion/archivos", "archivo", "Haz clic para ver los archivos cargados", "FileText"),
      Notification(6, "Resumen del día disponible", false, "Hoy",
        "/dashboard", "dashboard", "Haz clic para ver el resumen", "Clock") ]
  }

  /** `notifications.map(n => ({ ...n, read: true }))`. */
  function MarkAllAsRead(ns: seq<Notification>): (r: seq<Notification>)
    ensures |r| == |ns|
    ensures forall i :: 0 <= i < |r| ==> r[i] == ns[i].(read := true)
  {
    if |ns| == 0 then [] else [ns[0].(read := true)] + MarkAllAsRead(ns[1..])
  }

  /** `notifications.map(n => n.id === id ? { ...n, read: true } : n)`. */
  function MarkAsRead(ns: seq<Notification>, id: int): (r: seq<Notification>)
    ensures |r| == |ns|
    ensures forall i :: 0 <= i < |r| ==> r[i] == if ns[i].id == id then ns[i].(read := true) else ns[i]
  {
    if |ns| == 0 then []
    else [if ns[0].id == id then ns[0].(read := true) else ns[0]] + MarkAsRead(ns[1..], id)
  }

  /** `notifications.filter(n => n.id !== id)`. */
  function DeleteNotification(ns: seq<Notification>, id: int): (r: seq<Notification>)
    ensures Subseq(r, ns)
    ensures forall i :: 0 <= i < |r| ==> r[i].id != id
    ensures forall i :: 0 <= i < |ns| && ns[i].id != id ==> ns[i] in r
  {
    FilterIsSubseq(ns, OtherId(id));
    Filter(ns, OtherId(id))
  }

  function DeleteAllNotifications(ns: seq<Notification>): (r: seq<Notification>)
    ensures |r| == 0
  {
    []
  }

  /** `notifications.filter(n => !n.read).length`. */
  function UnreadCount(ns: seq<Notification>): nat
  {
    Count(ns, IsUnread)
  }

  /** The actions the context exposes that change the list. */
  datatype Action = MarkAll | DeleteAll | MarkOne(id: int) | DeleteOne(id: int)

  function Apply(ns: seq<Notification>, a: Action): seq<Notification>
  {
    match a
    case MarkAll => MarkAllAsRead(ns)
    case DeleteAll => DeleteAllNotifications(ns)
    case MarkOne(id) => MarkAsRead(ns, id)
    case DeleteOne(id) => DeleteNotification(ns, id)
  }

  function ApplyAll(ns: seq<Notification>, actions: seq<Action>): seq<Notification>
    decreases |actions|
  {
    if |actions| == 0 then ns else ApplyAll(Apply(ns, actions[0]), actions[1..])
  }

  lemma {:induction false} UnreadAfterMarkAllIsZero(ns: seq<Notification>)
    ensures UnreadCount(MarkAllAsRead(ns)) == 0
  {
    var r := MarkAllAsRead(ns);
    FilterNone(r, IsUnread);
  }

  lemma UnreadAfterDeleteAllIsZero(ns: seq<Notification>)
    ensures UnreadCount(DeleteAllNotifications(ns)) == 0
  {
  }

  /** Marking the same id twice is the same as marking it once. */
  lemma MarkAsReadIdempotent(ns: seq<Notification>, id: int)
    ensures MarkAsRead(MarkAsRead(ns, id), id) == MarkAsRead(ns, id)
  {
  }

  lemma MarkAllAsReadIdempotent(ns: seq<Notification>)
    ensures MarkAllAsRead(MarkAllAsRead(ns)) == MarkAllAsRead(ns)
  {
  }

  /** Marking `id` read lowers the unread count by exactly the unread entries
      carrying that id. */
  lemma {:induction false} UnreadAfterMarkAsRead(ns: seq<Notification>, id: int)
    ensures UnreadCount(MarkAsRead(ns, id)) == UnreadCount(ns) - Count(ns, UnreadWithId(id))
    ensures UnreadCount(MarkAsRead(ns, id)) <= UnreadCount(ns)
  {
    if |ns| > 0 {
      UnreadAfterMarkAsRead(ns[1..], id);
      assert MarkAsRead(ns, id)[1..] == MarkAsRead(ns[1..], id);
    }
  }

  /** Deleting `id` lowers the unread count by the unread entries it removes. */
  lemma {:induction false} UnreadAfterDelete(ns: seq<Notification>, id: int)
    ensures UnreadCount(DeleteNotification(ns, id)) == UnreadCount(ns) - Count(ns, UnreadWithId(id))
    ensures UnreadCount(DeleteNotification(ns, id)) <= UnreadCount(ns)
  {
    if |ns| > 0 {
      UnreadAfterDelete(ns[1..], id);
    }
  }

  /** Deletion removes exactly the entries with that id. */
  lemma {:induction false} DeleteLength(ns: seq<Notification>, id: int)
    ensures |DeleteNotification(ns, id)| == |ns| - Count(ns, SameId(id))
  {
    CountSplit(ns, SameId(id));
    FilterCongruent(ns, OtherId(id), Not(SameId(id)));
  }

  lemma {:induction false} MarkAsReadKeepsIds(ns: seq<Notification>, id: int)
    requires IdsDistinct(ns)
    ensures IdsDistinct(MarkAsRead(ns, id))
  {
  }

  lemma {:induction false} DeleteKeepsIdsDistinct(ns: seq<Notification>, id: int)
    requires IdsDistinct(ns)
    ensures IdsDistinct(DeleteNotification(ns, id))
  {
    if |ns| > 0 {
      DeleteKeepsIdsDistinct(ns[1..], id);
      var tail := DeleteNotification(ns[1..], id);
      forall k | 0 <= k < |tail| ensures tail[k].id != ns[0].id {
        var j :| 0 <= j < |ns[1..]| && ns[1..][j] == tail[k];
      }
    }
  }

  /** Every id lies in `lo..hi`. */
  predicate IdsWithin(ns: seq<Notification>, lo: int, hi: int)
  {
    forall i :: 0 <= i < |ns| ==> lo <= ns[i].id <= hi
  }

  lemma ApplyPreserves(ns: seq<Notification>, a: Action, lo: int, hi: int)
    requires IdsDistinct(ns) && IdsWithin(ns, lo, hi)
    ensures IdsDistinct(Apply(ns, a)) && IdsWithin(Apply(ns, a), lo, hi)
    ensures |Apply(ns, a)| <= |ns|
  {
    match a
    case MarkOne(id) => MarkAsReadKeepsIds(ns, id);
    case DeleteOne(id) =>
      DeleteKeepsIdsDistinct(ns, id);
      var r := DeleteNotification(ns, id);
      forall k | 0 <= k < |r| ensures lo <= r[k].id <= hi {
        var j :| 0 <= j < |ns| && ns[j] == r[k];
      }
    case MarkAll =>
    case DeleteAll =>
  }

  /** Starting from the seeded list, any run of actions keeps ids distinct and
      drawn from 1..6, and never grows the list. */
  lemma {:induction false} ActionsNeverAddEntries(ns: seq<Notification>, actions: seq<Action>)
    requires IdsDistinct(ns) && IdsWithin(ns, 1, 6)
    ensures var r := ApplyAll(ns, actions);
      IdsDistinct(r) && IdsWithin(r, 1, 6) && |r| <= |ns|
    decreases |actions|
  {
    if |actions| > 0 {
      ApplyPreserves(ns, actions[0], 1, 6);
      ActionsNeverAddEntries(Apply(ns, actions[0]), actions[1..]);
    }
  }

  lemma {:induction false} AllUnreadCount(ns: seq<Notification>)
    requires forall i :: 0 <= i < |ns| ==> !ns[i].read
    ensures UnreadCount(ns) == |ns|
  {
    FilterAll(ns, IsUnread);
  }

  /** The seeded list satisfies the invariant and has six unread entries. */
  lemma InitialStateInvariant()
    ensures IdsDistinct(InitialNotifications())
    ensures IdsWithin(InitialNotifications(), 1, 6)
    ensures UnreadCount(InitialNotifications()) == 6
  {
    AllUnreadCount(InitialNotifications());
  }
}

=== FILE: notification_views.dfy ===
/** What the notifications page and the top bar menu derive from the shared
    notification list: the read/unread filter, the grouping by time label
    (in the order a JavaScript object lists its keys), the three-item menu
    preview, which bulk controls appear, and what a click does. */
module NotificationViews {
  import opened Seqs
  import opened JsText
  import opened NotificationStore

  predicate IsRead(n: Notification) { n.read }

  function KeepAll(): Notification -> bool { (n: Notification) => true }

  /** The page's filter predicate: `'unread'`, `'read'`, and anything else
      (including `'all'`) keeps every notification. */
  function FilterKeeps(filter: string): Notification -> bool
  {
    if filter == "unread" then IsUnread
    else if filter == "read" then IsRead
    else KeepAll()
  }

  function FilteredNotifications(ns: seq<Notification>, filter: string): (r: seq<Notification>)
    ensures Subseq(r, ns)
    ensures filter == "unread" ==> (forall i :: 0 <= i < |r| ==> !r[i].read) && |r| == UnreadCount(ns)
    ensures filter == "read" ==> (forall i :: 0 <= i < |r| ==> r[i].read) && |r| == |ns| - UnreadCount(ns)
    ensures filter != "unread" && filter != "read" ==> r == ns
  {
    FilterFacts(ns, filter);
    Filter(ns, FilterKeeps(filter))
  }

  lemma FilterFacts(ns: seq<Notification>, filter: string)
    ensures Subseq(Filter(ns, FilterKeeps(filter)), ns)
    ensures filter == "read" ==> |Filter(ns, FilterKeeps(filter))| == |ns| - UnreadCount(ns)
    ensures filter != "unread" && filter != "read" ==> Filter(ns, FilterKeeps(filter)) == ns
  {
    FilterIsSubseq(ns, FilterKeeps(filter));
    if filter == "read" {
      CountSplit(ns, IsUnread);
      FilterCongruent(ns, IsRead, Not(IsUnread));
    } else if filter != "unread" {
      FilterAll(ns, KeepAll());
    }
  }

  /** The read and unread views together hold every notification once. */
  lemma ReadPlusUnreadIsTotal(ns: seq<Notification>)
    ensures |FilteredNotifications(ns, "read")| + |FilteredNotifications(ns, "unread")| == |ns|
  {
  }

  // ---------------------------------------------------------------------
  // Grouping by time label

  datatype Group = Group(key: string, items: seq<Notification>)

  /** The labels of the groups, in order. */
  function KeysOf(gs: seq<Group>): (ks: seq<string>)
    ensures |ks| == |gs|
    ensures forall i :: 0 <= i < |gs| ==> ks[i] == gs[i].key
  {
    seq(|gs|, i requires 0 <= i < |gs| => gs[i].key)
  }

  predicate HasKey(gs: seq<Group>, k: string)
  {
    exists i :: 0 <= i < |gs| && gs[i].key == k
  }

  predicate KeysDistinct(gs: seq<Group>)
  {
    forall i, j :: 0 <= i < j < |gs| ==> gs[i].key != gs[j].key
  }

  /** Number of notifications over all groups. */
  function TotalSize(gs: seq<Group>): nat
  {
    if |gs| == 0 then 0 else |gs[0].items| + TotalSize(gs[1..])
  }

  function HasTime(t: string): Notification -> bool { (n: Notification) => n.time == t }

  /** One step of the `reduce`: push `n` onto the group keyed by its time,
      creating that group at the end when it does not exist yet. */
  function AddToGroup(gs: seq<Group>, n: Notification): seq<Group>
  {
    if |gs| == 0 then [Group(n.time, [n])]
    else if gs[0].key == n.time then [gs[0].(items := gs[0].items + [n])] + gs[1..]
    else [gs[0]] + AddToGroup(gs[1..], n)
  }

  /** The `reduce` over the filtered list, groups kept in insertion order. */
  function GroupByTime(ns: seq<Notification>): seq<Group>
  {
    if |ns| == 0 then [] else AddToGroup(GroupByTime(ns[..|ns| - 1]), ns[|ns| - 1])
  }

  /** The distinct time labels in order of first occurrence. */
  function FirstOccurrenceTimes(ns: seq<Notification>): seq<string>
  {
    if |ns| == 0 then []
    else
      var ks := FirstOccurrenceTimes(ns[..|ns| - 1]);
      if ns[|ns| - 1].time in ks then ks else ks + [ns[|ns| - 1].time]
  }

  lemma {:induction false} FirstOccurrenceTimesSpec(ns: seq<Notification>)
    ensures Distinct(FirstOccurrenceTimes(ns))
    ensures forall i :: 0 <= i < |ns| ==> ns[i].time in FirstOccurrenceTimes(ns)
    ensures forall k :: k in FirstOccurrenceTimes(ns) ==> exists i :: 0 <= i < |ns| && ns[i].time == k
  {
    if |ns| > 0 {
      var init := ns[..|ns| - 1];
      FirstOccurrenceTimesSpec(init);
      forall k | k in FirstOccurrenceTimes(ns)
        ensures exists i :: 0 <= i < |ns| && ns[i].time == k
      {
        if k in FirstOccurrenceTimes(init) {
          var i :| 0 <= i < |init| && init[i].time == k;
          assert ns[i].time == k;
        } else {
          assert ns[|ns| - 1].time == k;
        }
      }
      forall i | 0 <= i < |ns| ensures ns[i].time in FirstOccurrenceTimes(ns) {
        if i < |ns| - 1 {
          assert ns[i] == init[i];
        }
      }
    }
  }

  lemma KeysDistinctTail(gs: seq<Group>)
    requires |gs| > 0 && KeysDistinct(gs)
    ensures KeysDistinct(gs[1..])
  {
    forall i, j | 0 <= i < j < |gs[1..]| ensures gs[1..][i].key != gs[1..][j].key {
      assert gs[1..][i] == gs[i + 1] && gs[1..][j] == gs[j + 1];
    }
  }

  lemma {:induction false} AddToGroupExisting(gs: seq<Group>, n: Notification, k: nat)
    requires KeysDistinct(gs) && k < |gs| && gs[k].key == n.time
    ensures AddToGroup(gs, n) == gs[k := gs[k].(items := gs[k].items + [n])]
  {
    if k > 0 {
      KeysDistinctTail(gs);
      assert gs[1..][k - 1] == gs[k];
      AddToGroupExisting(gs[1..], n, k - 1);
      assert gs[k := gs[k].(items := gs[k].items + [n])]
        == [gs[0]] + gs[1..][k - 1 := gs[k].(items := gs[k].items + [n])];
    }
  }

  lemma {:induction false} AddToGroupNew(gs: seq<Group>, n: Notification)
    requires !HasKey(gs, n.time)
    ensures AddToGroup(gs, n) == gs + [Group(n.time, [n])]
  {
    if |gs| > 0 {
      assert !HasKey(gs[1..], n.time) by {
        forall i | 0 <= i < |gs[1..]| ensures gs[1..][i].key != n.time {
          assert gs[1..][i] == gs[i + 1];
        }
      }
      AddToGroupNew(gs[1..], n);
      assert gs + [Group(n.time, [n])] == [gs[0]] + (gs[1..] + [Group(n.time, [n])]);
    }
  }

  /** `gs` is the grouping of `ns`: one group per distinct time label, in
      order of first occurrence, each holding exactly the notifications with
      that label in their original order. */
  predicate GroupedBy(gs: seq<Group>, ns: seq<Notification>)
  {
    && KeysOf(gs) == FirstOccurrenceTimes(ns)
    && (forall i :: 0 <= i < |gs| ==> gs[i].items == Filter(ns, HasTime(gs[i].key)))
  }

  lemma GroupedKeysDistinct(gs: seq<Group>, ns: seq<Notification>)
    requires GroupedBy(gs, ns)
    ensures KeysDistinct(gs)
  {
    FirstOccurrenceTimesSpec(ns);
    forall i, j | 0 <= i < j < |gs| ensures gs[i].key != gs[j].key {
      assert KeysOf(gs)[i] != KeysOf(gs)[j];
    }
  }

  /** One step of the `reduce` keeps the grouping exact. */
  lemma GroupStep(gs: seq<Group>, init: seq<Notification>, n: Notification)
    requires GroupedBy(gs, init)
    ensures GroupedBy(AddToGroup(gs, n), init + [n])
  {
    if HasKey(gs, n.time) {
      GroupStepExisting(gs, init, n);
    } else {
      GroupStepNew(gs, init, n);
    }
  }

  /** A notification whose label already has a group joins that group. */
  lemma GroupStepExisting(gs: seq<Group>, init: seq<Notification>, n: Notification)
    requires GroupedBy(gs, init) && HasKey(gs, n.time)
    ensures GroupedBy(AddToGroup(gs, n), init + [n])
  {
    var ns := init + [n];
    assert ns[..|ns| - 1] == init;
    FirstOccurrenceTimesSpec(init);
    GroupedKeysDistinct(gs, init);
    var r := AddToGroup(gs, n);
    var k :| 0 <= k < |gs| && gs[k].key == n.time;
    AddToGroupExisting(gs, n, k);
    assert KeysOf(gs)[k] == n.time;
    assert KeysOf(r) == KeysOf(gs);
    forall i | 0 <= i < |r| ensures r[i].items == Filter(ns, HasTime(r[i].key)) {
      FilterSnoc(init, n, HasTime(r[i].key));
    }
  }

  /** A notification with a new label opens a group of its own at the end. */
  lemma GroupStepNew(gs: seq<Group>, init: seq<Notification>, n: Notification)
    requires GroupedBy(gs, init) && !HasKey(gs, n.time)
    ensures GroupedBy(AddToGroup(gs, n), init + [n])
  {
    var ns := init + [n];
    assert ns[..|ns| - 1] == init;
    FirstOccurrenceTimesSpec(init);
    var r := AddToGroup(gs, n);
    AddToGroupNew(gs, n);
    assert n.time !in KeysOf(gs);
    assert KeysOf(r) == KeysOf(gs) + [n.time];
    forall i | 0 <= i < |r| ensures r[i].items == Filter(ns, HasTime(r[i].key)) {
      FilterSnoc(init, n, HasTime(r[i].key));
      if i == |gs| {
        FilterNone(init, HasTime(n.time));
      }
    }
  }

  /** The `reduce` builds exactly the grouping of the filtered list. */
  lemma {:induction false} GroupByTimeCorrect(ns: seq<Notification>)
    ensures GroupedBy(GroupByTime(ns), ns)
  {
    if |ns| > 0 {
      var init, n := ns[..|ns| - 1], ns[|ns| - 1];
      assert ns == init + [n];
      GroupByTimeCorrect(init);
      GroupStep(GroupByTime(init), init, n);
    }
  }

  lemma {:induction false} AddToGroupSize(gs: seq<Group>, n: Notification)
    ensures TotalSize(AddToGroup(gs, n)) == TotalSize(gs) + 1
  {
    if |gs| > 0 && gs[0].key != n.time {
      AddToGroupSize(gs[1..], n);
    }
  }

  lemma {:induction false} GroupByTimeSize(ns: seq<Notification>)
    ensures TotalSize(GroupByTime(ns)) == |ns|
  {
    if |ns| > 0 {
      GroupByTimeSize(ns[..|ns| - 1]);
      AddToGroupSize(GroupByTime(ns[..|ns| - 1]), ns[|ns| - 1]);
    }
  }

  // ---------------------------------------------------------------------
  // JavaScript property order: keys that are array indices come first in
  // ascending numeric order, then the other keys in insertion order.

  /** A canonical decimal integer below 2^32 - 1. */
  predicate IsArrayIndex(k: string)
  {
    && |k| >= 1
    && (forall i :: 0 <= i < |k| ==> IsDigit(k[i]))
    && (k[0] != '0' || |k| == 1)
    && DigitsValue(k) < 0xFFFF_FFFF
  }

  predicate IndexKeyed(g: Group) { IsArrayIndex(g.key) }

  function IndexOfGroup(g: Group): nat
    requires IndexKeyed(g)
  {
    DigitsValue(g.key)
  }

  predicate AllIndexKeyed(gs: seq<Group>)
  {
    forall i :: 0 <= i < |gs| ==> IndexKeyed(gs[i])
  }

  predicate SortedByIndex(gs: seq<Group>)
    requires AllIndexKeyed(gs)
  {
    forall i, j :: 0 <= i < j < |gs| ==> IndexOfGroup(gs[i]) <= IndexOfGroup(gs[j])
  }

  function InsertByIndex(g: Group, gs: seq<Group>): (r: seq<Group>)
    requires IndexKeyed(g) && AllIndexKeyed(gs)
    ensures |r| == |gs| + 1 && AllIndexKeyed(r)
    ensures multiset(r) == multiset(gs) + multiset{g}
  {
    if |gs| == 0 then [g]
    else if IndexOfGroup(g) <= IndexOfGroup(gs[0]) then [g] + gs
    else
      assert gs == [gs[0]] + gs[1..];
      [gs[0]] + InsertByIndex(g, gs[1..])
  }

  /** Insertion sort by numeric key. */
  function SortByIndex(gs: seq<Group>): (r: seq<Group>)
    requires AllIndexKeyed(gs)
    ensures |r| == |gs| && AllIndexKeyed(r)
    ensures multiset(r) == multiset(gs)
  {
    if |gs| == 0 then []
    else
      assert gs == [gs[0]] + gs[1..];
      InsertByIndex(gs[0], SortByIndex(gs[1..]))
  }

  /** An element of a permutation of the tail of `gs` is an element of `gs`
      past its head. */
  lemma FromTail(gs: seq<Group>, x: Group)
    requires |gs| > 0 && x in multiset(gs[1..])
    ensures exists j :: 1 <= j < |gs| && gs[j] == x
  {
    var j :| 0 <= j < |gs[1..]| && gs[1..][j] == x;
    assert gs[j + 1] == x;
  }

  /** Inserting keeps a lower bound that both the new group and the list respect. */
  lemma {:induction false} InsertKeepsBound(g: Group, gs: seq<Group>, k: nat)
    requires IndexKeyed(g) && AllIndexKeyed(gs)
    requires k <= IndexOfGroup(g) && forall i :: 0 <= i < |gs| ==> k <= IndexOfGroup(gs[i])
    ensures forall i :: 0 <= i < |InsertByIndex(g, gs)| ==> k <= IndexOfGroup(InsertByIndex(g, gs)[i])
  {
    if |gs| > 0 && IndexOfGroup(g) > IndexOfGroup(gs[0]) {
      InsertKeepsBound(g, gs[1..], k);
      var rest := InsertByIndex(g, gs[1..]);
      assert InsertByIndex(g, gs) == [gs[0]] + rest;
    }
  }

  lemma {:induction false} InsertSorted(g: Group, gs: seq<Group>)
    requires IndexKeyed(g) && AllIndexKeyed(gs) && SortedByIndex(gs)
    ensures SortedByIndex(InsertByIndex(g, gs))
  {
    if |gs| > 0 && IndexOfGroup(g) > IndexOfGroup(gs[0]) {
      var rest := InsertByIndex(g, gs[1..]);
      InsertSorted(g, gs[1..]);
      InsertKeepsBound(g, gs[1..], IndexOfGroup(gs[0]));
      var r := [gs[0]] + rest;
      assert InsertByIndex(g, gs) == r;
      forall i, j | 0 <= i < j < |r| ensures IndexOfGroup(r[i]) <= IndexOfGroup(r[j]) {
        assert r[j] == rest[j - 1];
        if i > 0 {
          assert r[i] == rest[i - 1];
        }
      }
    }
  }

  lemma {:induction false} SortSorted(gs: seq<Group>)
    requires AllIndexKeyed(gs)
    ensures SortedByIndex(SortByIndex(gs))
  {
    if |gs| > 0 {
      SortSorted(gs[1..]);
      InsertSorted(gs[0], SortByIndex(gs[1..]));
    }
  }

  /** Inserting a group whose key differs from `k` into a list without `k`
      gives a list without `k`. */
  lemma {:induction false} InsertAvoidsKey(g: Group, gs: seq<Group>, k: string)
    requires IndexKeyed(g) && AllIndexKeyed(gs)
    requires g.key != k && forall i :: 0 <= i < |gs| ==> gs[i].key != k
    ensures forall i :: 0 <= i < |InsertByIndex(g, gs)| ==> InsertByIndex(g, gs)[i].key != k
  {
    if |gs| > 0 && IndexOfGroup(g) > IndexOfGroup(gs[0]) {
      InsertAvoidsKey(g, gs[1..], k);
      assert InsertByIndex(g, gs) == [gs[0]] + InsertByIndex(g, gs[1..]);
    }
  }

  lemma {:induction false} InsertKeysDistinct(g: Group, gs: seq<Group>)
    requires IndexKeyed(g) && AllIndexKeyed(gs)
    requires KeysDistinct(gs) && !HasKey(gs, g.key)
    ensures KeysDistinct(InsertByIndex(g, gs))
  {
    if |gs| > 0 && IndexOfGroup(g) > IndexOfGroup(gs[0]) {
      KeysDistinctTail(gs);
      assert !HasKey(gs[1..], g.key) by {
        forall i | 0 <= i < |gs[1..]| ensures gs[1..][i].key != g.key {
          assert gs[1..][i] == gs[i + 1];
        }
      }
      InsertKeysDistinct(g, gs[1..]);
      var rest := InsertByIndex(g, gs[1..]);
      assert g.key != gs[0].key;
      InsertAvoidsKey(g, gs[1..], gs[0].key);
      var r := [gs[0]] + rest;
      assert InsertByIndex(g, gs) == r;
      forall i, j | 0 <= i < j < |r| ensures r[i].key != r[j].key {
        assert r[j] == rest[j - 1];
        if i > 0 {
          assert r[i] == rest[i - 1];
        }
      }
    } else if |gs| > 0 {
      var r := [g] + gs;
      forall i, j | 0 <= i < j < |r| ensures r[i].key != r[j].key {
        assert r[j] == gs[j - 1];
        if i > 0 {
          assert r[i] == gs[i - 1];
        }
      }
    }
  }

  lemma {:induction false} SortKeysDistinct(gs: seq<Group>)
    requires AllIndexKeyed(gs) && KeysDistinct(gs)
    ensures KeysDistinct(SortByIndex(gs))
  {
    if |gs| > 0 {
      KeysDistinctTail(gs);
      SortKeysDistinct(gs[1..]);
      var sorted := SortByIndex(gs[1..]);
      assert !HasKey(sorted, gs[0].key) by {
        forall i | 0 <= i < |sorted| ensures sorted[i].key != gs[0].key {
          assert sorted[i] in multiset(sorted);
          FromTail(gs, sorted[i]);
        }
      }
      InsertKeysDistinct(gs[0], sorted);
    }
  }

  lemma {:induction false} InsertSize(g: Group, gs: seq<Group>)
    requires IndexKeyed(g) && AllIndexKeyed(gs)
    ensures TotalSize(InsertByIndex(g, gs)) == |g.items| + TotalSize(gs)
  {
    if |gs| > 0 && IndexOfGroup(g) > IndexOfGroup(gs[0]) {
      InsertSize(g, gs[1..]);
    }
  }

  lemma {:induction false} SortSize(gs: seq<Group>)
    requires AllIndexKeyed(gs)
    ensures TotalSize(SortByIndex(gs)) == TotalSize(gs)
  {
    if |gs| > 0 {
      SortSize(gs[1..]);
      InsertSize(gs[0], SortByIndex(gs[1..]));
    }
  }

  lemma {:induction false} TotalSizeAppend(a: seq<Group>, b: seq<Group>)
    ensures TotalSize(a + b) == TotalSize(a) + TotalSize(b)
  {
    if |a| == 0 {
      assert a + b == b;
    } else {
      assert (a + b)[1..] == a[1..] + b;
      TotalSizeAppend(a[1..], b);
    }
  }

  lemma {:induction false} TotalSizeSplit(gs: seq<Group>, p: Group -> bool)
    ensures TotalSize(Filter(gs, p)) + TotalSize(Filter(gs, Not(p))) == TotalSize(gs)
  {
    if |gs| > 0 {
      TotalSizeSplit(gs[1..], p);
    }
  }

  lemma {:induction false} KeysOfFilter(gs: seq<Group>)
    ensures KeysOf(Filter(gs, Not(IndexKeyed))) == Filter(KeysOf(gs), Not(IsArrayIndex))
  {
    if |gs| > 0 {
      KeysOfFilter(gs[1..]);
      assert KeysOf(gs)[1..] == KeysOf(gs[1..]);
      var tail := Filter(gs[1..], Not(IndexKeyed));
      assert KeysOf([gs[0]] + tail) == [gs[0].key] + KeysOf(tail);
    }
  }

  lemma {:induction false} KeysDistinctFilter(gs: seq<Group>, p: Group -> bool)
    requires KeysDistinct(gs)
    ensures KeysDistinct(Filter(gs, p))
  {
    if |gs| > 0 {
      KeysDistinctTail(gs);
      KeysDistinctFilter(gs[1..], p);
      if p(gs[0]) {
        var tail := Filter(gs[1..], p);
        var r := [gs[0]] + tail;
        forall i, j | 0 <= i < j < |r| ensures r[i].key != r[j].key {
          assert r[j] == tail[j - 1];
          if i == 0 {
            var m :| 0 <= m < |gs[1..]| && gs[1..][m] == tail[j - 1];
            assert gs[1..][m] == gs[m + 1];
          } else {
            assert r[i] == tail[i - 1];
          }
        }
      }
    }
  }

  /** `Object.entries(groups)`: index-like keys ascending, then the rest as
      they were inserted. */
  function PropertyOrder(gs: seq<Group>): seq<Group>
  {
    SortByIndex(Filter(gs, IndexKeyed)) + Filter(gs, Not(IndexKeyed))
  }

  /** The groups the page renders, in the order it renders them. */
  function GroupedNotifications(fs: seq<Notification>): seq<Group>
  {
    PropertyOrder(GroupByTime(fs))
  }

  /** Every rendered group is one the `reduce` built. */
  lemma RenderedGroupsFromReduce(fs: seq<Notification>)
    ensures forall i :: 0 <= i < |GroupedNotifications(fs)| ==> GroupedNotifications(fs)[i] in GroupByTime(fs)
  {
    var gs := GroupByTime(fs);
    var idx, rest := Filter(gs, IndexKeyed), Filter(gs, Not(IndexKeyed));
    var sorted := SortByIndex(idx);
    var r := sorted + rest;
    forall i | 0 <= i < |r| ensures r[i] in gs {
      if i < |sorted| {
        assert r[i] == sorted[i] && sorted[i] in multiset(sorted);
        assert r[i] in idx;
      } else {
        assert r[i] == rest[i - |sorted|];
      }
    }
  }

  /** Each rendered group holds exactly the notifications with its label, in order. */
  lemma RenderedGroupItems(fs: seq<Notification>)
    ensures var r := GroupedNotifications(fs);
      forall i :: 0 <= i < |r| ==> r[i].items == Filter(fs, HasTime(r[i].key))
  {
    GroupByTimeCorrect(fs);
    RenderedGroupsFromReduce(fs);
  }

  lemma RenderedKeysDistinct(fs: seq<Notification>)
    ensures KeysDistinct(GroupedNotifications(fs))
  {
    var gs := GroupByTime(fs);
    GroupByTimeCorrect(fs);
    GroupedKeysDistinct(gs, fs);
    var idx, rest := Filter(gs, IndexKeyed), Filter(gs, Not(IndexKeyed));
    KeysDistinctFilter(gs, IndexKeyed);
    KeysDistinctFilter(gs, Not(IndexKeyed));
    SortKeysDistinct(idx);
    var sorted := SortByIndex(idx);
    var r := sorted + rest;
    forall i, j | 0 <= i < j < |r| ensures r[i].key != r[j].key {
      if j < |sorted| {
        assert r[i] == sorted[i] && r[j] == sorted[j];
      } else if i >= |sorted| {
        assert r[i] == rest[i - |sorted|] && r[j] == rest[j - |sorted|];
      } else {
        assert IndexKeyed(sorted[i]) && r[i] == sorted[i];
        assert !IndexKeyed(rest[j - |sorted|]) && r[j] == rest[j - |sorted|];
      }
    }
  }

  /** Every group the `reduce` built is rendered. */
  lemma ReduceGroupsRendered(fs: seq<Notification>)
    ensures forall k :: 0 <= k < |GroupByTime(fs)| ==> GroupByTime(fs)[k] in GroupedNotifications(fs)
  {
    var gs := GroupByTime(fs);
    var idx, rest := Filter(gs, IndexKeyed), Filter(gs, Not(IndexKeyed));
    var sorted := SortByIndex(idx);
    var r := sorted + rest;
    forall k | 0 <= k < |gs| ensures gs[k] in r {
      if IndexKeyed(gs[k]) {
        assert gs[k] in multiset(idx);
        assert gs[k] in sorted;
      } else {
        assert gs[k] in rest;
      }
    }
  }

  /** Every filtered notification's label has a rendered group. */
  lemma RenderedKeysCover(fs: seq<Notification>)
    ensures forall j :: 0 <= j < |fs| ==> HasKey(GroupedNotifications(fs), fs[j].time)
  {
    var gs := GroupByTime(fs);
    var r := GroupedNotifications(fs);
    GroupByTimeKeys(fs);
    FirstOccurrenceTimesSpec(fs);
    ReduceGroupsRendered(fs);
    forall j | 0 <= j < |fs| ensures HasKey(r, fs[j].time) {
      assert fs[j].time in KeysOf(gs);
      var k :| 0 <= k < |gs| && KeysOf(gs)[k] == fs[j].time;
      assert gs[k] in r;
      var m :| 0 <= m < |r| && r[m] == gs[k];
    }
  }

  lemma GroupByTimeKeys(fs: seq<Notification>)
    ensures KeysOf(GroupByTime(fs)) == FirstOccurrenceTimes(fs)
  {
    GroupByTimeCorrect(fs);
  }

  /** Labels that are not array indices keep their first-occurrence order. */
  lemma RenderedNamedKeysInOrder(fs: seq<Notification>)
    ensures Filter(KeysOf(GroupedNotifications(fs)), Not(IsArrayIndex))
         == Filter(FirstOccurrenceTimes(fs), Not(IsArrayIndex))
  {
    var gs := GroupByTime(fs);
    GroupByTimeCorrect(fs);
    var idx, rest := Filter(gs, IndexKeyed), Filter(gs, Not(IndexKeyed));
    var sorted := SortByIndex(idx);
    assert KeysOf(sorted + rest) == KeysOf(sorted) + KeysOf(rest);
    KeysOfFilter(gs);
    FilterAppend(KeysOf(sorted), KeysOf(rest), Not(IsArrayIndex));
    FilterNone(KeysOf(sorted), Not(IsArrayIndex));
    FilterAll(KeysOf(rest), Not(IsArrayIndex));
  }

  lemma RenderedSize(fs: seq<Notification>)
    ensures TotalSize(GroupedNotifications(fs)) == |fs|
  {
    var gs := GroupByTime(fs);
    var idx, rest := Filter(gs, IndexKeyed), Filter(gs, Not(IndexKeyed));
    GroupByTimeSize(fs);
    TotalSizeAppend(SortByIndex(idx), rest);
    SortSize(idx);
    TotalSizeSplit(gs, IndexKeyed);
  }

  /** Array-index labels come first, in ascending numeric order: a group
      keyed by an array index is preceded only by such groups with smaller
      or equal index. */
  predicate IndexKeysFirstAscending(r: seq<Group>)
  {
    forall i, j :: 0 <= i < j < |r| && IndexKeyed(r[j]) ==>
      IndexKeyed(r[i]) && IndexOfGroup(r[i]) <= IndexOfGroup(r[j])
  }

  lemma RenderedIndexKeysFirst(fs: seq<Notification>)
    ensures IndexKeysFirstAscending(GroupedNotifications(fs))
  {
    var gs := GroupByTime(fs);
    var idx, rest := Filter(gs, IndexKeyed), Filter(gs, Not(IndexKeyed));
    var sorted := SortByIndex(idx);
    var r := sorted + rest;
    SortSorted(idx);
    forall i, j | 0 <= i < j < |r| && IndexKeyed(r[j])
      ensures IndexKeyed(r[i]) && IndexOfGroup(r[i]) <= IndexOfGroup(r[j])
    {
      if j < |sorted| {
        assert r[i] == sorted[i] && r[j] == sorted[j];
      } else {
        assert false;
      }
    }
  }

  /** The page's groups: every filtered notification sits in exactly one
      group, the one keyed by its time label, in original relative order;
      labels are distinct; array-index labels come first in ascending order
      and the others follow in order of first occurrence; the sizes add up. */
  lemma GroupedNotificationsSpec(fs: seq<Notification>)
    ensures var r := GroupedNotifications(fs);
      && (forall i :: 0 <= i < |r| ==> r[i].items == Filter(fs, HasTime(r[i].key)))
      && KeysDistinct(r)
      && (forall j :: 0 <= j < |fs| ==> HasKey(r, fs[j].time))
      && IndexKeysFirstAscending(r)
      && Filter(KeysOf(r), Not(IsArrayIndex)) == Filter(FirstOccurrenceTimes(fs), Not(IsArrayIndex))
      && TotalSize(r) == |fs|
  {
    RenderedGroupItems(fs);
    RenderedKeysDistinct(fs);
    RenderedKeysCover(fs);
    RenderedIndexKeysFirst(fs);
    RenderedNamedKeysInOrder(fs);
    RenderedSize(fs);
  }

  // ---------------------------------------------------------------------
  // The page

  datatype PageBody = Groups(groups: seq<Group>) | EmptyMessage(text: string)

  datatype PageView = PageView(showBulkActions: bool, body: PageBody)

  /** The page: the bulk buttons follow the full list, the body the filtered one. */
  function NotificationsPage(ns: seq<Notification>, filter: string): (v: PageView)
    ensures v.showBulkActions <==> |ns| > 0
    ensures v.body.Groups? <==> |FilteredNotifications(ns, filter)| > 0
    ensures v.body.Groups? ==> TotalSize(v.body.groups) == |FilteredNotifications(ns, filter)|
  {
    var fs := FilteredNotifications(ns, filter);
    GroupedNotificationsSpec(fs);
    PageView(
      |ns| > 0,
      if |fs| > 0 then Groups(GroupedNotifications(fs))
      else EmptyMessage("No hay notificaciones "
             + (if filter != "all" then (if filter == "unread" then "no leídas" else "leídas") else "")))
  }

  /** What a click on a notification does. */
  datatype ClickEffect = ClickEffect(notifications: seq<Notification>, navigateTo: string, menuOpen: bool)

  /** Page click: mark that id read, then navigate to its route. */
  function PageNotificationClick(ns: seq<Notification>, n: Notification): (e: ClickEffect)
    ensures |e.notifications| == |ns|
    ensures forall i :: 0 <= i < |ns| && ns[i].id == n.id ==> e.notifications[i] == ns[i].(read := true)
    ensures forall i :: 0 <= i < |ns| && ns[i].id != n.id ==> e.notifications[i] == ns[i]
    ensures e.navigateTo == n.route
  {
    ClickEffect(MarkAsRead(ns, n.id), n.route, false)
  }

  // ---------------------------------------------------------------------
  // The menu

  const MenuLimit := 3
  const SeeAllLabel := "Ver todas las notificaciones"

  datatype MenuView = MenuView(showMarkAll: bool, showDeleteAll: bool, items: seq<Notification>, footerLabel: string)

  function HasMoreNotifications(ns: seq<Notification>): bool
  {
    |ns| > MenuLimit
  }

  /** The footer label: the total in brackets only when some entries are
      hidden, written in decimal so that it reads back as the total. */
  function Footer(ns: seq<Notification>): (f: string)
    ensures StartsWith(f, SeeAllLabel)
    ensures |f| > |SeeAllLabel| <==> |ns| > MenuLimit
    ensures |ns| > MenuLimit ==>
      && |f| > |SeeAllLabel| + 3
      && f[|SeeAllLabel|..|SeeAllLabel| + 2] == " ("
      && f[|f| - 1] == ')'
      && (forall i :: |SeeAllLabel| + 2 <= i < |f| - 1 ==> IsDigit(f[i]))
      && DigitsValue(f[|SeeAllLabel| + 2..|f| - 1]) == |ns|
  {
    if HasMoreNotifications(ns) then
      var count := NatToString(|ns|);
      NatToStringRoundTrip(|ns|);
      var f := SeeAllLabel + " (" + count + ")";
      assert f[|SeeAllLabel| + 2..|f| - 1] == count;
      f
    else SeeAllLabel
  }

  /** The dropdown: nothing when closed; otherwise the first three entries,
      the bulk controls, and a footer that shows the total only when some
      entries are hidden. */
  function NotificationsMenu(ns: seq<Notification>, showNotifications: bool): (r: Option<MenuView>)
    ensures r.None? <==> !showNotifications
    ensures r.Some? ==> |r.value.items| == (if |ns| < MenuLimit then |ns| else MenuLimit)
    ensures r.Some? ==> r.value.items == ns[..|r.value.items|]
    ensures r.Some? ==> (r.value.showMarkAll <==> UnreadCount(ns) > 0)
    ensures r.Some? ==> (r.value.showDeleteAll <==> |ns| > 0)
    ensures r.Some? ==> StartsWith(r.value.footerLabel, SeeAllLabel)
    ensures r.Some? ==> (|r.value.footerLabel| > |SeeAllLabel| <==> |ns| > MenuLimit)
    ensures r.Some? && |ns| > MenuLimit ==>
      var f := r.value.footerLabel;
      && |f| > |SeeAllLabel| + 3
      && f[|SeeAllLabel|..|SeeAllLabel| + 2] == " ("
      && f[|f| - 1] == ')'
      && (forall i :: |SeeAllLabel| + 2 <= i < |f| - 1 ==> IsDigit(f[i]))
      && DigitsValue(f[|SeeAllLabel| + 2..|f| - 1]) == |ns|
  {
    if !showNotifications then None
    else
      var shown := if |ns| < MenuLimit then ns else ns[..MenuLimit];
      Some(MenuView(UnreadCount(ns) > 0, |ns| > 0, shown, Footer(ns)))
  }

  /** Menu click: mark that id read, close the menu, then navigate. */
  function MenuNotificationClick(ns: seq<Notification>, n: Notification): (e: ClickEffect)
    ensures !e.menuOpen
    ensures |e.notifications| == |ns|
    ensures forall i :: 0 <= i < |ns| && ns[i].id == n.id ==> e.notifications[i] == ns[i].(read := true)
    ensures forall i :: 0 <= i < |ns| && ns[i].id != n.id ==> e.notifications[i] == ns[i]
    ensures e.navigateTo == n.route
  {
    ClickEffect(MarkAsRead(ns, n.id), n.route, false)
  }

  /** The footer button closes the menu and opens the full page. */
  function MenuSeeAll(ns: seq<Notification>): (e: ClickEffect)
    ensures !e.menuOpen && e.navigateTo == "/notificaciones" && e.notifications == ns
  {
    ClickEffect(ns, "/notificaciones", false)
  }
}

=== FILE: record_list.dfy ===
/** The shape both registry list pages share (licensed brokers and console
    users): a list of records, a filter value and the records it shows,
    view/create/edit/delete modals, and the record currently selected.
    Records are JavaScript objects compared with `===`, so each entry
    carries a reference standing for its identity; a saved form is a new
    object and gets a fresh reference. */
module RecordList {
  import opened Seqs
  import opened JsText

  /** The colour of a status badge. */
  datatype Style = Green | Yellow | Red | Gray

  /** The text a view modal shows for a field: the value, or `N/A` when it is empty. */
  const NA := "N/A"

  function TextCell(v: string): (r: string)
    ensures r != ""
    ensures v != "" ==> r == v
    ensures v == "" ==> r == NA
  {
    if v != "" then v else NA
  }

  datatype Entry<T> = Entry(ref: nat, value: T)

  datatype Page<T> = Page(
    entries: seq<Entry<T>>,
    nextRef: nat,
    filterBy: string,
    displayed: seq<Entry<T>>,
    filterOpen: bool,
    viewOpen: bool,
    createOpen: bool,
    editOpen: bool,
    deleteOpen: bool,
    selected: Option<nat>)

  /** Which records a filter value selects; `None` for a value the page
      does not recognise, which leaves the displayed list as it was. */
  type Selection<!T> = string -> Option<T -> bool>

  function Holds<T(==)>(p: T -> bool): Entry<T> -> bool { (e: Entry<T>) => p(e.value) }

  function OtherRef<T(==)>(r: nat): Entry<T> -> bool { (e: Entry<T>) => e.ref != r }

  predicate HasRef<T(==)>(es: seq<Entry<T>>, r: nat)
  {
    exists i :: 0 <= i < |es| && es[i].ref == r
  }

  predicate RefsDistinct<T(==)>(es: seq<Entry<T>>)
  {
    forall i, j :: 0 <= i < j < |es| ==> es[i].ref != es[j].ref
  }

  /** Distinct references, all below the next one to hand out. */
  predicate RefsFresh<T(==)>(p: Page<T>)
  {
    && RefsDistinct(p.entries)
    && (forall i :: 0 <= i < |p.entries| ==> p.entries[i].ref < p.nextRef)
  }

  /** The displayed list is what the current filter selects from the records. */
  predicate DisplayConsistent<T(==)>(p: Page<T>, select: Selection<T>)
  {
    select(p.filterBy).Some? ==> p.displayed == Filter(p.entries, Holds(select(p.filterBy).value))
  }

  /** The page as first rendered: the seeded records, no filter, nothing open. */
  function Initial<T(==)>(records: seq<T>): (p: Page<T>)
    ensures |p.entries| == |records|
    ensures forall i :: 0 <= i < |records| ==> p.entries[i].value == records[i]
    ensures RefsFresh(p)
    ensures p.displayed == p.entries && p.filterBy == "" && p.selected.None?
    ensures !p.filterOpen && !p.viewOpen && !p.createOpen && !p.editOpen && !p.deleteOpen
  {
    var es := seq(|records|, i requires 0 <= i < |records| => Entry(i, records[i]));
    Page(es, |records|, "", es, false, false, false, false, false, None)
  }

  /** `applyFilter(v)`: remember the value, close the dropdown, show what
      the value selects (or keep the list shown when it selects nothing). */
  function ApplyFilter<T(==)>(p: Page<T>, v: string, select: Selection<T>): (q: Page<T>)
    ensures q.filterBy == v && !q.filterOpen
    ensures q.entries == p.entries && q.nextRef == p.nextRef && q.selected == p.selected
    ensures q.viewOpen == p.viewOpen && q.createOpen == p.createOpen
    ensures q.editOpen == p.editOpen && q.deleteOpen == p.deleteOpen
    ensures select(v).None? ==> q.displayed == p.displayed
    ensures select(v).Some? ==> Subseq(q.displayed, p.entries)
    ensures select(v).Some? ==> forall i :: 0 <= i < |q.displayed| ==> select(v).value(q.displayed[i].value)
    ensures select(v).Some? ==> forall i :: 0 <= i < |p.entries| && select(v).value(p.entries[i].value) ==> p.entries[i] in q.displayed
    ensures DisplayConsistent(q, select)
  {
    match select(v)
    case None => p.(filterBy := v, filterOpen := false)
    case Some(keep) =>
      FilterIsSubseq(p.entries, Holds(keep));
      p.(filterBy := v, filterOpen := false, displayed := Filter(p.entries, Holds(keep)))
  }

  /** The effect that re-applies the current filter whenever the records change. */
  function Refresh<T(==)>(p: Page<T>, select: Selection<T>): Page<T>
  {
    ApplyFilter(p, p.filterBy, select)
  }

  function ToggleFilter<T(==)>(p: Page<T>): (q: Page<T>)
    ensures q.filterOpen != p.filterOpen && q.(filterOpen := p.filterOpen) == p
  {
    p.(filterOpen := !p.filterOpen)
  }

  /** The "new record" button clears the selection before opening the form. */
  function OpenCreate<T(==)>(p: Page<T>): (q: Page<T>)
    ensures q.selected.None? && q.createOpen
    ensures q.(selected := p.selected, createOpen := p.createOpen) == p
  {
    p.(selected := None, createOpen := true)
  }

  function OpenEdit<T(==)>(p: Page<T>, r: nat): (q: Page<T>)
    ensures q.selected == Some(r) && q.editOpen
    ensures q.(selected := p.selected, editOpen := p.editOpen) == p
  {
    p.(selected := Some(r), editOpen := true)
  }

  function OpenView<T(==)>(p: Page<T>, r: nat): (q: Page<T>)
    ensures q.selected == Some(r) && q.viewOpen
    ensures q.(selected := p.selected, viewOpen := p.viewOpen) == p
  {
    p.(selected := Some(r), viewOpen := true)
  }

  function OpenDelete<T(==)>(p: Page<T>, r: nat): (q: Page<T>)
    ensures q.selected == Some(r) && q.deleteOpen
    ensures q.(selected := p.selected, deleteOpen := p.deleteOpen) == p
  {
    p.(selected := Some(r), deleteOpen := true)
  }

  /** Closing a modal keeps the selection. */
  function CloseModals<T(==)>(p: Page<T>, view: bool, create: bool, edit: bool, delete: bool): (q: Page<T>)
    ensures q.selected == p.selected && q.entries == p.entries && q.displayed == p.displayed
    ensures q.viewOpen == (p.viewOpen && !view) && q.createOpen == (p.createOpen && !create)
    ensures q.editOpen == (p.editOpen && !edit) && q.deleteOpen == (p.deleteOpen && !delete)
  {
    p.(viewOpen := p.viewOpen && !view, createOpen := p.createOpen && !create,
       editOpen := p.editOpen && !edit, deleteOpen := p.deleteOpen && !delete)
  }

  /** Replace every entry with reference `r` by `e`. */
  function ReplaceRef<T(==)>(es: seq<Entry<T>>, r: nat, e: Entry<T>): (res: seq<Entry<T>>)
    ensures |res| == |es|
    ensures forall i :: 0 <= i < |es| ==> res[i] == if es[i].ref == r then e else es[i]
  {
    seq(|es|, i requires 0 <= i < |es| => if es[i].ref == r then e else es[i])
  }

  /** `handleSave(data)`: with the edit modal open and a record selected the
      selected record is replaced by the saved one in place; otherwise the
      saved record is appended. Either way the selection is cleared, and the
      filter effect then runs. */
  function Save<T(==)>(p: Page<T>, data: T, select: Selection<T>): (q: Page<T>)
    ensures q.selected.None? && q.nextRef == p.nextRef + 1 && q.filterBy == p.filterBy
    ensures p.editOpen && p.selected.Some? ==>
      && |q.entries| == |p.entries|
      && (forall i :: 0 <= i < |p.entries| ==>
            q.entries[i] == if p.entries[i].ref == p.selected.value then Entry(p.nextRef, data) else p.entries[i])
      && !q.editOpen && q.createOpen == p.createOpen
    ensures !(p.editOpen && p.selected.Some?) ==>
      q.entries == p.entries + [Entry(p.nextRef, data)] && !q.createOpen && q.editOpen == p.editOpen
    ensures DisplayConsistent(q, select)
  {
    var saved := Entry(p.nextRef, data);
    var p' :=
      if p.editOpen && p.selected.Some? then
        p.(entries := ReplaceRef(p.entries, p.selected.value, saved), editOpen := false)
      else
        p.(entries := p.entries + [saved], createOpen := false);
    Refresh(p'.(selected := None, nextRef := p.nextRef + 1), select)
  }

  /** `handleConfirmDelete()`: with a record selected, drop every entry
      identical to it, close the modal and clear the selection; with none
      selected nothing happens. */
  function ConfirmDelete<T(==)>(p: Page<T>, select: Selection<T>): (q: Page<T>)
    ensures p.selected.None? ==> q == p
    ensures p.selected.Some? ==>
      && q.entries == Filter(p.entries, OtherRef(p.selected.value))
      && !q.deleteOpen && q.selected.None?
      && q.filterBy == p.filterBy && q.nextRef == p.nextRef
      && DisplayConsistent(q, select)
  {
    match p.selected
    case None => p
    case Some(r) =>
      Refresh(p.(entries := Filter(p.entries, OtherRef(r)), deleteOpen := false, selected := None), select)
  }

  /** The delete modal's confirm button: `onConfirm(record); onClose()`. */
  function DeleteButton<T(==)>(p: Page<T>, select: Selection<T>): (q: Page<T>)
    ensures !q.deleteOpen
    ensures q.entries == if p.selected.Some? then Filter(p.entries, OtherRef(p.selected.value)) else p.entries
  {
    ConfirmDelete(p, select).(deleteOpen := false)
  }

  /** With distinct references, deleting the selected record removes exactly
      that one entry and keeps the others in order. */
  lemma {:induction false} DeleteRemovesOne<T>(es: seq<Entry<T>>, r: nat)
    requires RefsDistinct(es)
    ensures HasRef(es, r) ==> |Filter(es, OtherRef(r))| == |es| - 1
    ensures !HasRef(es, r) ==> Filter(es, OtherRef(r)) == es
    ensures Subseq(Filter(es, OtherRef(r)), es)
    ensures !HasRef(Filter(es, OtherRef(r)), r)
  {
    FilterIsSubseq(es, OtherRef(r));
    if |es| > 0 {
      DeleteRemovesOne(es[1..], r);
      if es[0].ref == r {
        assert !HasRef(es[1..], r) by {
          forall i | 0 <= i < |es[1..]| ensures es[1..][i].ref != r {
            assert es[1..][i] == es[i + 1];
          }
        }
      } else {
        assert HasRef(es, r) ==> HasRef(es[1..], r) by {
          if HasRef(es, r) {
            var k :| 0 <= k < |es| && es[k].ref == r;
            assert es[1..][k - 1] == es[k];
          }
        }
        assert !HasRef(es[1..], r) ==> !HasRef(es, r) by {
          if HasRef(es, r) {
            var k :| 0 <= k < |es| && es[k].ref == r;
            assert es[1..][k - 1] == es[k];
          }
        }
      }
    }
  }

  /** Every user action on the page. */
  datatype Action<T> =
    | ChooseFilter(value: string)
    | ToggleDropdown
    | NewRecord
    | EditRecord(ref: nat)
    | ViewRecord(ref: nat)
    | DeleteRecord(ref: nat)
    | SaveForm(data: T)
    | ConfirmDeletion
    | CloseView | CloseCreate | CloseEdit | CloseDelete

  function Step<T(==)>(p: Page<T>, a: Action<T>, select: Selection<T>): Page<T>
  {
    match a
    case ChooseFilter(v) => ApplyFilter(p, v, select)
    case ToggleDropdown => ToggleFilter(p)
    case NewRecord => OpenCreate(p)
    case EditRecord(r) => OpenEdit(p, r)
    case ViewRecord(r) => OpenView(p, r)
    case DeleteRecord(r) => OpenDelete(p, r)
    case SaveForm(data) => Save(p, data, select)
    case ConfirmDeletion => DeleteButton(p, select)
    case CloseView => CloseModals(p, true, false, false, false)
    case CloseCreate => CloseModals(p, false, true, false, false)
    case CloseEdit => CloseModals(p, false, false, true, false)
    case CloseDelete => CloseModals(p, false, false, false, true)
  }

  function Run<T(==)>(p: Page<T>, actions: seq<Action<T>>, select: Selection<T>): Page<T>
    decreases |actions|
  {
    if |actions| == 0 then p else Run(Step(p, actions[0], select), actions[1..], select)
  }

  lemma SavePreserves<T>(p: Page<T>, data: T, select: Selection<T>)
    requires RefsFresh(p)
    ensures RefsFresh(Save(p, data, select))
  {
    var q := Save(p, data, select);
    forall i, j | 0 <= i < j < |q.entries| ensures q.entries[i].ref != q.entries[j].ref {
      if !(p.editOpen && p.selected.Some?) && j == |p.entries| {
        assert q.entries[j].ref == p.nextRef;
      }
    }
  }

  lemma DeletePreserves<T>(p: Page<T>, select: Selection<T>)
    requires RefsFresh(p)
    ensures RefsFresh(DeleteButton(p, select))
  {
    if p.selected.Some? {
      var r := p.selected.value;
      var es := Filter(p.entries, OtherRef(r));
      var q := DeleteButton(p, select);
      assert q.entries == es && q.nextRef == p.nextRef;
      forall i | 0 <= i < |es| ensures es[i].ref < p.nextRef {
        var k :| 0 <= k < |p.entries| && p.entries[k] == es[i];
      }
      DeleteKeepsRefsDistinct(p.entries, r);
    }
  }

  /** One action keeps references distinct and fresh, and keeps the displayed
      list equal to what the filter selects. */
  lemma StepPreserves<T>(p: Page<T>, a: Action<T>, select: Selection<T>)
    requires RefsFresh(p) && DisplayConsistent(p, select)
    ensures RefsFresh(Step(p, a, select)) && DisplayConsistent(Step(p, a, select), select)
  {
    match a
    case SaveForm(data) => SavePreserves(p, data, select);
    case ConfirmDeletion => DeletePreserves(p, select);
    case _ =>
  }

  lemma {:induction false} DeleteKeepsRefsDistinct<T>(es: seq<Entry<T>>, r: nat)
    requires RefsDistinct(es)
    ensures RefsDistinct(Filter(es, OtherRef(r)))
  {
    if |es| > 0 {
      assert RefsDistinct(es[1..]) by {
        forall i, j | 0 <= i < j < |es[1..]| ensures es[1..][i].ref != es[1..][j].ref {
          assert es[1..][i] == es[i + 1] && es[1..][j] == es[j + 1];
        }
      }
      DeleteKeepsRefsDistinct(es[1..], r);
      var tail := Filter(es[1..], OtherRef(r));
      if es[0].ref != r {
        forall k | 0 <= k < |tail| ensures tail[k].ref != es[0].ref {
          var j :| 0 <= j < |es[1..]| && es[1..][j] == tail[k];
          assert es[1..][j] == es[j + 1];
        }
        var f := [es[0]] + tail;
        assert Filter(es, OtherRef(r)) == f;
        forall i, j | 0 <= i < j < |f| ensures f[i].ref != f[j].ref {
          assert f[j] == tail[j - 1];
          if i > 0 {
            assert f[i] == tail[i - 1];
          }
        }
      }
    }
  }

  /** From the first render on, any sequence of actions keeps references
      distinct and the displayed list in step with the filter. */
  lemma {:induction false} RunPreserves<T>(p: Page<T>, actions: seq<Action<T>>, select: Selection<T>)
    requires RefsFresh(p) && DisplayConsistent(p, select)
    ensures RefsFresh(Run(p, actions, select)) && DisplayConsistent(Run(p, actions, select), select)
    decreases |actions|
  {
    if |actions| > 0 {
      StepPreserves(p, actions[0], select);
      RunPreserves(Step(p, actions[0], select), actions[1..], select);
    }
  }

  /** The first render shows every record, which is what the empty filter selects. */
  lemma InitialConsistent<T>(records: seq<T>, select: Selection<T>)
    requires select("").Some? && forall x :: select("").value(x)
    ensures DisplayConsistent(Initial(records), select)
  {
    var p := Initial(records);
    FilterAll(p.entries, Holds(select("").value));
  }
}

=== FILE: seqs.dfy ===
/** Order-preserving filtering and subsequences: the shape of every
    `Array.prototype.filter` and `slice` the console applies to its lists. */
module Seqs {

  /** `s.filter(p)`: the elements satisfying `p`, in their original order. */
  function Filter<T>(s: seq<T>, p: T -> bool): (r: seq<T>)
    ensures |r| <= |s|
    ensures forall i :: 0 <= i < |r| ==> p(r[i]) && r[i] in s
    ensures forall i :: 0 <= i < |s| && p(s[i]) ==> s[i] in r
  {
    if |s| == 0 then []
    else if p(s[0]) then [s[0]] + Filter(s[1..], p)
    else Filter(s[1..], p)
  }

  /** `a` can be obtained from `b` by deleting elements (order preserved). */
  predicate Subseq<T(==)>(a: seq<T>, b: seq<T>)
    decreases |b|
  {
    if |a| == 0 then true
    else if |b| == 0 then false
    else if a[0] == b[0] then Subseq(a[1..], b[1..])
    else Subseq(a, b[1..])
  }

  /** Number of elements satisfying `p`. */
  function Count<T>(s: seq<T>, p: T -> bool): nat
  {
    |Filter(s, p)|
  }

  predicate Distinct<T(==)>(s: seq<T>)
  {
    forall i, j :: 0 <= i < j < |s| ==> s[i] != s[j]
  }

  lemma {:induction false} FilterAppend<T>(a: seq<T>, b: seq<T>, p: T -> bool)
    ensures Filter(a + b, p) == Filter(a, p) + Filter(b, p)
  {
    if |a| == 0 {
      assert a + b == b;
    } else {
      assert (a + b)[1..] == a[1..] + b;
      FilterAppend(a[1..], b, p);
    }
  }

  /** Filtering a list extended by one element. */
  lemma FilterSnoc<T>(s: seq<T>, x: T, p: T -> bool)
    ensures Filter(s + [x], p) == Filter(s, p) + (if p(x) then [x] else [])
  {
    FilterAppend(s, [x], p);
    assert [x][1..] == [];
  }

  lemma {:induction false} FilterIsSubseq<T>(s: seq<T>, p: T -> bool)
    ensures Subseq(Filter(s, p), s)
  {
    if |s| > 0 {
      FilterIsSubseq(s[1..], p);
      if !p(s[0]) {
        SubseqDropHead(Filter(s[1..], p), s);
      }
    }
  }

  /** Skipping the head of `b` keeps every subsequence of its tail. */
  lemma {:induction false} SubseqDropHead<T>(a: seq<T>, b: seq<T>)
    requires |b| > 0 && Subseq(a, b[1..])
    ensures Subseq(a, b)
    decreases |a| + |b|
  {
    if |a| > 0 && a[0] == b[0] {
      // Subseq(a, b[1..]) with a[0] == b[0]: the tail of a fits in the tail of b.
      SubseqTail(a, b[1..]);
    }
  }

  /** Dropping the head of a subsequence keeps it a subsequence. */
  lemma {:induction false} SubseqTail<T>(a: seq<T>, b: seq<T>)
    requires |a| > 0 && Subseq(a, b)
    ensures Subseq(a[1..], b)
    decreases |a| + |b|
  {
    if a[0] == b[0] {
      SubseqDropHead(a[1..], b);
    } else {
      SubseqTail(a, b[1..]);
      SubseqDropHead(a[1..], b);
    }
  }

  lemma {:induction false} SubseqRefl<T>(s: seq<T>)
    ensures Subseq(s, s)
  {
    if |s| > 0 {
      SubseqRefl(s[1..]);
    }
  }

  /** The complement of a filter predicate. */
  function Not<T>(p: T -> bool): T -> bool
  {
    x => !p(x)
  }

  /** Filtering with `p` and with its negation splits the list. */
  lemma {:induction false} CountSplit<T>(s: seq<T>, p: T -> bool)
    ensures Count(s, p) + Count(s, Not(p)) == |s|
  {
    if |s| > 0 {
      CountSplit(s[1..], p);
    }
  }

  /** A filter whose predicate holds everywhere keeps the list intact. */
  lemma {:induction false} FilterAll<T>(s: seq<T>, p: T -> bool)
    requires forall i :: 0 <= i < |s| ==> p(s[i])
    ensures Filter(s, p) == s
  {
    if |s| > 0 {
      FilterAll(s[1..], p);
    }
  }

  lemma {:induction false} FilterNone<T>(s: seq<T>, p: T -> bool)
    requires forall i :: 0 <= i < |s| ==> !p(s[i])
    ensures Filter(s, p) == []
  {
    if |s| > 0 {
      FilterNone(s[1..], p);
    }
  }

  /** Predicates that agree on the list give the same filter. */
  lemma {:induction false} FilterCongruent<T>(s: seq<T>, p: T -> bool, q: T -> bool)
    requires forall i :: 0 <= i < |s| ==> p(s[i]) == q(s[i])
    ensures Filter(s, p) == Filter(s, q)
  {
    if |s| > 0 {
      FilterCongruent(s[1..], p, q);
    }
  }

  lemma {:induction false} FilterDistinct<T>(s: seq<T>, p: T -> bool)
    requires Distinct(s)
    ensures Distinct(Filter(s, p))
  {
    if |s| > 0 {
      FilterDistinct(s[1..], p);
      assert s[0] !in s[1..];
    }
  }
}

=== FILE: session.dfy ===
/** Session handling: the authentication context over the browser's local
    storage, the HTTP client's two interceptors, and the gate in front of
    the protected pages. Local storage is a string-to-string map. */
module Session {
  import opened JsText

  type Storage = map<string, string>

  const TokenKey := "token"

  /** `!!localStorage.getItem('token')`: a token is stored and non-empty. */
  predicate HasToken(st: Storage)
  {
    TokenKey in st && st[TokenKey] != ""
  }

  /** `localStorage.getItem(key)`. */
  function GetItem(st: Storage, key: string): (r: Option<string>)
    ensures r.Some? <==> key in st
    ensures r.Some? ==> r.value == st[key]
  {
    if key in st then Some(st[key]) else None
  }

  /** The user object the context holds. */
  datatype AuthUser = AuthUser(email: string, token: string)

  /** What the context provides: a flag and a user, nothing else (no
      loading flag, no expiry). */
  datatype AuthState = AuthState(isAuthenticated: bool, user: Option<AuthUser>)

  /** The e-mail shown for a session restored from storage. */
  const PlaceholderEmail := "correo@example.com"

  /** The state on page load, read from storage: authenticated exactly when
      a token is stored, with a placeholder user carrying it. */
  function InitialAuth(st: Storage): (a: AuthState)
    ensures a.isAuthenticated <==> HasToken(st)
    ensures a.user.Some? <==> HasToken(st)
    ensures a.user.Some? ==> a.user.value == AuthUser(PlaceholderEmail, st[TokenKey])
  {
    if HasToken(st) then AuthState(true, Some(AuthUser(PlaceholderEmail, st[TokenKey])))
    else AuthState(false, None)
  }

  /** `login(userData)`: authenticated, that user, and its token stored. */
  function Login(st: Storage, u: AuthUser): (r: (AuthState, Storage))
    ensures r.0 == AuthState(true, Some(u))
    ensures TokenKey in r.1 && r.1[TokenKey] == u.token
    ensures forall k :: k != TokenKey ==> (k in r.1 <==> k in st)
    ensures forall k :: k != TokenKey && k in st ==> r.1[k] == st[k]
  {
    (AuthState(true, Some(u)), st[TokenKey := u.token])
  }

  /** `logout()`: not authenticated, no user, and the token removed. */
  function Logout(st: Storage): (r: (AuthState, Storage))
    ensures r.0 == AuthState(false, None)
    ensures TokenKey !in r.1
    ensures forall k :: k != TokenKey ==> (k in r.1 <==> k in st)
    ensures forall k :: k != TokenKey && k in st ==> r.1[k] == st[k]
  {
    (AuthState(false, None), st - {TokenKey})
  }

  /** Logging out twice is logging out once. */
  lemma LogoutIdempotent(st: Storage)
    ensures Logout(Logout(st).1) == Logout(st)
  {
    assert (st - {TokenKey}) - {TokenKey} == st - {TokenKey};
  }

  /** Whatever came before, logging in and then out leaves no token and no session. */
  lemma LoginThenLogout(st: Storage, u: AuthUser)
    ensures var out := Logout(Login(st, u).1);
      !out.0.isAuthenticated && TokenKey !in out.1 && !HasToken(out.1)
  {
  }

  /** The in-memory state agrees with what a reload would read back:
      after a login with a non-empty token a reload is authenticated, and
      after a logout it is not. */
  lemma ReloadAgrees(st: Storage, u: AuthUser)
    ensures InitialAuth(Login(st, u).1).isAuthenticated <==> u.token != ""
    ensures InitialAuth(Logout(st).1) == Logout(st).0
  {
  }

  // ---------------------------------------------------------------------
  // The HTTP client

  /** The registered logout callback: `None` for `null`, otherwise a handle
      standing for the function. */
  datatype Client = Client(callback: Option<nat>)

  /** `setLogoutFunction(fn)`: the new value replaces the old one. */
  function SetLogoutFunction(c: Client, fn: Option<nat>): (r: Client)
    ensures r.callback == fn
  {
    Client(fn)
  }

  /** The last registration wins. */
  lemma LastRegistrationWins(c: Client, f: Option<nat>, g: Option<nat>)
    ensures SetLogoutFunction(SetLogoutFunction(c, f), g) == SetLogoutFunction(c, g)
  {
  }

  /** The request interceptor: `Authorization: Bearer <token>` when a
      token is stored; the headers are otherwise left as they were. */
  function WithAuthorization(headers: map<string, string>, st: Storage): (r: map<string, string>)
    ensures HasToken(st) ==> "Authorization" in r && r["Authorization"] == "Bearer " + st[TokenKey]
    ensures !HasToken(st) ==> r == headers
    ensures forall k :: k != "Authorization" ==> (k in r <==> k in headers)
    ensures forall k :: k != "Authorization" && k in headers ==> r[k] == headers[k]
  {
    if HasToken(st) then headers["Authorization" := "Bearer " + st[TokenKey]] else headers
  }

  /** The header's value always carries the stored token after the scheme. */
  lemma BearerCarriesToken(headers: map<string, string>, st: Storage)
    requires HasToken(st)
    ensures var v := WithAuthorization(headers, st)["Authorization"];
      StartsWith(v, "Bearer ") && v[|"Bearer "|..] == st[TokenKey]
  {
    var v := WithAuthorization(headers, st)["Authorization"];
    assert v[..|"Bearer "|] == "Bearer ";
  }

  /** A failed request: with the status of the answer, or no answer. */
  datatype HttpError = HttpError(status: Option<int>)

  /** A successful answer: its status and body. */
  datatype Response = Response(status: int, body: string)

  /** How a request ends for its caller. */
  datatype Settled = Resolved(response: Response) | Rejected(error: HttpError)

  /** What the response interceptor can do besides settling: the browser's
      storage, the page it is sent to, and the callbacks it has invoked. */
  datatype Env = Env(storage: Storage, location: Option<string>, invoked: seq<nat>)

  /** The keys the fallback clears. */
  const SessionKeys: set<string> := {"token", "tokenExpiration", "userEmail"}

  /** The response interceptor. Success passes through. A 401 invokes the
      registered callback once, or, with none registered, clears the
      session keys and sends the browser to `/login`. Every error is
      rejected to the caller, unchanged. */
  function OnSettled(c: Client, env: Env, result: Settled): (r: (Env, Settled))
    ensures r.1 == result
    ensures !(result.Rejected? && result.error.status == Some(401)) ==> r.0 == env
    ensures result.Rejected? && result.error.status == Some(401) && c.callback.Some? ==>
      r.0 == env.(invoked := env.invoked + [c.callback.value])
    ensures result.Rejected? && result.error.status == Some(401) && c.callback.None? ==>
      && r.0.location == Some("/login") && r.0.invoked == env.invoked
      && (forall k :: k in SessionKeys ==> k !in r.0.storage)
      && (forall k :: k !in SessionKeys ==> (k in r.0.storage <==> k in env.storage))
      && (forall k :: k !in SessionKeys && k in env.storage ==> r.0.storage[k] == env.storage[k])
  {
    if result.Rejected? && result.error.status == Some(401) then
      match c.callback
      case Some(fn) => (env.(invoked := env.invoked + [fn]), result)
      case None => (env.(storage := env.storage - SessionKeys, location := Some("/login")), result)
    else (env, result)
  }

  /** A 401 with no callback ends the session a reload would restore; a
      second 401 changes nothing more. */
  lemma UnauthorizedEndsSession(env: Env, e: HttpError)
    requires e.status == Some(401)
    ensures var env' := OnSettled(Client(None), env, Rejected(e)).0;
      && !InitialAuth(env'.storage).isAuthenticated
      && OnSettled(Client(None), env', Rejected(e)).0 == env'
  {
    var env' := OnSettled(Client(None), env, Rejected(e)).0;
    assert env'.storage - SessionKeys == env'.storage;
  }

  /** With a callback registered, no number of 401s touches storage: each
      invokes the callback once more. */
  lemma {:induction false} CallbackLeavesStorage(fn: nat, env: Env, n: nat)
    ensures var env' := Repeat401(Client(Some(fn)), env, n);
      && env'.storage == env.storage && env'.location == env.location
      && |env'.invoked| == |env.invoked| + n && env.invoked <= env'.invoked
      && forall i :: |env.invoked| <= i < |env'.invoked| ==> env'.invoked[i] == fn
    decreases n
  {
    if n > 0 {
      var env1 := OnSettled(Client(Some(fn)), env, Rejected(HttpError(Some(401)))).0;
      CallbackLeavesStorage(fn, env1, n - 1);
      var env' := Repeat401(Client(Some(fn)), env, n);
      assert env1.invoked <= env'.invoked;
      assert env'.invoked[|env.invoked|] == env1.invoked[|env.invoked|] == fn;
    }
  }

  /** `n` requests in a row answered with 401. */
  function Repeat401(c: Client, env: Env, n: nat): Env
    decreases n
  {
    if n == 0 then env else Repeat401(c, OnSettled(c, env, Rejected(HttpError(Some(401)))).0, n - 1)
  }

  // ---------------------------------------------------------------------
  // The gate in front of the protected pages

  datatype Gate = Spinner | RedirectToLogin | Outlet

  /** The gate: a truthy loading flag wins, then the authentication flag. */
  function ProtectedRoute(isLoading: bool, isAuthenticated: bool): (g: Gate)
    ensures g == Spinner <==> isLoading
    ensures g == RedirectToLogin <==> !isLoading && !isAuthenticated
    ensures g == Outlet <==> !isLoading && isAuthenticated
  {
    if isLoading then Spinner
    else if !isAuthenticated then RedirectToLogin
    else Outlet
  }

  /** The gate as wired: the context has no loading flag, so the flag it
      reads is `undefined`, which is falsy. */
  function Guard(a: AuthState): Gate
  {
    ProtectedRoute(false, a.isAuthenticated)
  }

  /** The spinner never shows, and the outlet shows exactly for an
      authenticated session. */
  lemma SpinnerNeverShows(a: AuthState)
    ensures Guard(a) != Spinner
    ensures Guard(a) == Outlet <==> a.isAuthenticated
  {
  }

  /** On page load the protected pages open exactly when a token is stored. */
  lemma ReloadGate(st: Storage)
    ensures Guard(InitialAuth(st)) == Outlet <==> HasToken(st)
    ensures Guard(InitialAuth(st)) == RedirectToLogin <==> !HasToken(st)
  {
  }
}

=== FILE: sidebar.dfy ===
/** The side navigation: which entry is highlighted, what a click on an
    entry does, the settings submenu, and the sign-out confirmation. */
module Sidebar {
  import opened JsText
  import opened Session
  import opened Credentials

  /** The highlighted entry for a path: an exact match of one of four
      paths, and no entry for anything else. */
  function ActiveLink(path: string): (r: string)
    ensures path == "/dashboard" ==> r == "principal"
    ensures path == "/validador" ==> r == "validador"
    ensures path == "/configuracion/archivos" ==> r == "config-item1"
    ensures path == "/configuracion/usuarios" ==> r == "config-item2"
  {
    if path == "/dashboard" then "principal"
    else if path == "/validador" then "validador"
    else if path == "/configuracion/archivos" then "config-item1"
    else if path == "/configuracion/usuarios" then "config-item2"
    else ""
  }

  const LinkedPaths := ["/dashboard", "/validador", "/configuracion/archivos", "/configuracion/usuarios"]

  /** An entry is highlighted exactly on its own path, so a sub-path
      (`/configuracion/usuarios/7`) highlights nothing and no two paths
      share an entry. */
  lemma ActiveLinkExact(path: string, other: string)
    ensures ActiveLink(path) != "" <==> path in LinkedPaths
    ensures ActiveLink(path) != "" && ActiveLink(path) == ActiveLink(other) ==> path == other
  {
  }

  /** The state the sidebar keeps, with the layout's open flag it toggles. */
  datatype State = State(sidebarOpen: bool, configExpanded: bool, showModal: bool)

  /** The narrowest width, in CSS pixels, that counts as a large screen; below it a link click toggles the sidebar. */
  const LargeScreen := 768

  /** `handleLinkClick`: on a small screen toggle the sidebar; always navigate. */
  function LinkClick(s: State, route: string, width: int): (r: (State, string))
    ensures r.1 == route
    ensures r.0.sidebarOpen == (if width < LargeScreen then !s.sidebarOpen else s.sidebarOpen)
    ensures r.0.configExpanded == s.configExpanded && r.0.showModal == s.showModal
  {
    (if width < LargeScreen then s.(sidebarOpen := !s.sidebarOpen) else s, route)
  }

  /** Two link clicks at the same width leave the sidebar as it was, and on
      a large screen a click never moves it. */
  lemma LinkClickTwice(s: State, a: string, b: string, width: int)
    ensures LinkClick(LinkClick(s, a, width).0, b, width).0 == s
    ensures width >= LargeScreen ==> LinkClick(s, a, width).0 == s
  {
  }

  /** `toggleConfig`: flip the submenu. */
  function ToggleConfig(s: State): (r: State)
    ensures r.configExpanded != s.configExpanded
    ensures r.(configExpanded := s.configExpanded) == s
  {
    s.(configExpanded := !s.configExpanded)
  }

  /** Two toggles undo each other. */
  lemma ToggleConfigInvolution(s: State)
    ensures ToggleConfig(ToggleConfig(s)) == s
  {
  }

  /** `handleLogoutClick`: open the confirmation, nothing else. */
  function LogoutClick(s: State): (r: State)
    ensures r.showModal && r.(showModal := s.showModal) == s
  {
    s.(showModal := true)
  }

  /** `cancelLogout`: close the modal, nothing else. */
  function CancelLogout(s: State): (r: State)
    ensures !r.showModal && r.(showModal := s.showModal) == s
  {
    s.(showModal := false)
  }

  /** Opening and cancelling the confirmation returns to where it started. */
  lemma CancelUndoesLogoutClick(s: State)
    requires !s.showModal
    ensures CancelLogout(LogoutClick(s)) == s
  {
  }

  /** The browser state a sign-out acts on. */
  datatype Browser = Browser(local: Storage, session: Storage, auth: AuthState)

  /** `confirmLogout` as written: it removes `authToken`, a key nothing
      else in the console writes, clears session storage and goes to
      `/login`. The stored `token` and the context's state are left alone. */
  function ConfirmLogoutAsWritten(b: Browser): (r: (Browser, string))
    ensures r.1 == "/login" && r.0.session == map[]
    ensures r.0.auth == b.auth
    ensures "authToken" !in r.0.local
    ensures forall k :: k != "authToken" ==> (k in r.0.local <==> k in b.local)
    ensures forall k :: k != "authToken" && k in b.local ==> r.0.local[k] == b.local[k]
  {
    (Browser(b.local - {"authToken"}, map[], b.auth), "/login")
  }

  /** As written, signing out does not sign out: the sign-in page sees the
      session still on and sends the user back to the dashboard, the
      protected pages stay open, and a reload restores the session. */
  lemma LogoutAsWrittenKeepsSession(b: Browser)
    requires b.auth.isAuthenticated && HasToken(b.local)
    ensures var (b', target) := ConfirmLogoutAsWritten(b);
      && target == "/login"
      && LoginRedirect(b'.auth) == Some("/dashboard")
      && Guard(b'.auth) == Outlet
      && HasToken(b'.local)
      && Guard(InitialAuth(b'.local)) == Outlet
  {
    var (b', _) := ConfirmLogoutAsWritten(b);
    assert TokenKey != "authToken";
    assert b'.local[TokenKey] == b.local[TokenKey];
  }

  /** `confirmLogout` as intended: end the session through the context's
      `logout` (which removes `token`), clear session storage and go to
      `/login`. */
  function ConfirmLogout(b: Browser): (r: (Browser, string))
    ensures r.1 == "/login" && r.0.session == map[]
    ensures r.0.auth == AuthState(false, None)
    ensures TokenKey !in r.0.local
    ensures forall k :: k != TokenKey ==> (k in r.0.local <==> k in b.local)
  {
    var (auth', local') := Logout(b.local);
    (Browser(local', map[], auth'), "/login")
  }

  /** The intended sign-out ends the session everywhere: the sign-in page
      stays, the protected pages redirect to it, and a reload does not
      restore the session. */
  lemma LogoutEndsSession(b: Browser)
    ensures var (b', target) := ConfirmLogout(b);
      && target == "/login"
      && LoginRedirect(b'.auth).None?
      && Guard(b'.auth) == RedirectToLogin
      && !HasToken(b'.local)
      && Guard(InitialAuth(b'.local)) == RedirectToLogin
  {
  }
}

=== FILE: simulated_validator.dfy ===
/** The internal licence checker, which answers from three fixed records
    instead of the registry: the lookup table and the show/hide state of
    its result box. */
module SimulatedValidator {
  import opened JsText
  import opened LicenceLookup

  datatype State = State(licencia: string, estado: Estado, mostrarResultado: bool, details: Details)

  /** The three licences the checker knows, with their status and record. */
  const Known: map<string, (Estado, Details)> := map[
    "222" := (Validada, Details("Inversiones Natasha, S.A.", "Natasha Sucre", "18/12/2020", "18/12/2025")),
    "333" := (Suspendida, Details("Comercial Panamá, S.A.", "Carlos Mendoza", "05/06/2021", "05/06/2026")),
    "444" := (Cancelada, Details("Distribuidora Central, S.A.", "Luis Gómez", "10/01/2019", "10/01/2024"))]

  /** The `if`/`else if` chain of `handleSubmit`. */
  function Lookup(licencia: string): (r: (Estado, Details))
    ensures r.0 == NoEncontrada <==> r.1.NoDetails?
  {
    if licencia == "222" then
      (Validada, Details("Inversiones Natasha, S.A.", "Natasha Sucre", "18/12/2020", "18/12/2025"))
    else if licencia == "333" then
      (Suspendida, Details("Comercial Panamá, S.A.", "Carlos Mendoza", "05/06/2021", "05/06/2026"))
    else if licencia == "444" then
      (Cancelada, Details("Distribuidora Central, S.A.", "Luis Gómez", "10/01/2019", "10/01/2024"))
    else (NoEncontrada, NoDetails)
  }

  /** The chain answers from the table: a known licence gets its record,
      any other text "not found" with no details. The text is compared as
      typed, so `" 222"` is not found. */
  lemma LookupMatchesTable(licencia: string)
    ensures licencia in Known ==> Lookup(licencia) == Known[licencia]
    ensures licencia !in Known ==> Lookup(licencia) == (NoEncontrada, NoDetails)
  {
  }

  /** The three known licences have three different statuses, none of them "not found". */
  lemma KnownStatusesDistinct(a: string, b: string)
    requires a in Known && b in Known
    ensures Known[a].0 != NoEncontrada
    ensures Known[a].0 == Known[b].0 <==> a == b
  {
  }

  /** Typing hides the result. */
  function HandleChange(s: State, v: string): (r: State)
    ensures r.licencia == v && !r.mostrarResultado
    ensures r.estado == s.estado && r.details == s.details
  {
    s.(licencia := v, mostrarResultado := false)
  }

  /** Submitting shows the answer for the typed licence. */
  function Submit(s: State): (r: State)
    ensures r.mostrarResultado && r.licencia == s.licencia
    ensures (r.estado, r.details) == Lookup(s.licencia)
  {
    var (estado, details) := Lookup(s.licencia);
    State(s.licencia, estado, true, details)
  }

  /** The result box renders while shown; its detail lines only for a found licence. */
  predicate ResultBoxShown(s: State) { s.mostrarResultado }

  predicate DetailLinesShown(s: State) { s.mostrarResultado && s.estado != NoEncontrada }

  /** The page opens on licence `222`, already answered: submitting it
      again changes nothing. */
  const Initial := State("222", Validada,
    true, Details("Inversiones Natasha, S.A.", "Natasha Sucre", "18/12/2020", "18/12/2025"))

  lemma InitialIsAnswered()
    ensures Submit(Initial) == Initial
    ensures DetailLinesShown(Initial)
  {
  }

  /** The answer depends only on the text submitted: typing something and
      submitting is the same whatever was on screen before; and a
      submission's details show exactly when the text is a known licence. */
  lemma SubmitForgetsHistory(s: State, t: State, v: string)
    ensures Submit(HandleChange(s, v)) == Submit(HandleChange(t, v))
    ensures DetailLinesShown(Submit(HandleChange(s, v))) <==> v in Known
    ensures !ResultBoxShown(HandleChange(s, v))
  {
  }
}

=== FILE: upload_page.dfy ===
/** The file-upload page: the choice of a file and its preview, and the
    month-grid date picker beside it. */
module UploadPage {
  import opened JsText
  import opened Gregorian

  // ---------------------------------------------------------------------
  // The chosen file and its preview

  /** What the page reads of a `File`: its name, its MIME type and its size in bytes. */
  datatype FileInfo = FileInfo(name: string, mime: string, size: nat)

  /** The three previews: an image or a PDF shown from its data URL, or a
      generic card with the name and the extension. */
  datatype Preview =
    | ImagePreview(url: string)
    | PdfPreview(url: string)
    | GenericPreview(name: string, extension: string)

  /** A read the page has started with `FileReader.readAsDataURL`, by the
      preview it will produce once loaded. */
  datatype Reading = ReadingImage | ReadingPdf

  datatype Upload = Upload(file: Option<FileInfo>, dragActive: bool, preview: Option<Preview>)

  const NoFile := Upload(None, false, None)

  /** The extension a generic preview shows: `name.split('.').pop()`. */
  function Extension(name: string): string
  {
    LastPiece(name, '.')
  }

  /** `handleFile`: the file is kept at once. An image or a PDF starts a
      read and keeps the old preview until the read loads; anything else
      gets its generic preview straight away. */
  function HandleFile(u: Upload, f: FileInfo): (r: (Upload, Option<Reading>))
    ensures r.0.file == Some(f) && r.0.dragActive == u.dragActive
    ensures r.1 == Some(ReadingImage) <==> StartsWith(f.mime, "image/")
    ensures r.1 == Some(ReadingPdf) <==> !StartsWith(f.mime, "image/") && f.mime == "application/pdf"
    ensures r.1.Some? ==> r.0.preview == u.preview
    ensures r.1.None? ==> r.0.preview == Some(GenericPreview(f.name, Extension(f.name)))
  {
    var u' := u.(file := Some(f));
    if StartsWith(f.mime, "image/") then (u', Some(ReadingImage))
    else if f.mime == "application/pdf" then (u', Some(ReadingPdf))
    else (u'.(preview := Some(GenericPreview(f.name, Extension(f.name)))), None)
  }

  /** The reader's `onload`: the preview of the kind the read was started for. */
  function ReadLoaded(u: Upload, reading: Reading, url: string): (r: Upload)
    ensures r.file == u.file && r.dragActive == u.dragActive
    ensures reading == ReadingImage ==> r.preview == Some(ImagePreview(url))
    ensures reading == ReadingPdf ==> r.preview == Some(PdfPreview(url))
  {
    match reading
    case ReadingImage => u.(preview := Some(ImagePreview(url)))
    case ReadingPdf => u.(preview := Some(PdfPreview(url)))
  }

  /** Choosing a file and letting its read (if any) load with data URL `url`. */
  function Choose(u: Upload, f: FileInfo, url: string): Upload
  {
    var (u', reading) := HandleFile(u, f);
    if reading.Some? then ReadLoaded(u', reading.value, url) else u'
  }

  /** Once loaded, the preview's kind follows the file's type, with images
      taking precedence; whatever was previewed before is gone. */
  lemma PreviewFollowsType(u: Upload, f: FileInfo, url: string)
    ensures var p := Choose(u, f, url).preview;
      && Choose(u, f, url).file == Some(f)
      && (p == Some(ImagePreview(url)) <==> StartsWith(f.mime, "image/"))
      && (p == Some(PdfPreview(url)) <==> !StartsWith(f.mime, "image/") && f.mime == "application/pdf")
      && (p.value.GenericPreview? <==> !StartsWith(f.mime, "image/") && f.mime != "application/pdf")
  {
  }

  /** The generic preview's extension is the text after the last dot of
      the name, and the whole name when it has no dot. */
  lemma ExtensionIsTextAfterLastDot(name: string)
    ensures '.' !in Extension(name)
    ensures '.' !in name ==> Extension(name) == name
    ensures '.' in name ==>
      |Extension(name)| < |name| && name == name[..|name| - |Extension(name)| - 1] + "." + Extension(name)
  {
    LastPieceIsTextAfterLastSep(name, '.');
    var e := Extension(name);
    if '.' in name {
      assert |e| < |name|;
      assert name == name[..|name| - |e| - 1] + [name[|name| - |e| - 1]] + name[|name| - |e|..];
    }
  }

  /** The icon on a generic preview. */
  datatype Icon = WordIcon | SheetIcon | PlainIcon

  /** Word documents blue, spreadsheets green, the rest gray; the
      extension is compared as written, so `DOCX` is plain. */
  function IconOf(extension: string): (i: Icon)
    ensures i == WordIcon <==> extension in {"docx", "doc"}
    ensures i == SheetIcon <==> extension in {"xlsx", "xls"}
  {
    if extension == "docx" || extension == "doc" then WordIcon
    else if extension == "xlsx" || extension == "xls" then SheetIcon
    else PlainIcon
  }

  /** A name ending in `.docx`, `.doc`, `.xlsx` or `.xls` gets the matching
      icon, whatever dots come before. */
  lemma IconByName(base: string, ext: string)
    requires ext in {"docx", "doc", "xlsx", "xls"}
    ensures var i := IconOf(Extension(base + "." + ext));
      && (ext in {"docx", "doc"} ==> i == WordIcon)
      && (ext in {"xlsx", "xls"} ==> i == SheetIcon)
  {
    assert '.' !in ext;
    LastPieceAfterSep(base, ext, '.');
  }

  /** The remove button: no file and no preview. */
  function RemoveFile(u: Upload): (r: Upload)
    ensures r.file.None? && r.preview.None? && r.dragActive == u.dragActive
  {
    u.(file := None, preview := None)
  }

  /** Nothing cancels or checks a pending read: an image read that loads
      after a later choice of a generic file puts the image preview over
      that file. */
  lemma StaleReadOverwritesLaterChoice(u: Upload, img: FileInfo, doc: FileInfo, url: string)
    requires StartsWith(img.mime, "image/")
    requires !StartsWith(doc.mime, "image/") && doc.mime != "application/pdf"
    ensures var (u1, reading) := HandleFile(u, img);
      var (u2, _) := HandleFile(u1, doc);
      reading == Some(ReadingImage)
      && u2.preview == Some(GenericPreview(doc.name, Extension(doc.name)))
      && ReadLoaded(u2, ReadingImage, url) == Upload(Some(doc), u.dragActive, Some(ImagePreview(url)))
  {
  }

  /** The same pending read, loading after the file was removed, sets a
      preview with no file chosen. The drop zone is back on screen, which
      hides it, but it stays in the state. */
  lemma StaleReadAfterRemove(u: Upload, img: FileInfo, url: string)
    requires StartsWith(img.mime, "image/")
    ensures var (u1, reading) := HandleFile(u, img);
      var u2 := ReadLoaded(RemoveFile(u1), reading.value, url);
      && u2.file.None? && u2.preview == Some(ImagePreview(url))
      && DropZoneShown(u2) && !UploadEnabled(u2)
  {
  }

  /** The drag events the drop zone listens to. */
  datatype DragEvent = DragEnter | DragOver | DragLeave

  /** `handleDrag`: entering or moving over highlights the zone, leaving clears it. */
  function HandleDrag(u: Upload, e: DragEvent): (r: Upload)
    ensures r.dragActive <==> e != DragLeave
    ensures r.file == u.file && r.preview == u.preview
  {
    u.(dragActive := e != DragLeave)
  }

  /** `handleDrop`: the highlight goes, then only the first dropped file
      counts, and an empty list changes nothing else. */
  function HandleDrop(u: Upload, files: seq<FileInfo>): (r: (Upload, Option<Reading>))
    ensures !r.0.dragActive
    ensures |files| == 0 ==> r == (u.(dragActive := false), None)
    ensures |files| > 0 ==> r == HandleFile(u.(dragActive := false), files[0])
  {
    var u' := u.(dragActive := false);
    if |files| > 0 then HandleFile(u', files[0]) else (u', None)
  }

  /** `handleFileChange`, the hidden input's `onChange`: the first chosen
      file is handled and an empty choice changes nothing; the highlight
      is left as it was. */
  function HandleFileChange(u: Upload, files: seq<FileInfo>): (r: (Upload, Option<Reading>))
    ensures |files| == 0 ==> r == (u, None)
    ensures |files| > 0 ==> r == HandleFile(u, files[0])
    ensures r.0.dragActive == u.dragActive
  {
    if |files| > 0 then HandleFile(u, files[0]) else (u, None)
  }

  /** Choosing a file and dropping it end in the same state but for the
      highlight, which only a drop clears. */
  lemma ChooseAndDropAgree(u: Upload, files: seq<FileInfo>)
    ensures HandleDrop(u, files) == HandleFileChange(u.(dragActive := false), files)
    ensures HandleFileChange(u, files).0 == HandleDrop(u, files).0.(dragActive := u.dragActive)
  {
  }

  /** The drop zone is on screen exactly while no file is chosen, and the
      upload button is enabled exactly while one is. */
  predicate DropZoneShown(u: Upload) { u.file.None? }

  predicate UploadEnabled(u: Upload) { u.file.Some? }

  /** The text `handleUpload` shows in its alert. */
  function UploadMessage(u: Upload): (m: string)
    ensures u.file.Some? ==> m == "Archivo seleccionado: " + u.file.value.name
    ensures u.file.None? ==> m == "Archivo seleccionado: Ninguno"
  {
    "Archivo seleccionado: " + (if u.file.Some? then u.file.value.name else "Ninguno")
  }

  /** After a drop of at least one file the zone gives way to the preview
      and the button enables; removing the file brings the zone back. */
  lemma DropThenRemove(u: Upload, files: seq<FileInfo>)
    requires |files| > 0
    ensures var u' := HandleDrop(u, files).0;
      && !DropZoneShown(u') && UploadEnabled(u')
      && UploadMessage(u') == "Archivo seleccionado: " + files[0].name
      && DropZoneShown(RemoveFile(u')) && !UploadEnabled(RemoveFile(u'))
  {
  }

  // ---------------------------------------------------------------------
  // The date picker

  type Month = m: int | 1 <= m <= 12 witness 1

  /** `new Date(y, …)` reads a year from 0 to 99 as 1900 to 1999. */
  function JsYear(y: int): (r: int)
    ensures 0 <= y <= 99 ==> r == 1900 + y
    ensures !(0 <= y <= 99) ==> r == y
  {
    if 0 <= y <= 99 then 1900 + y else y
  }

  function PrevMonth(month: Month, year: int): (r: (Month, int))
    ensures month == 1 ==> r == (12, year - 1)
    ensures month > 1 ==> r == (month - 1, year)
  {
    if month == 1 then (12, year - 1) else (month - 1, year)
  }

  function NextMonth(month: Month, year: int): (r: (Month, int))
    ensures month == 12 ==> r == (1, year + 1)
    ensures month < 12 ==> r == (month + 1, year)
  {
    if month == 12 then (1, year + 1) else (month + 1, year)
  }

  /** The two arrows undo each other, and each moves by exactly one month:
      twelve steps of `NextMonth` make one year. */
  lemma ArrowsAreInverse(month: Month, year: int)
    ensures var (m, y) := NextMonth(month, year); PrevMonth(m, y) == (month, year)
    ensures var (m, y) := PrevMonth(month, year); NextMonth(m, y) == (month, year)
    ensures var (m, y) := NextMonth(month, year); 12 * y + m == 12 * year + month + 1
  {
  }

  /** The month names the header shows; past either end the array gives `undefined`. */
  function MonthName(m: int): (r: Option<string>)
    ensures r.Some? <==> 1 <= m <= 12
  {
    var names := ["Enero", "Febrero", "Marzo", "Abril", "Mayo", "Junio",
      "Julio", "Agosto", "Septiembre", "Octubre", "Noviembre", "Diciembre"];
    if 1 <= m <= 12 then Some(names[m - 1]) else None
  }

  /** No two months share a name. */
  lemma MonthNamesDistinct(m: Month, n: Month)
    ensures MonthName(m) == MonthName(n) <==> m == n
  {
  }

  /** The column headers, Monday first. */
  const Headers := ["Lu", "Ma", "Mi", "Ju", "Vi", "Sa", "Do"]

  /** The column of a `getDay()` weekday when the week starts on Monday. */
  function MondayFirst(w: int): (c: int)
    requires 0 <= w < 7
    ensures 0 <= c < 7
    ensures c == (w + 6) % 7
  {
    if w == 0 then 6 else w - 1
  }

  /** `generateDays`: one empty cell per weekday before the first, then
      the days 1 to the length of the month, for the year as `Date` reads it. */
  function GenerateDays(year: int, month: Month): (r: seq<Option<nat>>)
    ensures var offset := MondayFirst(Weekday(Date(JsYear(year), month, 1)));
      && |r| == offset + DaysInMonth(JsYear(year), month)
      && (forall i :: 0 <= i < offset ==> r[i].None?)
      && (forall i :: offset <= i < |r| ==> r[i] == Some(i - offset + 1))
  {
    var y := JsYear(year);
    var offset := MondayFirst(Weekday(Date(y, month, 1)));
    var days := DaysInMonth(y, month);
    seq(offset + days, i requires 0 <= i < offset + days => if i < offset then None else Some(i - offset + 1))
  }

  lemma ShiftMod7(n: int, k: int)
    ensures (n + k) % 7 == (n % 7 + k) % 7
  {
    var q := n / 7;
    assert n == 7 * q + n % 7;
    assert n + k == 7 * q + (n % 7 + k);
  }

  /** Within a month the weekday advances by one a day. */
  lemma WeekdayAdvances(y: int, m: Month, d: int)
    ensures Weekday(Date(y, m, d)) == (Weekday(Date(y, m, 1)) + d - 1) % 7
  {
    var n := DayNumber(Date(y, m, 1)) + 4;
    assert DayNumber(Date(y, m, d)) + 4 == n + (d - 1);
    ShiftMod7(n, d - 1);
  }

  /** Every day of the month sits in the column of its own weekday, so the
      grid under `Lu … Do` is a true calendar. */
  lemma DaysInTheirColumns(year: int, month: Month, d: int)
    requires 1 <= d <= DaysInMonth(JsYear(year), month)
    ensures var r := GenerateDays(year, month);
      var i := MondayFirst(Weekday(Date(JsYear(year), month, 1))) + d - 1;
      && 0 <= i < |r| && r[i] == Some(d)
      && i % 7 == MondayFirst(Weekday(Date(JsYear(year), month, d)))
  {
    var y := JsYear(year);
    var w1 := Weekday(Date(y, month, 1));
    var wd := Weekday(Date(y, month, d));
    WeekdayAdvances(y, month, d);
    assert wd == (w1 + (d - 1)) % 7;
    ShiftMod7(w1 + 6, d - 1);
    ShiftMod7(w1 + (d - 1), 6);
    assert MondayFirst(wd) == (wd + 6) % 7;
  }

  /** `formatDate(day)`: `DD/MM/YYYY` with the month and year on screen;
      the year is not padded. */
  function FormatDate(day: nat, month: int, year: int): string
  {
    PadStart2(NatToString(day)) + "/" + PadStart2(IntToString(month)) + "/" + IntToString(year)
  }

  /** A number below 100, padded to two digits, reads back as itself. */
  lemma TwoDigits(n: nat)
    requires n < 100
    ensures var p := PadStart2(NatToString(n));
      && |p| == 2 && '/' !in p && IsDigit(p[0]) && IsDigit(p[1]) && DigitsValue(p) == n
  {
    var p := PadStart2(NatToString(n));
    if n < 10 {
      assert NatToString(n) == [DigitChar(n)];
      assert p == ['0', DigitChar(n)];
      assert p[..1] == ['0'] && ['0'][..0] == [];
      assert DigitsValue(['0']) == 0;
    } else {
      assert NatToString(n) == NatToString(n / 10) + [DigitChar(n % 10)];
      assert NatToString(n / 10) == [DigitChar(n / 10)];
      assert p == NatToString(n);
      NatToStringRoundTrip(n);
    }
  }

  lemma YearHasNoSlash(y: int)
    ensures '/' !in IntToString(y)
  {
    var digits := NatToString(if y < 0 then -y else y);
    assert forall i :: 0 <= i < |digits| ==> IsDigit(digits[i]);
    assert IntToString(y) == if y < 0 then "-" + digits else digits;
  }

  /** The text splits on `/` into the padded day, the padded month and the
      year, and each reads back as the number it came from. */
  lemma FormatDateParts(day: nat, month: Month, year: int)
    requires day < 100
    ensures var parts := Split(FormatDate(day, month, year), '/');
      && parts == [PadStart2(NatToString(day)), PadStart2(NatToString(month)), IntToString(year)]
      && DigitsValue(parts[0]) == day && DigitsValue(parts[1]) == month
  {
    TwoDigits(day);
    TwoDigits(month);
    YearHasNoSlash(year);
    assert IntToString(month) == NatToString(month);
    SplitThree(PadStart2(NatToString(day)), PadStart2(NatToString(month)), IntToString(year), '/');
  }

  /** Different dates give different texts, so comparing texts compares
      the day, the month and the year. */
  lemma FormatDateInjective(d: nat, m: Month, y: int, d': nat, m': Month, y': int)
    requires d < 100 && d' < 100
    ensures FormatDate(d, m, y) == FormatDate(d', m', y') <==> d == d' && m == m' && y == y'
  {
    FormatDateParts(d, m, y);
    FormatDateParts(d', m', y');
    IntToStringInjective(y, y');
  }

  /** The picker's state: the chosen text, whether the grid is open, and
      the month on screen. */
  datatype Picker = Picker(fecha: string, open: bool, month: Month, year: int)

  /** The page opens on 6 February 2025, closed. */
  const InitialPicker := Picker("06/02/2025", false, 2, 2025)

  /** A day button is highlighted when the chosen text is that day's text. */
  predicate Highlighted(p: Picker, day: nat)
  {
    p.fecha == FormatDate(day, p.month, p.year)
  }

  /** Where a press lands: the text box, the calendar icon beside it, one
      of the picker's arrows, day buttons or blank space, or elsewhere. */
  datatype Target = InputBox | CalendarIcon | PrevArrow | NextArrow | DayButton(day: nat) | PickerBlank | Elsewhere

  predicate InPicker(t: Target)
  {
    t.PrevArrow? || t.NextArrow? || t.DayButton? || t.PickerBlank?
  }

  /** The document's `mousedown` listener as written: an open picker closes
      when the press is outside both the picker and the text box. The
      icon is outside both. */
  function MouseDownAsWritten(p: Picker, t: Target): (r: Picker)
    ensures r.open <==> p.open && (InPicker(t) || t == InputBox)
    ensures r.(open := p.open) == p
  {
    if p.open && !InPicker(t) && t != InputBox then p.(open := false) else p
  }

  /** The `click` handlers. The text box is read-only: pressing it opens
      the picker and typing changes nothing. The icon flips the picker.
      Arrows and day buttons exist only while the picker is open, and a
      day button only for a day of the month on screen. */
  function Click(p: Picker, t: Target): (r: Picker)
    ensures t == InputBox ==> r == p.(open := true)
    ensures t == CalendarIcon ==> r == p.(open := !p.open)
    ensures t.DayButton? && p.open && 1 <= t.day <= DaysInMonth(JsYear(p.year), p.month) ==>
      r == p.(fecha := FormatDate(t.day, p.month, p.year), open := false)
    ensures !p.open && InPicker(t) ==> r == p
    ensures r.fecha != p.fecha ==> t.DayButton?
  {
    match t
    case InputBox => p.(open := true)
    case CalendarIcon => p.(open := !p.open)
    case PrevArrow =>
      if p.open then var (m, y) := PrevMonth(p.month, p.year); p.(month := m, year := y) else p
    case NextArrow =>
      if p.open then var (m, y) := NextMonth(p.month, p.year); p.(month := m, year := y) else p
    case DayButton(d) =>
      if p.open && 1 <= d <= DaysInMonth(JsYear(p.year), p.month) then
        p.(fecha := FormatDate(d, p.month, p.year), open := false)
      else p
    case PickerBlank => p
    case Elsewhere => p
  }

  /** A press as written: the `mousedown` listener runs, the page
      re-renders, then the `click` handler of the target runs. */
  function PressAsWritten(p: Picker, t: Target): Picker
  {
    Click(MouseDownAsWritten(p, t), t)
  }

  /** As written, the icon cannot close the picker: its press first closes
      it as an outside press and then flips it open again. */
  lemma IconCannotClose(p: Picker)
    ensures PressAsWritten(p, CalendarIcon).open
    ensures p.open ==> PressAsWritten(p, CalendarIcon) == p
  {
  }

  /** The intended listener: the icon counts as part of the control. */
  function MouseDown(p: Picker, t: Target): (r: Picker)
    ensures r.open <==> p.open && (InPicker(t) || t == InputBox || t == CalendarIcon)
    ensures r.(open := p.open) == p
  {
    if p.open && !InPicker(t) && t != InputBox && t != CalendarIcon then p.(open := false) else p
  }

  function Press(p: Picker, t: Target): Picker
  {
    Click(MouseDown(p, t), t)
  }

  /** With the intended listener the icon flips the picker, a press
      elsewhere closes it, and the text box opens it. */
  lemma IconToggles(p: Picker)
    ensures Press(p, CalendarIcon) == p.(open := !p.open)
    ensures Press(p, Elsewhere) == p.(open := false)
    ensures Press(p, InputBox) == p.(open := true)
  {
  }

  /** The two listeners differ only on a press of the icon while the picker
      is open, and never in the chosen text. */
  lemma ListenersAgreeOffTheIcon(p: Picker, t: Target)
    ensures PressAsWritten(p, t).fecha == Press(p, t).fecha
    ensures PressAsWritten(p, t) != Press(p, t) ==> t == CalendarIcon && p.open
  {
  }

  /** The chosen text is always the text of a day the picker offered: a
      day of its month, the month and year as written. */
  ghost predicate IsPickedDate(fecha: string)
  {
    exists d: nat, m: Month, y: int :: 1 <= d <= DaysInMonth(JsYear(y), m) && fecha == FormatDate(d, m, y)
  }

  /** Picking a day highlights exactly that day and closes the picker. */
  lemma PickHighlightsOnlyThatDay(p: Picker, d: nat, e: nat)
    requires p.open && 1 <= d <= DaysInMonth(JsYear(p.year), p.month)
    requires 1 <= e <= DaysInMonth(JsYear(p.year), p.month)
    ensures var p' := PressAsWritten(p, DayButton(d));
      && !p'.open && IsPickedDate(p'.fecha)
      && (Highlighted(p', e) <==> e == d)
  {
    FormatDateInjective(d, p.month, p.year, e, p.month, p.year);
  }

  /** The initial text is the text of 6 February 2025. */
  lemma InitialPickerIsPicked()
    ensures InitialPicker.fecha == FormatDate(6, 2, 2025)
    ensures Highlighted(InitialPicker, 6)
    ensures IsPickedDate(InitialPicker.fecha)
  {
    assert NatToString(2025) == NatToString(202) + "5";
    assert NatToString(202) == NatToString(20) + "2";
    assert NatToString(20) == "2" + "0";
    assert DaysInMonth(JsYear(2025), 2) == 28;
  }

  /** A run of presses, each handled by the listener as written. */
  function Run(p: Picker, presses: seq<Target>): Picker
    decreases |presses|
  {
    if |presses| == 0 then p else Run(PressAsWritten(p, presses[0]), presses[1..])
  }

  /** One press keeps the chosen text a picked date, and only a day button changes it. */
  lemma PressKeepsPickedDate(p: Picker, t: Target)
    requires IsPickedDate(p.fecha)
    ensures IsPickedDate(PressAsWritten(p, t).fecha)
    ensures !t.DayButton? ==> PressAsWritten(p, t).fecha == p.fecha
  {
    var q := PressAsWritten(p, t);
    if q.fecha != p.fecha {
      var d := t.day;
      assert 1 <= d <= DaysInMonth(JsYear(p.year), p.month) && q.fecha == FormatDate(d, p.month, p.year);
    }
  }

  /** Whatever the user presses, the chosen text stays the text of a day
      the picker offered. */
  lemma {:induction false} RunKeepsPickedDate(p: Picker, presses: seq<Target>)
    requires IsPickedDate(p.fecha)
    ensures IsPickedDate(Run(p, presses).fecha)
    decreases |presses|
  {
    if |presses| > 0 {
      var q := PressAsWritten(p, presses[0]);
      assert Run(p, presses) == Run(q, presses[1..]);
      PressKeepsPickedDate(p, presses[0]);
      RunKeepsPickedDate(q, presses[1..]);
    }
  }

  /** Without a day button the chosen text does not change. */
  lemma {:induction false} OnlyDayButtonsPick(p: Picker, presses: seq<Target>)
    requires forall i :: 0 <= i < |presses| ==> !presses[i].DayButton?
    ensures Run(p, presses).fecha == p.fecha
    decreases |presses|
  {
    if |presses| > 0 {
      var q := PressAsWritten(p, presses[0]);
      assert Run(p, presses) == Run(q, presses[1..]);
      assert q.fecha == p.fecha;
      assert forall i :: 0 <= i < |presses[1..]| ==> presses[1..][i] == presses[i + 1];
      OnlyDayButtonsPick(q, presses[1..]);
    }
  }
}

=== FILE: user_forms.dfy ===
/** The user modals: the create and edit forms (no validation of their
    own beyond the browser's `required` and `type="email"` checks), how the
    edit form is filled from a user, the read-only view and the delete
    confirmation. */
module UserForms {
  import opened JsText
  import opened FormValidity
  import opened RecordList
  import opened Users

  /** The form inputs, named as their `name` attributes. */
  datatype Field = Code | Name | Email | Phone | Kind | Status

  function Get(u: User, f: Field): string
  {
    match f
    case Code => u.code
    case Name => u.name
    case Email => u.email
    case Phone => u.phone
    case Kind => u.kind
    case Status => u.status
  }

  /** `handleChange`: `{ ...prev, [name]: value }`, only the named field changes. */
  function HandleChange(form: User, f: Field, value: string): (r: User)
    ensures Get(r, f) == value
    ensures forall g :: g != f ==> Get(r, g) == Get(form, g)
  {
    match f
    case Code => form.(code := value)
    case Name => form.(name := value)
    case Email => form.(email := value)
    case Phone => form.(phone := value)
    case Kind => form.(kind := value)
    case Status => form.(status := value)
  }

  /** Two changes of the same field: the later value wins. */
  lemma LastChangeWins(form: User, f: Field, a: string, b: string)
    ensures HandleChange(HandleChange(form, f, a), f, b) == HandleChange(form, f, b)
  {
  }

  /** Changing a field to the value it already has changes nothing. */
  lemma ChangeToSameValue(form: User, f: Field)
    ensures HandleChange(form, f, Get(form, f)) == form
  {
  }

  /** The blank form both modals start from: a new client, active. */
  const EmptyForm := User("", "", "", "", "Cliente", "Activo")

  /** The create modal's effect: each time it opens the form is blank again;
      while it stays closed the form is kept. */
  function CreateFormOnOpen(form: User, isOpen: bool): (r: User)
    ensures isOpen ==> forall f :: f != Kind && f != Status ==> Get(r, f) == ""
    ensures isOpen ==> r.kind == "Cliente" && r.status == "Activo"
    ensures !isOpen ==> r == form
  {
    if isOpen then EmptyForm else form
  }

  /** The edit modal's effect when its `user` changes: copy the user (an
      empty role becomes `Cliente`, an empty status `Activo`); with no user
      the form is left as it was. */
  function EditFormOnUser(form: User, user: Option<User>): (r: User)
    ensures user.None? ==> r == form
    ensures user.Some? ==> forall f :: f != Kind && f != Status ==> Get(r, f) == Get(user.value, f)
    ensures user.Some? ==> r.kind == (if user.value.kind != "" then user.value.kind else "Cliente")
    ensures user.Some? ==> r.status == (if user.value.status != "" then user.value.status else "Activo")
  {
    match user
    case None => form
    case Some(u) =>
      User(u.code, u.name, u.email, u.phone,
           if u.kind != "" then u.kind else "Cliente",
           if u.status != "" then u.status else "Activo")
  }

  /** When the fill runs, a user whose role and status are filled in fills
      the form with itself, so an edit saved untouched hands back an equal
      record. The fill does not run again when the same user is reopened
      (see `ReopenKeepsAbandonedEdits`). */
  lemma EditUntouchedRoundTrip(form: User, u: User)
    requires u.kind != "" && u.status != ""
    ensures EditFormOnUser(form, Some(u)) == u
  {
  }

  /** Filling the form is idempotent: refilling from what it shows changes nothing. */
  lemma EditFillIdempotent(form: User, u: User)
    ensures var r := EditFormOnUser(form, Some(u));
      EditFormOnUser(r, Some(r)) == r
  {
  }

  /** The edit modal's effect as React runs it. Its dependency is the
      selected user object, so it runs only when the selection moves to
      another object (another reference). The modal stays mounted while
      closed, so the form survives closing. */
  function SelectionEffect(form: User, before: Option<nat>, after: Option<Entry<User>>): (r: User)
    ensures after.Some? && before == Some(after.value.ref) ==> r == form
    ensures after.None? ==> r == form
    ensures after.Some? && before != Some(after.value.ref) ==> r == EditFormOnUser(form, Some(after.value.value))
  {
    match after
    case None => EditFormOnUser(form, None)
    case Some(e) => if before == Some(e.ref) then form else EditFormOnUser(form, Some(e.value))
  }

  /** Open a user for editing, change a field, cancel, and open the same
      user again: the selection did not change, so the form still holds the
      abandoned value, and submitting it saves that value. */
  lemma ReopenKeepsAbandonedEdits(p: Page<User>, form: User, e: Entry<User>, f: Field, v: string)
    requires p.selected != Some(e.ref)
    requires f != Kind && f != Status && v != Get(e.value, f)
    ensures var p1 := OpenEdit(p, e.ref);
      var form1 := SelectionEffect(form, p.selected, Some(e));
      var form2 := HandleChange(form1, f, v);
      var p2 := CloseModals(p1, false, false, true, false);
      var p3 := OpenEdit(p2, e.ref);
      && Get(form1, f) == Get(e.value, f)
      && p3.editOpen && p3.selected == Some(e.ref)
      && SelectionEffect(form2, p2.selected, Some(e)) == form2
      && Get(form2, f) == v != Get(e.value, f)
      && (Submittable(form2) ==> SubmitUser(p3, form2) == Save(p3, form2, UserSelection))
  {
  }

  /** After a save the selection is cleared, so the next edit of any user,
      the saved one included, fills the form afresh. */
  lemma EditAfterSaveRefills(p: Page<User>, data: User, form: User, e: Entry<User>)
    ensures var q := Save(p, data, UserSelection);
      SelectionEffect(form, q.selected, Some(e)) == EditFormOnUser(form, Some(e.value))
  {
  }

  /** The browser lets a user form reach `handleSubmit` only when name,
      document, e-mail and phone are filled in (`required`) and the e-mail
      is a valid address (`type="email"`); the two selects always hold a
      value. */
  predicate Submittable(form: User)
  {
    && Filled(form.name) && Filled(form.code) && Filled(form.phone)
    && Filled(form.email) && EmailOk(form.email)
  }

  /** Pressing the submit button of either modal: the browser drops an
      invalid form; otherwise `handleSubmit` hands the data, as it stands,
      to the list's save handler, which replaces the selected user (edit)
      or appends a new one (create). */
  function SubmitUser(p: Page<User>, form: User): (q: Page<User>)
    ensures !Submittable(form) ==> q == p
    ensures Submittable(form) ==> q == Save(p, form, UserSelection)
  {
    if Submittable(form) then Save(p, form, UserSelection) else p
  }

  /** A valid form is saved exactly as typed; an invalid one changes
      nothing. Submittable means four filled texts and a valid address. */
  lemma SubmitSavesFormAsIs(p: Page<User>, form: User)
    ensures Submittable(form) <==>
      form.name != "" && form.code != "" && form.phone != "" && ValidEmail(form.email)
    ensures var q := SubmitUser(p, form);
      && (!Submittable(form) ==> q == p)
      && (Submittable(form) ==>
            && q.selected.None?
            && (p.editOpen && p.selected.Some? ==>
                  |q.entries| == |p.entries|
                  && forall i :: 0 <= i < |q.entries| && p.entries[i].ref == p.selected.value ==> q.entries[i].value == form)
            && (!(p.editOpen && p.selected.Some?) ==>
                  |q.entries| == |p.entries| + 1 && q.entries[|p.entries|].value == form))
  {
    RequiredEmail(form.email);
  }

  /** The create modal submitted as it opens is stopped by the browser: the
      blank required fields keep the list as it was. */
  lemma BlankCreateIsBlocked(p: Page<User>, form: User)
    ensures !Submittable(CreateFormOnOpen(form, true))
    ensures SubmitUser(p, CreateFormOnOpen(form, true)) == p
  {
  }

  /** An address without `@` stops the submission too, however complete
      the rest of the form is. */
  lemma AddressWithoutAtIsBlocked(p: Page<User>, form: User)
    requires form.email != "" && '@' !in form.email
    ensures SubmitUser(p, form) == p
  {
    assert Split(form.email, '@') == [form.email];
  }

  /** What the view modal shows. The status badge is always green. */
  datatype UserView = UserView(
    name: string,
    code: string,
    email: string,
    phone: string,
    kind: string,
    status: string,
    statusStyle: Style)

  /** `ViewUserModal`: nothing while closed; `N/A` for every missing field. */
  function ViewUser(isOpen: bool, user: Option<User>): (v: Option<UserView>)
    ensures v.Some? <==> isOpen
    ensures v.Some? ==> v.value.statusStyle == Green
    ensures v.Some? && user.None? ==> forall f :: Shown(v.value, f) == NA
    ensures v.Some? && user.Some? ==> forall f :: Shown(v.value, f) == TextCell(Get(user.value, f))
  {
    if !isOpen then None
    else
      var u := match user case Some(u) => u case None => User("", "", "", "", "", "");
      Some(UserView(TextCell(u.name), TextCell(u.code), TextCell(u.email), TextCell(u.phone),
                    TextCell(u.kind), TextCell(u.status), Green))
  }

  /** The text the view shows for one field. */
  function Shown(v: UserView, f: Field): string
  {
    match f
    case Code => v.code
    case Name => v.name
    case Email => v.email
    case Phone => v.phone
    case Kind => v.kind
    case Status => v.status
  }

  /** The view's badge and the list's badge disagree for an inactive user:
      green in the modal, red in the table. */
  lemma ViewBadgeIgnoresStatus(u: User)
    requires u.status == "Inactivo"
    ensures ViewUser(true, Some(u)).value.statusStyle == Green
    ensures StatusStyle(u.status) == Red
  {
  }
}

=== FILE: users.dfy ===
/** The console user list: the record shape, the two seeded users, the
    role/status filter and the status badge colours. The list page is the
    shared `RecordList` page over these records. */
module Users {
  import opened Seqs
  import opened JsText
  import opened RecordList

  datatype User = User(
    code: string,
    name: string,
    email: string,
    phone: string,
    kind: string,
    status: string)

  /** The page starts with the same administrator twice: two distinct
      objects with equal contents. */
  function Seeds(): (r: seq<User>)
    ensures |r| == 2 && r[0] == r[1]
  {
    var melissa := User("00000000000", "Melissa Castro", "melicadmin@emp.co", "33333333", "Administrador", "Activo");
    [melissa, melissa]
  }

  const StatusPrefix := "status-"

  function KeepAll(): User -> bool { (u: User) => true }

  function HasStatus(status: string): User -> bool { (u: User) => u.status == status }

  function HasKind(kind: string): User -> bool { (u: User) => u.kind == kind }

  /** What a filter value selects: every user for `''`, one status for
      `status-<status>`, and otherwise the users whose role is the value.
      Every value selects something. */
  function UserSelection(v: string): (r: Option<User -> bool>)
    ensures r.Some?
    ensures v == "" ==> r == Some(KeepAll())
    ensures v != "" && StartsWith(v, StatusPrefix) ==> r == Some(HasStatus(v[|StatusPrefix|..]))
    ensures v != "" && !StartsWith(v, StatusPrefix) ==> r == Some(HasKind(v))
  {
    if v == "" then Some(KeepAll())
    else if StartsWith(v, StatusPrefix) then
      ReplacePrefix(v, StatusPrefix);
      Some(HasStatus(ReplaceFirst(v, StatusPrefix, "")))
    else Some(HasKind(v))
  }

  /** "Todos" shows every user. */
  lemma AllFilterShowsAll(p: Page<User>)
    ensures ApplyFilter(p, "", UserSelection).displayed == p.entries
  {
    FilterAll(p.entries, Holds(KeepAll()));
  }

  /** A status option shows exactly the users with that status, in list order. */
  lemma StatusFilterShowsStatus(p: Page<User>, status: string)
    ensures var q := ApplyFilter(p, StatusPrefix + status, UserSelection);
      && q.displayed == Filter(p.entries, Holds(HasStatus(status)))
      && Subseq(q.displayed, p.entries)
      && (forall i :: 0 <= i < |q.displayed| ==> q.displayed[i].value.status == status)
      && (forall i :: 0 <= i < |p.entries| && p.entries[i].value.status == status ==> p.entries[i] in q.displayed)
  {
    var v := StatusPrefix + status;
    assert StartsWith(v, StatusPrefix) && v[|StatusPrefix|..] == status;
  }

  /** Any other value is a role: it shows exactly the users of that role. */
  lemma KindFilterShowsKind(p: Page<User>, v: string)
    requires v != "" && !StartsWith(v, StatusPrefix)
    ensures var q := ApplyFilter(p, v, UserSelection);
      && q.displayed == Filter(p.entries, Holds(HasKind(v)))
      && Subseq(q.displayed, p.entries)
      && (forall i :: 0 <= i < |q.displayed| ==> q.displayed[i].value.kind == v)
      && (forall i :: 0 <= i < |p.entries| && p.entries[i].value.kind == v ==> p.entries[i] in q.displayed)
  {
  }

  /** After every filter choice the list shown is what the filter selects. */
  lemma FilterAlwaysConsistent(p: Page<User>, v: string)
    ensures DisplayConsistent(ApplyFilter(p, v, UserSelection), UserSelection)
    ensures UserSelection(v).Some?
  {
  }

  /** The page starts consistent: both seeded users shown, references distinct. */
  lemma InitialPageConsistent()
    ensures RefsFresh(Initial(Seeds())) && DisplayConsistent(Initial(Seeds()), UserSelection)
  {
    InitialConsistent(Seeds(), UserSelection);
  }

  /** Deleting one of the two identical seeded users keeps the other: the
      page deletes an object, not a value. */
  lemma DuplicateSurvivesDelete(r: nat)
    requires r < 2
    ensures var q := DeleteButton(OpenDelete(Initial(Seeds()), r), UserSelection);
      && |q.entries| == 1
      && q.entries[0].ref == 1 - r
      && q.entries[0].value == Seeds()[r]
  {
    var p := OpenDelete(Initial(Seeds()), r);
    var es := p.entries;
    assert es[0].ref == 0 && es[1].ref == 1;
    assert es[1..][1..] == [];
    assert Filter(es, OtherRef(r)) == [es[1 - r]];
  }

  /** `getStatusStyles(status)`: green for `Activo`, red for `Inactivo`,
      grey for anything else. */
  function StatusStyle(status: string): (s: Style)
    ensures s == Green <==> status == "Activo"
    ensures s == Red <==> status == "Inactivo"
    ensures s != Yellow
  {
    if status == "Activo" then Green
    else if status == "Inactivo" then Red
    else Gray
  }
}
